=== FILE: README.md ===
# Skincare catalogue: REST vs GraphQL benchmark, modelled in Dafny

The system is an Android shop for skincare products with a Node backend.
The backend serves one catalogue over two transports: a REST API and a
GraphQL API. The catalogue holds individual products, packages of items
and resellers. The app also contains a benchmark suite that measures
the two transports against each other. This project models the logic of
that system that stays deterministic once readings, clocks, randomness
and transports become inputs, and proves properties of it.

- **Catalogue and repository** (`catalogue.dfy`, `product_repository.dfy`).
  Each repository operation (products, packages, product and package
  images) maps a transport outcome to the flow it emits: `Loading`, then
  exactly one `Success` or `Error`. This includes the REST status and
  body checks, the GraphQL error list and null-data defaults, and the
  GraphQL id conversion with `toInt()`.
- **Backend helpers** (`backend_query.dfy`, `reseller_grid.dfy`).
  - The optional `limit` becomes a ` LIMIT $1` clause. On the REST side
    this goes through JavaScript's `parseInt`, which is modelled with
    whitespace skipping, a sign, a `0x` prefix, the longest digit prefix
    and NaN.
  - A package's YAML-loaded `items` value is normalised to an array.
  - The two transports serve the same package row.
  - Resellers are spread over a map grid: `distributeResellersEvenly`,
    with the grid cell as an abstract function and each shuffle as an
    arbitrary permutation.
- **Cart** (`cart.dfy`, `cart_slots.dfy`). The cart store's add and
  remove operations, its item count, and the total on the cart screen.
  Also the cart list's row kinds, the three item spinners of a package
  row, and the list differ's identity.
- **Package card** (`package_slots.dfy`). Three mutually exclusive item
  slots, their drop-down options, clicks, and the selection handed to the
  cart.
- **Benchmark suite**:
  - `trials.dfy`: one trial and its record, the `-1` failure record, and
    the four runners.
  - `statistics.dfy`: the statistics fold.
  - `sweep.dfy`: the two-round, order-reversing sweep of 104
    configurations.
  - `result_files.dfy`: the two CSV files.
  - `cpu_tracker.dfy`, `memory_tracker.dfy`: the CPU and memory trackers
    as guarded state machines.
  - `quick_test.dfy`: the screen's quick comparison (R, G, G, R with
    averaging) and the truncation of long result text.
  - `complexity.dfy`: the fixed complexity table, its summary and its
    CSV.

Shared pieces are in `common.dfy`:

- `Option` and `Call`, where `Call` is "returned a value or threw with an
  optional message";
- Kotlin's `filter`, `indexOf`, `trim`, `split` and `joinToString`;
- integer rendering and `toInt()`.

Times and memory figures are `int`. CPU figures, percentages, prices and
scores are `real`. Kotlin's truncating `Long / 2` is written out.
Kotlin's `average()` of an empty list, which gives NaN, is `None`.

## Model

| member | source | states |
|---|---|---|
| Common.Filter | app/src/main/java/com/skincare/apitest/ui/PackageProductAdapter.kt:113-115 | Kotlin `filter`: the kept elements satisfy the predicate and are exactly the list's elements that satisfy it |
| Common.FilterAppend | app/src/main/java/com/skincare/apitest/repository/CartRepository.kt:47 | filtering distributes over concatenation, so it keeps the relative order of what it keeps |
| Common.IndexOf | app/src/main/java/com/skincare/apitest/ui/CombinedCartAdapter.kt:134 | Kotlin `indexOf`: -1 exactly when the element is absent, otherwise a position holding it with no earlier occurrence |
| Common.Trim | app/src/main/java/com/skincare/apitest/repository/CartRepository.kt:31 | Kotlin `trim()`: the result is the slice of the input that starts where the leading whitespace ends, everything outside it on either side is whitespace, and it neither starts nor ends with whitespace |
| Common.TrimStart | app/src/main/java/com/skincare/apitest/repository/CartRepository.kt:31 | the leading part `trim()` drops is all whitespace and what remains is a suffix not starting with whitespace |
| Common.TrimEnd | app/src/main/java/com/skincare/apitest/repository/CartRepository.kt:31 | the trailing part `trim()` drops is all whitespace and what remains is a prefix not ending with whitespace |
| Common.TrimIsSlice | app/src/main/java/com/skincare/apitest/repository/CartRepository.kt:31 | trimming the end of a whitespace-stripped suffix leaves a slice of the input with only whitespace on either side |
| Common.Split | app/src/main/java/com/skincare/apitest/repository/CartRepository.kt:31 | Kotlin `split(",")`: at least one part, and no part contains the delimiter |
| Common.SplitCount | app/src/main/java/com/skincare/apitest/repository/CartRepository.kt:31 | a split has one more part than the text has delimiters (empty parts are kept) |
| Common.JoinSplit | app/src/main/java/com/skincare/apitest/repository/CartRepository.kt:31 | joining the parts of a split with the delimiter gives back the original text |
| Common.SplitJoin | app/src/main/java/com/skincare/apitest/performance/PerformanceTestManager.kt:1045-1095 | splitting a comma-join of comma-free fields gives back the fields, the basis of reading a CSV row back |
| Common.NatToString | app/src/main/java/com/skincare/apitest/repository/ProductRepository.kt:76 | decimal rendering: non-empty and made of digits only |
| Common.IntToString | app/src/main/java/com/skincare/apitest/repository/ProductRepository.kt:35 | Kotlin's integer `toString()`: non-empty and never contains a comma or a line break |
| Common.DigitsOfNat | app/src/main/java/com/skincare/apitest/repository/ProductRepository.kt:76 | the decimal value of a natural number's rendering is the number |
| Common.ParseInt32 | app/src/main/java/com/skincare/apitest/repository/ProductRepository.kt:45 | Kotlin `toInt()`: any value it returns lies in the 32-bit range; otherwise it throws (None) |
| Common.ParseRendered | app/src/main/java/com/skincare/apitest/repository/ProductRepository.kt:45 | every 32-bit integer, rendered with `toString()`, is read back by `toInt()` unchanged |
| Common.ParseNegative | app/src/main/java/com/skincare/apitest/repository/ProductRepository.kt:45 | the round trip of rendering and `toInt()` for negative 32-bit integers |
| Common.ParseNonNegative | app/src/main/java/com/skincare/apitest/repository/ProductRepository.kt:45 | the round trip of rendering and `toInt()` for non-negative 32-bit integers |
| Common.CharUnits | app/src/main/java/com/skincare/apitest/performance/PerformanceTestActivity.kt:585-590 | a character is one UTF-16 unit below 0x10000 and two otherwise, each unit below 0x10000 |
| Common.Utf16 | app/src/main/java/com/skincare/apitest/performance/PerformanceTestActivity.kt:585-590 | the UTF-16 code units of a string, each below 0x10000, with `DecodeUtf16OfUtf16` as its round trip |
| Common.Utf16Length | app/src/main/java/com/skincare/apitest/performance/PerformanceTestActivity.kt:585 | Kotlin `length`: between the number of characters and twice it, equal to it exactly when no character is astral |
| Common.Utf16LengthIsUnits | app/src/main/java/com/skincare/apitest/performance/PerformanceTestActivity.kt:585 | the length counts exactly the code units of the encoding |
| Common.Utf16Append | app/src/main/java/com/skincare/apitest/performance/PerformanceTestManager.kt:515 | encoding and length distribute over concatenation |
| Common.DecodeUtf16 | app/src/main/java/com/skincare/apitest/performance/PerformanceTestActivity.kt:585-590 | decoding yields at most one character per unit, and fails on a lone surrogate |
| Common.DecodeCharUnits | app/src/main/java/com/skincare/apitest/performance/PerformanceTestActivity.kt:585-590 | a character's units decode to it, whatever follows |
| Common.DecodeUtf16OfUtf16 | app/src/main/java/com/skincare/apitest/performance/PerformanceTestActivity.kt:585-590 | every string decodes back from its UTF-16 units |
| Catalogue.ApiTypeName | app/src/main/java/com/skincare/apitest/model/Product.kt:44-47 | the enum constant names RETROFIT and GRAPHQL contain no comma or line break, so they are safe CSV fields |
| Catalogue.EntryNames | app/src/main/java/com/skincare/apitest/repository/CartRepository.kt:31 | one `items` entry gives one trimmed name per comma-separated part: one more than its comma count |
| Catalogue.ItemNames | app/src/main/java/com/skincare/apitest/repository/CartRepository.kt:31 | the flattened item names are at least as many as the entries |
| Catalogue.ItemNamesAppend | app/src/main/java/com/skincare/apitest/repository/CartRepository.kt:31 | flattening distributes over concatenation of entry lists, so the names keep the entries' order |
| Catalogue.ItemNamesOfSingleNames | app/src/main/java/com/skincare/apitest/repository/CartRepository.kt:31 | entries without commas give exactly one name each, the trimmed entry, position by position |
| Catalogue.ItemNamesStep | app/src/main/java/com/skincare/apitest/repository/CartRepository.kt:31 | one comma-free entry in front of entries that map to their trimmed selves keeps the position-by-position correspondence |
| Catalogue.SingleNameEntry | app/src/main/java/com/skincare/apitest/repository/CartRepository.kt:31 | an entry without a comma contributes exactly its trimmed self |
| ProductRepository.LastEmitted | app/src/main/java/com/skincare/apitest/repository/ProductRepository.kt:24-25 | a collector holds nothing exactly when nothing was emitted |
| ProductRepository.Emit | app/src/main/java/com/skincare/apitest/repository/ProductRepository.kt:24-25 | every operation emits `Loading` and then exactly one terminal value, which is what a collector ends with |
| ProductRepository.RestList | app/src/main/java/com/skincare/apitest/repository/ProductRepository.kt:28-37 | the REST branch always ends in `Success` or `Error`, never `Loading` |
| ProductRepository.MapConverted | app/src/main/java/com/skincare/apitest/repository/ProductRepository.kt:43-51 | a throwing `map` returns iff every element converts, then element by element; otherwise it throws the message of a failing element |
| ProductRepository.MapProducts | app/src/main/java/com/skincare/apitest/repository/ProductRepository.kt:43-51 | the GraphQL products map iff every id passes `toInt()`, field for field; otherwise the NumberFormatException message of a bad id |
| ProductRepository.MapPackages | app/src/main/java/com/skincare/apitest/repository/ProductRepository.kt:113-121 | as for products, with a null `items` list becoming the empty list |
| ProductRepository.GetProducts | app/src/main/java/com/skincare/apitest/repository/ProductRepository.kt:24-59 | Loading then one terminal value; REST: `Error: <code>` for a non-2xx code, "Empty response body" for a null body, else the body; GraphQL: the first error message, `Success([])` for null data, success iff every id converts; an exception's message (or "Unknown error occurred") |
| ProductRepository.GetPackages | app/src/main/java/com/skincare/apitest/repository/ProductRepository.kt:94-129 | the same outcome table as `getProducts` for packages |
| ProductRepository.GetImage | app/src/main/java/com/skincare/apitest/repository/ProductRepository.kt:61-92 | `getProductImage` and `getPackageImage` (ProductRepository.kt:131-162), which differ only in the endpoint and are both this one function: Loading then one terminal value; REST: "Empty image data" for a null body; GraphQL: success with the image when present, "Image not found" otherwise (never an empty success) |
| ProductRepository.GraphQLMatchesRest | app/src/main/java/com/skincare/apitest/repository/ProductRepository.kt:39-52 | a product list served by the GraphQL resolver (ids as strings) maps back to exactly what REST delivers, for 32-bit ids |
| BackendQuery.TrimJsStart | backend/server.js:30 | the whitespace `parseInt` skips: the result is a suffix of the input that does not start with ECMAScript whitespace |
| BackendQuery.TrimDropsOnlyWhitespace | backend/server.js:30 | everything `parseInt` skips before the number is whitespace |
| BackendQuery.HexDigitValue | backend/server.js:30 | a hexadecimal digit is worth less than 16, and a decimal digit its decimal value |
| BackendQuery.LeadingDigits | backend/server.js:30 | the digits `parseInt` reads are the longest prefix of digits of the radix |
| BackendQuery.ParseIntJs | backend/server.js:30 | `parseInt` gives NaN, an infinity, or a finite number of magnitude below 2^1024 - 2^970, the point from which a double overflows |
| BackendQuery.ParseSigned | backend/server.js:30 | after the whitespace, one sign is read and the rest parsed; an infinity is negative exactly after a minus sign, and a finite result stays below the overflow bound |
| BackendQuery.Signed | backend/server.js:30 | NaN exactly when no digit was read, an infinity of the read sign exactly when the magnitude reaches the overflow bound, otherwise the value, negated after a minus sign |
| BackendQuery.ParseUnsigned | backend/server.js:30 | a number is read only from text that starts with a decimal digit (a `0x` prefix starts with `0`) |
| BackendQuery.DecimalDigitsValue | backend/server.js:30 | a run of decimal digits has the radix-10 value of its decimal reading |
| BackendQuery.LeadingOfDigits | backend/server.js:30 | digits followed by a non-digit are read up to the non-digit and no further |
| BackendQuery.ParseIntOfRendered | backend/server.js:30 | `parseInt` reads back the decimal rendering of every integer below the overflow bound in magnitude, ignoring a tail that does not continue the digits |
| BackendQuery.ParseIntOfNegative | backend/server.js:30 | a minus sign before a rendered magnitude below the overflow bound reads as the negated magnitude |
| BackendQuery.ParseIntOfNegativeInt | backend/server.js:30 | `parseInt` reads back the rendering of every negative integer above minus the overflow bound |
| BackendQuery.ParseIntOfNegativeAt | backend/server.js:30 | helper for `ParseIntOfNegativeInt`: the same negated read-back as `ParseIntOfNegative`, stated about a string the caller names so that the caller's goal matches it |
| BackendQuery.ParseIntOfNonNegative | backend/server.js:30 | `parseInt` reads back the rendering of every non-negative integer below the overflow bound, after `0` unless an `x` follows |
| BackendQuery.ParseOfUnsigned | backend/server.js:30 | text starting with a digit whose unsigned reading is below the overflow bound parses to that number |
| BackendQuery.InfiniteOfUnsigned | backend/server.js:30 | text starting with a digit whose unsigned reading reaches the overflow bound parses to positive Infinity |
| BackendQuery.ParsesRendered | backend/server.js:30 | the rendering of a natural number below the overflow bound parses back to it |
| BackendQuery.NegativeRendering | backend/server.js:30 | a negative number renders as a minus sign before its magnitude |
| BackendQuery.MinusSign | backend/server.js:30 | a leading minus sign negates the unsigned number after it, when that is below the overflow bound |
| BackendQuery.NoLeadingSpace | backend/server.js:30 | text that does not start with whitespace is not trimmed |
| BackendQuery.UnsignedOfRendered | backend/server.js:30 | the unsigned reading of a rendered natural number followed by a non-digit is that number |
| BackendQuery.ParseIntWithoutDigits | backend/server.js:30 | a text without any decimal digit parses to NaN |
| BackendQuery.WithLimit | backend/server.js:34-37 | the ` LIMIT $1` clause and its one parameter come together, exactly for a truthy limit; otherwise the query is unchanged and has no parameter |
| BackendQuery.RestLimit | backend/server.js:30 | a missing or empty `limit` query parameter is null; any other is `parseInt` of it |
| BackendQuery.PlaceholderMatchesParams | backend/server.js:34-37 | the query text grows past the base exactly when a parameter is bound, and always starts with the base |
| BackendQuery.ZeroOrNonNumericIsWholeTable | backend/server.js:30-37 | a limit that parses to 0 or NaN, like an absent one, leaves the query without `LIMIT` |
| BackendQuery.NoDigitsMeansNoLimit | backend/server.js:30-37 | a `limit` without a single digit reads the whole table |
| BackendQuery.ZeroMeansNoLimit | backend/server.js:246-254 | `limit=0` gives no `LIMIT` on either transport |
| BackendQuery.TransportsAgree | backend/server.js:246-254 | `?limit=n` on REST and `limit: n` on GraphQL build the same query for every integer n a double can hold (every GraphQL `Int` among them), also with a non-digit tail on the REST text |
| BackendQuery.PositiveLimitIsBound | backend/server.js:34-37 | a positive limit below the overflow bound is bound as the clause's single parameter |
| BackendQuery.HugeLimitIsInfinity | backend/server.js:30-37 | a digit string at the overflow bound reads as Infinity, which is truthy, so REST binds `LIMIT $1` to Infinity where GraphQL binds the number |
| BackendQuery.RestQueryOfParsed | backend/server.js:30 | the REST query depends on a non-empty `limit` only through what `parseInt` makes of it |
| BackendQuery.NormalizeItems | backend/server.js:68-71 | an array stays as it is; any other loaded value becomes a one-element list when truthy and the empty list when falsy |
| BackendQuery.NormalizeIsIdempotent | backend/server.js:68-71 | normalising an already normalised list changes nothing |
| BackendQuery.FalsyLoadsGiveNoItems | backend/server.js:68-71 | an empty document, null, false, 0, NaN and "" give no items |
| BackendQuery.ScalarLoadIsOneItem | backend/server.js:68-71 | a truthy non-array value is the one item |
| BackendQuery.OrNull | backend/server.js:77 | the `or null` default: a truthy value is kept and a falsy one becomes null |
| BackendQuery.TransportsServeTheSamePackage | backend/server.js:281-290 | REST and GraphQL serve a package row with the same name, items, price and image, and the GraphQL id is the decimal rendering of the REST id, which the app's `toInt()` reads back for every 32-bit id |
| Cart.Append | app/src/main/java/com/skincare/apitest/repository/CartRepository.kt:22-25 | one item goes at the end, everything before it is unchanged, and the count is republished as the new size |
| Cart.AddToCart | app/src/main/java/com/skincare/apitest/repository/CartRepository.kt:21-26 | the product is appended as an `IndividualProduct`, earlier items are unchanged, and the count equals the list size |
| Cart.AddPackageToCart | app/src/main/java/com/skincare/apitest/repository/CartRepository.kt:28-36 | the package is appended with every item name (entries split on commas and trimmed, in order) selected; the count equals the list size |
| Cart.AddCustomPackageToCart | app/src/main/java/com/skincare/apitest/repository/CartRepository.kt:38-43 | the custom package is appended as given; the count equals the list size |
| Cart.RemoveFromCart | app/src/main/java/com/skincare/apitest/repository/CartRepository.kt:45-50 | afterwards the product is not in the cart, and an item is kept iff it was there and is not that product; the count equals the list size |
| Cart.RemovePackageFromCart | app/src/main/java/com/skincare/apitest/repository/CartRepository.kt:52-59 | every package entry with the same base id goes, whatever its selection, and every other item is kept; the count equals the list size |
| Cart.RemoveKeepsOrder | app/src/main/java/com/skincare/apitest/repository/CartRepository.kt:45-48 | removing a product from a list made of two parts removes it from each part, so the kept items stay in order |
| Cart.RemovePackageKeepsOrder | app/src/main/java/com/skincare/apitest/repository/CartRepository.kt:52-57 | removing a package distributes over concatenation, so the kept items stay in order |
| Cart.RemoveAbsentProduct | app/src/main/java/com/skincare/apitest/repository/CartRepository.kt:45-48 | removing a product the cart does not hold leaves the list unchanged |
| Cart.RemoveIsIdempotent | app/src/main/java/com/skincare/apitest/repository/CartRepository.kt:45-50 | removing the same product twice is removing it once |
| Cart.AddThenRemoveRestores | app/src/main/java/com/skincare/apitest/repository/CartRepository.kt:21-24 | adding a product the cart did not hold and then removing it gives back the original list |
| Cart.RemovePackageKeepsProducts | app/src/main/java/com/skincare/apitest/repository/CartRepository.kt:52-57 | package removal and product removal commute: removing a package never touches individual products |
| Cart.FilterCommute | app/src/main/java/com/skincare/apitest/repository/CartRepository.kt:47 | two successive `removeAll` filters give the same list in either order |
| Cart.AddCustomThenRemovePackage | app/src/main/java/com/skincare/apitest/repository/CartRepository.kt:38-57 | adding a package when none with its id is in the cart, then removing that id, gives back the original list |
| Cart.Total | app/src/main/java/com/skincare/apitest/CartActivity.kt:91-96 | an empty cart totals 0 |
| Cart.TotalAppend | app/src/main/java/com/skincare/apitest/CartActivity.kt:91-96 | the total of two parts is the sum of their totals |
| Cart.AddRaisesTotal | app/src/main/java/com/skincare/apitest/CartActivity.kt:91-96 | adding a product raises the total by its price |
| Cart.AddPackageRaisesTotal | app/src/main/java/com/skincare/apitest/CartActivity.kt:91-96 | adding a package raises the total by its base package's price, whatever its selection |
| Cart.RemoveLowersTotal | app/src/main/java/com/skincare/apitest/CartActivity.kt:91-96 | removing a product lowers the total by its price once per removed entry |
| Cart.RemoveStep | app/src/main/java/com/skincare/apitest/CartActivity.kt:91-96 | the removal-lowers-total relation extends from a list to the list with one more item in front |
| PackageSlots.Bind | app/src/main/java/com/skincare/apitest/ui/PackageProductAdapter.kt:71-78 | binding gives three empty slots over the package's item names, a consistent card (slots distinct, every choice one of the items) |
| PackageSlots.Options | app/src/main/java/com/skincare/apitest/ui/PackageProductAdapter.kt:108-119 | "Select an item" first, then exactly the items chosen nowhere or chosen by this slot; an item chosen in another slot is offered only if this slot holds it too; the offered items keep the package's order (the package's items with the excluded ones filtered out) |
| PackageSlots.FreshOptionsOfferEverything | app/src/main/java/com/skincare/apitest/ui/PackageProductAdapter.kt:108-119 | on a freshly bound card every slot offers the placeholder followed by all item names in order |
| PackageSlots.Click | app/src/main/java/com/skincare/apitest/ui/PackageProductAdapter.kt:98-101 | a click writes only the clicked slot: the empty selection for position 0, otherwise the clicked option `Options(st, i)[position]`, which is an item of the package not chosen in another slot |
| PackageSlots.ClickKeepsConsistent | app/src/main/java/com/skincare/apitest/ui/PackageProductAdapter.kt:98-118 | clicking keeps the card consistent: no item in two slots, every choice one of the items |
| PackageSlots.CurrentSelectedItems | app/src/main/java/com/skincare/apitest/ui/PackageProductAdapter.kt:141-148 | the selection handed on is the non-empty slot texts: at most three, none empty, exactly the non-empty slot values |
| PackageSlots.FreshCardSelectsNothing | app/src/main/java/com/skincare/apitest/ui/PackageProductAdapter.kt:75-78 | a freshly bound card hands on an empty selection |
| PackageSlots.SelectionIsFromPackage | app/src/main/java/com/skincare/apitest/ui/PackageProductAdapter.kt:141-148 | a consistent card hands on at most three distinct names, all items of the package |
| PackageSlots.FilterKeepsDistinct | app/src/main/java/com/skincare/apitest/ui/PackageProductAdapter.kt:147 | filtering a list whose kept elements occur once keeps each of them once |
| PackageSlots.SameContentsIsSamePackage | app/src/main/java/com/skincare/apitest/ui/PackageProductAdapter.kt:152-158 | equal contents imply the same identity (equal ids), as the list differ requires |
| CartSlots.ViewType | app/src/main/java/com/skincare/apitest/ui/CombinedCartAdapter.kt:26-31 | view type 1 exactly for individual products and 2 exactly for packages |
| CartSlots.CreateHolder | app/src/main/java/com/skincare/apitest/ui/CombinedCartAdapter.kt:33-45 | creation throws exactly for a view type other than 1 and 2, and makes a product row exactly for 1 |
| CartSlots.EveryItemGetsItsHolder | app/src/main/java/com/skincare/apitest/ui/CombinedCartAdapter.kt:26-52 | every cart item gets a row of its own kind, so creation never throws and the binding cast never fails |
| CartSlots.SpinnerItems | app/src/main/java/com/skincare/apitest/ui/CombinedCartAdapter.kt:133-136 | spinner i offers exactly the items that are selected nowhere or whose first selected slot is i |
| CartSlots.NothingSelectedShowsAll | app/src/main/java/com/skincare/apitest/ui/CombinedCartAdapter.kt:133-136 | with no stored selection every spinner offers the whole list in order |
| CartSlots.SelectedItemShownOnce | app/src/main/java/com/skincare/apitest/ui/CombinedCartAdapter.kt:133-136 | no selected item is offered by two spinners |
| CartSlots.DuplicateShownAtFirstSlotOnly | app/src/main/java/com/skincare/apitest/ui/CombinedCartAdapter.kt:133-136 | an item selected in two slots is offered by the first of them and not by the later one |
| CartSlots.IndexOfFirst | app/src/main/java/com/skincare/apitest/ui/CombinedCartAdapter.kt:134 | `indexOf` of an element with no earlier occurrence is its position |
| CartSlots.InitialItem | app/src/main/java/com/skincare/apitest/ui/CombinedCartAdapter.kt:146 | a spinner starts on its stored selection if there is one, else the first offered item, else "" |
| CartSlots.SelectionIndex | app/src/main/java/com/skincare/apitest/ui/CombinedCartAdapter.kt:147 | the spinner is set to the item's position when it is offered, and to 0 otherwise |
| CartSlots.StoredSelectionIsShown | app/src/main/java/com/skincare/apitest/ui/CombinedCartAdapter.kt:133-148 | a stored selection that is an item and held by no earlier slot is what its spinner starts on |
| CartSlots.OnItemSelected | app/src/main/java/com/skincare/apitest/ui/CombinedCartAdapter.kt:157-160 | the listener throws exactly when the stored selection has no slot at the index; otherwise it writes the new item there and leaves the other slots alone |
| CartSlots.ShortSelectionThrows | app/src/main/java/com/skincare/apitest/ui/CombinedCartAdapter.kt:146-160 | with fewer stored selections than the spinner's index, the spinner's first report (its initial item) makes the listener throw |
| CartSlots.ShortSelectionExample | app/src/main/java/com/skincare/apitest/ui/CombinedCartAdapter.kt:128-160 | items A, B, C with only A chosen: spinner 1 offers B and C, starts on B, and reporting B throws, while the padded listener records [A, B] |
| CartSlots.SelectingTwiceIsSelectingOnce | app/src/main/java/com/skincare/apitest/ui/CombinedCartAdapter.kt:157-160 | reporting the same item twice is reporting it once |
| CartSlots.OnItemSelectedPadded | app/src/main/java/com/skincare/apitest/ui/CombinedCartAdapter.kt:157-160 | the bounds-safe listener records the item at the index, pads any missing slots with "", and leaves existing other slots alone |
| CartSlots.PaddedAgreesWhenInRange | app/src/main/java/com/skincare/apitest/ui/CombinedCartAdapter.kt:157-160 | where the listener as written returns, the padded listener gives the same list |
| CartSlots.SameContentsIsSameItem | app/src/main/java/com/skincare/apitest/ui/CombinedCartAdapter.kt:188-198 | `areContentsTheSame` implies `areItemsTheSame`, and a product and a package are never the same item |
| CartSlots.SelectionDoesNotChangeIdentity | app/src/main/java/com/skincare/apitest/ui/CombinedCartAdapter.kt:191 | two package entries with the same base package are the same item whatever their selections |
| Statistics.Kept | app/src/main/java/com/skincare/apitest/performance/PerformanceTestManager.kt:994 | only successful results with a positive time are kept, so the `-1` sentinel of a failed call never enters the figures |
| Statistics.MinOf | app/src/main/java/com/skincare/apitest/performance/PerformanceTestManager.kt:1017 | the minimum is one of the times and no time is below it |
| Statistics.MaxOf | app/src/main/java/com/skincare/apitest/performance/PerformanceTestManager.kt:1018 | the maximum is one of the times and no time is above it |
| Statistics.SquaredDeviations | app/src/main/java/com/skincare/apitest/performance/PerformanceTestManager.kt:1024 | a sum of squared deviations is never negative |
| Statistics.SumBounds | app/src/main/java/com/skincare/apitest/performance/PerformanceTestManager.kt:1016 | a sum of values between two bounds lies between the count times each bound |
| Statistics.MeanBetween | app/src/main/java/com/skincare/apitest/performance/PerformanceTestManager.kt:1016-1018 | the average lies between the minimum and the maximum |
| Statistics.QuotientBetween | app/src/main/java/com/skincare/apitest/performance/PerformanceTestManager.kt:1016 | a sum divided by its count lies between the bounds of its elements |
| Statistics.TimingFigures | app/src/main/java/com/skincare/apitest/performance/PerformanceTestManager.kt:1012-1025 | for positive times: a positive minimum, minimum ≤ average ≤ maximum, the average is the mean, and the variance is not negative |
| Statistics.MeanTimesCount | app/src/main/java/com/skincare/apitest/performance/PerformanceTestManager.kt:1016 | the average times the number of times is their sum |
| Statistics.VarianceNonNegative | app/src/main/java/com/skincare/apitest/performance/PerformanceTestManager.kt:1024 | the variance is never negative |
| Statistics.CalculateStatistics | app/src/main/java/com/skincare/apitest/performance/PerformanceTestManager.kt:993-1039 | identity fields come from the first result, with fixed fallbacks for an empty list; with nothing counted every figure, the success rate included, is zero |
| Statistics.CountedFigures | app/src/main/java/com/skincare/apitest/performance/PerformanceTestManager.kt:1012-1039 | when something counted, the minimum and maximum are counted times bounding all the others, the average is their mean between them, the variance is not negative, and the memory and CPU averages are the means of the counted results' figures |
| Statistics.CountedAverages | app/src/main/java/com/skincare/apitest/performance/PerformanceTestManager.kt:1013-1020 | with something counted, the memory average times the count is the summed memory, and likewise for CPU |
| Statistics.SuccessRateOverAll | app/src/main/java/com/skincare/apitest/performance/PerformanceTestManager.kt:1021 | the success rate is the counted results as a percentage of all results, above 0 and at most 100 |
| Statistics.RateBounds | app/src/main/java/com/skincare/apitest/performance/PerformanceTestManager.kt:1021 | a count of k out of n, with 0 < k ≤ n, is a percentage above 0 and at most 100 |
| Statistics.RateFalls | app/src/main/java/com/skincare/apitest/performance/PerformanceTestManager.kt:1021 | the same count over more results is a lower rate |
| Statistics.UncountedResultsOnlyLowerTheRate | app/src/main/java/com/skincare/apitest/performance/PerformanceTestManager.kt:993-1039 | adding results that do not count leaves every timing, memory and CPU figure and the variance as they were, and never raises the success rate |
| Statistics.SquaredDeviationsAtValue | app/src/main/java/com/skincare/apitest/performance/PerformanceTestManager.kt:1024 | values all equal to x have no squared deviation from x, and sum to the count times x |
| Statistics.EqualTimesHaveNoSpread | app/src/main/java/com/skincare/apitest/performance/PerformanceTestManager.kt:1016-1025 | when every counted time is the same, the average, minimum and maximum are that time and the variance is zero |
| Statistics.SentinelExample | app/src/main/java/com/skincare/apitest/performance/PerformanceTestManager.kt:994-1024 | times 100, 150 and a failed -1: average 125, minimum 100, maximum 150, variance 625, and a success rate of two thirds of 100 |
| Statistics.SentinelIsDropped | app/src/main/java/com/skincare/apitest/performance/PerformanceTestManager.kt:994 | the failed -1 result is the one left out |
| Statistics.PairFigures | app/src/main/java/com/skincare/apitest/performance/PerformanceTestManager.kt:1016-1024 | the times 100 and 150 have mean 125, minimum 100, maximum 150 and variance 625 |
| Trials.TrialFault | app/src/main/java/com/skincare/apitest/performance/PerformanceTestManager.kt:482-490 | a trial is aborted exactly when starting the CPU tracker or the measured work threw, and carries that throw's message |
| Trials.ProbeOf | app/src/main/java/com/skincare/apitest/performance/PerformanceTestManager.kt:483-504 | memory usage is a fresh reading and its peak is still the start reading; CPU usage is the usage since the start (0 if the reading threw) and its peak is that usage floored at 0 |
| Trials.EndingError | app/src/main/java/com/skincare/apitest/performance/PerformanceTestManager.kt:509-510 | a message exactly when the flow's last value is an `Error`, and then that value's message and no success |
| Trials.CallRecord | app/src/main/java/com/skincare/apitest/performance/PerformanceTestManager.kt:498-539 | the record carries the configuration, succeeds iff the last value was `Success`, has the elapsed time, placeholder zeros for network, parsing and first render, the probe's figures, complexity 1, and the transfer size of the successful payload (0 on failure) |
| Trials.FailureRecord | app/src/main/java/com/skincare/apitest/performance/PerformanceTestManager.kt:547-572 | the failure record carries the configuration, the `-1` time, zero resources, transfer and complexity, and the exception's message, and never counts in the statistics |
| Trials.ProductChars | app/src/main/java/com/skincare/apitest/performance/PerformanceTestManager.kt:515 | the UTF-16 length (Kotlin `length`) of product names and descriptions, summed: not negative, with `ProductCharsAppend` pinning the sum |
| Trials.ItemChars | app/src/main/java/com/skincare/apitest/performance/PerformanceTestManager.kt:900 | the UTF-16 length of a package's item entries, summed: not negative, with `ItemCharsAppend` pinning the sum |
| Trials.PackageChars | app/src/main/java/com/skincare/apitest/performance/PerformanceTestManager.kt:900 | the UTF-16 length of package names and items, summed: not negative, with `PackageCharsAppend` pinning the sum |
| Trials.ResellerChars | app/src/main/java/com/skincare/apitest/performance/PerformanceTestManager.kt:907 | the UTF-16 length of shop names, reseller names and cities (0 for a missing city), summed: not negative, with `ResellerCharsAppend` pinning the sum |
| Trials.ProductCharsAppend | app/src/main/java/com/skincare/apitest/performance/PerformanceTestManager.kt:515 | the product count of a split list is the sum of the parts' counts, and one product counts its name and description in UTF-16 units |
| Trials.ItemCharsAppend | app/src/main/java/com/skincare/apitest/performance/PerformanceTestManager.kt:900 | the item count is additive, one item counting its UTF-16 length |
| Trials.PackageCharsAppend | app/src/main/java/com/skincare/apitest/performance/PerformanceTestManager.kt:900 | the package count is additive, one package counting its name and its items |
| Trials.ResellerCharsAppend | app/src/main/java/com/skincare/apitest/performance/PerformanceTestManager.kt:907 | the reseller count is additive, one reseller counting its shop name, its name and its city or 0 |
| Trials.FirstRecord | app/src/main/java/com/skincare/apitest/performance/PerformanceTestManager.kt:482-575 | a repetition appends its normal record, or the failure record when the trial threw |
| Trials.PauseRecord | app/src/main/java/com/skincare/apitest/performance/PerformanceTestManager.kt:545-574 | a delay that throws after the normal record adds exactly one failure record |
| Trials.Iteration | app/src/main/java/com/skincare/apitest/performance/PerformanceTestManager.kt:481-576 | one repetition appends one record, and a second, failure record only when its delay threw |
| Trials.PauseFaults | app/src/main/java/com/skincare/apitest/performance/PerformanceTestManager.kt:545 | at most one extra record per repetition |
| Trials.RecordCount | app/src/main/java/com/skincare/apitest/performance/PerformanceTestManager.kt:481-578 | a run has one record per repetition plus one per delay that threw |
| Trials.RunTagged | app/src/main/java/com/skincare/apitest/performance/PerformanceTestManager.kt:481-578 | when both record builders stamp a configuration, every record of the run carries it |
| Trials.RunProductTest | app/src/main/java/com/skincare/apitest/performance/PerformanceTestManager.kt:471-579 | one record per repetition plus one per throwing delay, each tagged "PRODUCTS", "INDIVIDUAL_PRODUCTS_ONLY" with the given size and load |
| Trials.RunPackageTest | app/src/main/java/com/skincare/apitest/performance/PerformanceTestManager.kt:584-692 | one record per repetition plus one per throwing delay, each tagged "PACKAGES" with the given size and load |
| Trials.SearchQuery | app/src/main/java/com/skincare/apitest/performance/PerformanceTestManager.kt:699-703 | each search term is one of the five names |
| Trials.SearchQueriesCycle | app/src/main/java/com/skincare/apitest/performance/PerformanceTestManager.kt:703 | the search terms repeat every five iterations, iteration i using term i mod 5 |
| Trials.RunResellerSearchTest | app/src/main/java/com/skincare/apitest/performance/PerformanceTestManager.kt:697-801 | one record per repetition plus one per throwing delay, each tagged "RESELLER_SEARCH" with the default limit 50 and load 100 |
| Trials.ScenarioError | app/src/main/java/com/skincare/apitest/performance/PerformanceTestManager.kt:882-888 | the message names the first step, in scenario order, whose flow ended in `Error`, and there is none when all steps succeeded |
| Trials.ScenarioRecord | app/src/main/java/com/skincare/apitest/performance/PerformanceTestManager.kt:877-946 | the scenario succeeds iff all four steps ended in `Success`; network time is the four step times added up, first render is the product step's time, complexity is 4, and the transfer size adds the successful payloads |
| Trials.ScenarioFailureRecord | app/src/main/java/com/skincare/apitest/performance/PerformanceTestManager.kt:956-983 | a failed scenario has `-1` in every time field, zero memory, CPU, transfer size and query complexity, the caller's timestamp, no success and the exception's message, and never counts |
| Trials.RunRealWorldScenarioTest | app/src/main/java/com/skincare/apitest/performance/PerformanceTestManager.kt:807-988 | one record per repetition plus one per throwing delay, each tagged "REAL_WORLD_SCENARIO" with size 184 and load 100 |
| Trials.ScenarioVerdicts | app/src/main/java/com/skincare/apitest/performance/PerformanceTestManager.kt:877-888 | a scenario with every step successful has no message; a failed product step is reported as a product error even if later steps failed too |
| Trials.RunQuickTest | app/src/main/java/com/skincare/apitest/performance/PerformanceTestManager.kt:1100-1163 | the quick test throws exactly when the trial was aborted, with the same message; otherwise its record is tagged "QUICK_TEST" with size 50 and load 100, succeeds iff the last value was `Success`, and has no transfer size and no complexity |
| Trials.ConnectivityOfRepositoryFlow | app/src/main/java/com/skincare/apitest/performance/PerformanceTestManager.kt:140-185 | against a flow of `Loading` then one terminal value, the connectivity check is true exactly when that value is a `Success` |
| Sweep.NestedLoop | app/src/main/java/com/skincare/apitest/performance/PerformanceTestManager.kt:343-344 | a nested loop runs |outer| times |inner| iterations |
| Sweep.NestedLoopAt | app/src/main/java/com/skincare/apitest/performance/PerformanceTestManager.kt:343-344 | iteration (i, j) of the nested loop comes at position i times |inner| plus j, with the outer loop outermost |
| Sweep.VisitPlan | app/src/main/java/com/skincare/apitest/performance/PerformanceTestManager.kt:342-388 | one visit runs 26 configurations |
| Sweep.VisitPlanAt | app/src/main/java/com/skincare/apitest/performance/PerformanceTestManager.kt:32-33 | step 3i+j of a visit is the products test at the i-th data size and j-th load level, step 12+3i+j the packages test at the same pair, then the search and the real-world scenario |
| Sweep.Rounds | app/src/main/java/com/skincare/apitest/performance/PerformanceTestManager.kt:328-397 | each round visits two APIs |
| Sweep.VisitOrder | app/src/main/java/com/skincare/apitest/performance/PerformanceTestManager.kt:319-329 | the visits are REST, GraphQL, then GraphQL, REST: the order flips after the first round |
| Sweep.Schedule | app/src/main/java/com/skincare/apitest/performance/PerformanceTestManager.kt:328-404 | the sweep runs 104 configurations |
| Sweep.ScheduleAt | app/src/main/java/com/skincare/apitest/performance/PerformanceTestManager.kt:328-394 | configuration 26v+k is step k of the plan against the v-th visit's API |
| Sweep.JobConfig | app/src/main/java/com/skincare/apitest/performance/PerformanceTestManager.kt:345-384 | a job's records are stamped with the job's API |
| Sweep.JobResults | app/src/main/java/com/skincare/apitest/performance/PerformanceTestManager.kt:345-384 | a job yields one record per repetition plus one per throwing delay, each tagged with the job's configuration |
| Sweep.RunJobs | app/src/main/java/com/skincare/apitest/performance/PerformanceTestManager.kt:345-388 | one statistics record per job |
| Sweep.StatisticsInOrder | app/src/main/java/com/skincare/apitest/performance/PerformanceTestManager.kt:345-388 | statistics record i summarises exactly the records of job i |
| Sweep.RecordTotal | app/src/main/java/com/skincare/apitest/performance/PerformanceTestManager.kt:34 | with the runners' 100 repetitions, each job contributes 100 records plus one per throwing delay |
| Sweep.RunCompletePerformanceTest | app/src/main/java/com/skincare/apitest/performance/PerformanceTestManager.kt:282-415 | 104 statistics records, record i summarising job i of the schedule, whatever the connectivity checks say (the `connected` parameter is unused) |
| Sweep.StatisticsIdentity | app/src/main/java/com/skincare/apitest/performance/PerformanceTestManager.kt:345-388 | each statistics record carries its job's API, test type, data size and load level |
| Sweep.SweepTotals | app/src/main/java/com/skincare/apitest/performance/PerformanceTestManager.kt:282-415 | the sweep collects 10400 records plus one per throwing delay, and statistics record p is for the API of visit p div 26 |
| Sweep.StatisticsApi | app/src/main/java/com/skincare/apitest/performance/PerformanceTestManager.kt:328-394 | statistics record p is for the API of visit p div 26 |
| ResultFiles.Line | app/src/main/java/com/skincare/apitest/performance/PerformanceTestManager.kt:1069-1072 | every line written ends in a line break |
| ResultFiles.RawFields | app/src/main/java/com/skincare/apitest/performance/PerformanceTestManager.kt:1066-1072 | a raw record has one field per header column, 18 in all |
| ResultFiles.StatisticsFields | app/src/main/java/com/skincare/apitest/performance/PerformanceTestManager.kt:1079-1085 | a statistics record has one field per header column, 11 in all |
| ResultFiles.RawRowReadsBack | app/src/main/java/com/skincare/apitest/performance/PerformanceTestManager.kt:1068-1072 | a raw row whose free-text fields hold no comma splits back into exactly its 18 fields: the whole error message (empty when missing) is one field, the success field is "true" iff the call succeeded, and the size and load fields parse back to the record's values |
| ResultFiles.RawFieldsAvoid | app/src/main/java/com/skincare/apitest/performance/PerformanceTestManager.kt:1069-1072 | no field of a raw row holds a comma or a line break unless a free-text field or the number rendering brings it in |
| ResultFiles.AvoidsAppend | app/src/main/java/com/skincare/apitest/performance/PerformanceTestManager.kt:1069-1072 | field lists free of a character stay free of it when joined |
| ResultFiles.StatisticsRowReadsBack | app/src/main/java/com/skincare/apitest/performance/PerformanceTestManager.kt:1082-1085 | a statistics row whose test type holds no comma splits back into exactly its 11 fields, the test type and success rate among them |
| ResultFiles.RawFileLines | app/src/main/java/com/skincare/apitest/performance/PerformanceTestManager.kt:1065-1073 | the raw file has the header's line breaks plus one per record, when no free-text field holds a line break |
| ResultFiles.RowLine | app/src/main/java/com/skincare/apitest/performance/PerformanceTestManager.kt:1068-1072 | each raw record takes exactly one line |
| ResultFiles.OneBreak | app/src/main/java/com/skincare/apitest/performance/PerformanceTestManager.kt:1072 | text without a line break followed by one has exactly one |
| ResultFiles.JoinFree | app/src/main/java/com/skincare/apitest/performance/PerformanceTestManager.kt:1069-1072 | joining fields without line breaks on commas gives no line break |
| Complexity.DifficultyName | app/src/main/java/com/skincare/apitest/performance/ComplexityAnalyzer.kt:38-40 | every difficulty has a non-empty name with no comma, so it is one CSV field |
| Complexity.AnalyzeComplexity | app/src/main/java/com/skincare/apitest/performance/ComplexityAnalyzer.kt:45-61 | eight records, the four REST ones first and the four Apollo ones after |
| Complexity.EveryTotalIsTheMeanScore | app/src/main/java/com/skincare/apitest/performance/ComplexityAnalyzer.kt:67-208 | every record's total score is the mean of its maintainability and readability scores |
| Complexity.Average | app/src/main/java/com/skincare/apitest/performance/ComplexityAnalyzer.kt:244 | `average()` is NaN exactly for an empty list, and otherwise the value whose count-fold is the sum |
| Complexity.OfApi | app/src/main/java/com/skincare/apitest/performance/ComplexityAnalyzer.kt:239-240 | selecting by client text keeps exactly the records whose `apiType` is that text |
| Complexity.SummaryFromResults | app/src/main/java/com/skincare/apitest/performance/ComplexityAnalyzer.kt:291-307 | each client's total lines are the sum over its records, and its means are NaN exactly when it has no records |
| Complexity.GetComplexitySummary | app/src/main/java/com/skincare/apitest/performance/ComplexityAnalyzer.kt:268-286 | the fixed analysis counts 245 REST lines against 425 Apollo lines |
| Complexity.SelectByApi | app/src/main/java/com/skincare/apitest/performance/ComplexityAnalyzer.kt:268-276 | selecting the analysis by client gives exactly its REST and its Apollo half, of 245 and 425 lines |
| Complexity.LineTotals | app/src/main/java/com/skincare/apitest/performance/ComplexityAnalyzer.kt:67-208 | the REST components add up to 245 lines and the Apollo ones to 425 |
| Complexity.RetrofitOfAnalysis | app/src/main/java/com/skincare/apitest/performance/ComplexityAnalyzer.kt:271 | the REST selection of the analysis is the four REST records |
| Complexity.ApolloOfAnalysis | app/src/main/java/com/skincare/apitest/performance/ComplexityAnalyzer.kt:272 | the Apollo selection of the analysis is the four Apollo records |
| Complexity.RetrofitHalf | app/src/main/java/com/skincare/apitest/performance/ComplexityAnalyzer.kt:67-136 | the REST records are all selected as REST and none as Apollo |
| Complexity.ApolloHalf | app/src/main/java/com/skincare/apitest/performance/ComplexityAnalyzer.kt:140-209 | the Apollo records are all selected as Apollo and none as REST |
| Complexity.SummaryOfTheAnalysis | app/src/main/java/com/skincare/apitest/performance/ComplexityAnalyzer.kt:268-307 | the fresh summary equals the summary of the analysis, with mean cyclomatic complexity 7 against 9, maintainability 7.875 against 6.875, readability 8.25 against 6.75 and total 8.0625 against 6.8125 |
| Complexity.RetrofitMeans | app/src/main/java/com/skincare/apitest/performance/ComplexityAnalyzer.kt:67-136 | the REST means: cyclomatic 7, maintainability 7.875, readability 8.25, total 8.0625 |
| Complexity.ApolloMeans | app/src/main/java/com/skincare/apitest/performance/ComplexityAnalyzer.kt:140-209 | the Apollo means: cyclomatic 9, maintainability 6.875, readability 6.75, total 6.8125 |
| Complexity.AverageOf4 | app/src/main/java/com/skincare/apitest/performance/ComplexityAnalyzer.kt:244 | four values average to their sum over 4 |
| Complexity.ComplexityFields | app/src/main/java/com/skincare/apitest/performance/ComplexityAnalyzer.kt:230-235 | a record line has one field per header column |
| Complexity.SummaryFields | app/src/main/java/com/skincare/apitest/performance/ComplexityAnalyzer.kt:253-255 | the summary line has one field per summary column |
| Complexity.ComplexityRowReadsBack | app/src/main/java/com/skincare/apitest/performance/ComplexityAnalyzer.kt:232-236 | a record line whose texts hold no comma splits back into exactly its 10 fields, component, difficulty and line count among them; the total score is not written, so it does not change the line |
| CpuTracker.StartTracking | app/src/main/java/com/skincare/apitest/performance/CPUTracker.kt:25-39 | a start while tracking changes nothing; otherwise the baseline becomes the current readings and peak, total and count restart at zero; a CPU read that throws leaves the flag raised and the rest as it was |
| CpuTracker.StopTracking | app/src/main/java/com/skincare/apitest/performance/CPUTracker.kt:44-52 | stopping only clears the flag, and is a no-op when idle |
| CpuTracker.Reset | app/src/main/java/com/skincare/apitest/performance/CPUTracker.kt:256-263 | after a reset the tracker is idle with zero peak and zero average |
| CpuTracker.IntervalUsage | app/src/main/java/com/skincare/apitest/performance/CPUTracker.kt:62-69 | the usage is 0 when no wall time passed, and not negative when CPU time did not go back |
| CpuTracker.GetCurrentCpuUsage | app/src/main/java/com/skincare/apitest/performance/CPUTracker.kt:57-86 | a successful read gives the usage since the baseline, moves the baseline to the new readings, raises the peak to it, adds it to the total and counts it; a read that throws gives 0 and changes nothing |
| CpuTracker.GetAverageCpuUsage | app/src/main/java/com/skincare/apitest/performance/CPUTracker.kt:98-104 | the average is 0 before any sample, and otherwise times the count gives the total |
| CpuTracker.PeakOf | app/src/main/java/com/skincare/apitest/performance/CPUTracker.kt:18 | the peak is at least zero, at least every sample, and is zero or one of the samples |
| CpuTracker.RunSummary | app/src/main/java/com/skincare/apitest/performance/CPUTracker.kt:57-86 | after a start, a run of samples leaves exactly the count, the sum and the peak of the successful samples, and never touches the flag |
| CpuTracker.AverageBelowPeak | app/src/main/java/com/skincare/apitest/performance/CPUTracker.kt:91-104 | the peak bounds every counted sample, and the average never exceeds the peak |
| CpuTracker.SumBelowCountTimesMax | app/src/main/java/com/skincare/apitest/performance/CPUTracker.kt:98-104 | values bounded by m sum to at most their count times m |
| CpuTracker.GetSystemCpuInfo | app/src/main/java/com/skincare/apitest/performance/CPUTracker.kt:135-169 | total is the sum of the eight counters, non-idle is the total without idle and I/O wait, usage times the total is 100 times non-idle for a positive total and 0 otherwise; a failed or non-aggregate read gives all zeros |
| CpuTracker.SystemUsageIsPercentage | app/src/main/java/com/skincare/apitest/performance/CPUTracker.kt:152-159 | with non-negative counters the system usage lies between 0 and 100 |
| MemoryTracker.CurrentUsage | app/src/main/java/com/skincare/apitest/performance/MemoryTracker.kt:57-77 | the usage is the larger of the runtime figure and, with a debugger, the allocation figure; 0 when the reading failed |
| MemoryTracker.StartTracking | app/src/main/java/com/skincare/apitest/performance/MemoryTracker.kt:25-36 | a start while tracking changes nothing; otherwise baseline and peak become the current usage |
| MemoryTracker.StopTracking | app/src/main/java/com/skincare/apitest/performance/MemoryTracker.kt:41-52 | a stop clears the flag and raises the peak to the final usage if larger, keeping the baseline; a no-op when idle |
| MemoryTracker.GetMemoryDelta | app/src/main/java/com/skincare/apitest/performance/MemoryTracker.kt:89-91 | the delta is how far the peak lies above the baseline |
| MemoryTracker.Reset | app/src/main/java/com/skincare/apitest/performance/MemoryTracker.kt:180-184 | after a reset the tracker is idle with zero peak and zero delta |
| MemoryTracker.PeakWhileTrackingIsStartReading | app/src/main/java/com/skincare/apitest/performance/MemoryTracker.kt:31-33 | between start and stop the peak is still the start reading and the delta is zero |
| MemoryTracker.DeltaAfterTrial | app/src/main/java/com/skincare/apitest/performance/MemoryTracker.kt:25-52 | after a start and a stop the delta is the rise of the final usage over the start usage, or 0 if it fell |
| MemoryTracker.GuardsAreIdempotent | app/src/main/java/com/skincare/apitest/performance/MemoryTracker.kt:26-45 | starting twice is starting once, and stopping twice is stopping once |
| MemoryTracker.GetSystemMemoryInfo | app/src/main/java/com/skincare/apitest/performance/MemoryTracker.kt:96-130 | total, available and free are the kilobyte lines times 1024, missing lines count 0, used is total minus available; a failed read gives all zeros |
| MemoryTracker.UsagePercentage | app/src/main/java/com/skincare/apitest/performance/MemoryTracker.kt:195-201 | the usage is 0 for a non-positive total, and otherwise the used share of the total times 100 |
| MemoryTracker.UsageIsPercentage | app/src/main/java/com/skincare/apitest/performance/MemoryTracker.kt:119-124 | when the available memory is within the total, the usage lies between 0 and 100 |
| QuickTest.TruncDiv2 | app/src/main/java/com/skincare/apitest/performance/PerformanceTestActivity.kt:232 | halving a whole number truncates toward zero: the remainder has the sign of the number and is at most 1 in size |
| QuickTest.TruncDiv2Odd | app/src/main/java/com/skincare/apitest/performance/PerformanceTestActivity.kt:232 | halving is symmetric about zero, so -3 halves to -1 where Euclidean division gives -2 |
| QuickTest.Average | app/src/main/java/com/skincare/apitest/performance/PerformanceTestActivity.kt:224-243 | the averaged record: fixed "QUICK_TEST_AVERAGE" tags, size 50, load 100, zero placeholders, whole figures halved with truncation, CPU figures the exact mean, success iff both rounds succeeded and "One or both rounds failed" otherwise |
| QuickTest.AverageIsSymmetricAndBetween | app/src/main/java/com/skincare/apitest/performance/PerformanceTestActivity.kt:224-264 | the order of the two rounds does not matter, and the average of two non-negative times lies between them |
| QuickTest.FirstThrow | app/src/main/java/com/skincare/apitest/performance/PerformanceTestActivity.kt:212-221 | the first measured run that threw, every earlier run having returned |
| QuickTest.RunQuickComparison | app/src/main/java/com/skincare/apitest/performance/PerformanceTestActivity.kt:180-282 | the warm-ups and then the measured runs up to and including the first throw are made; averages are shown exactly when all four runs returned, and then they average each API's two runs, each averaged record stamped with its own clock reading (PerformanceTestActivity.kt:238 and :259) |
| QuickTest.FairOrder | app/src/main/java/com/skincare/apitest/performance/PerformanceTestActivity.kt:189-221 | each API gets three warm-ups and two measured runs, REST first in the first round and GraphQL first in the second |
| QuickTest.QuickOrderCounts | app/src/main/java/com/skincare/apitest/performance/PerformanceTestActivity.kt:212-221 | each API is measured twice |
| QuickTest.WarmUpCounts | app/src/main/java/com/skincare/apitest/performance/PerformanceTestActivity.kt:191-200 | each API is warmed up three times |
| QuickTest.ThreeOf | app/src/main/java/com/skincare/apitest/performance/PerformanceTestActivity.kt:193 | three copies of one API count three for it and none for the other |
| QuickTest.HandleLongResults | app/src/main/java/com/skincare/apitest/performance/PerformanceTestActivity.kt:581-600 | text of at most 100000 UTF-16 units is shown as is (its units decode back to it); longer text is shown as 100000 units plus the marker's |
| QuickTest.TruncationKeepsEnds | app/src/main/java/com/skincare/apitest/performance/PerformanceTestActivity.kt:585-590 | truncated text keeps the first and the last 50000 UTF-16 units with the marker between them, and cutting again changes nothing |
| QuickTest.CutOfText | app/src/main/java/com/skincare/apitest/performance/PerformanceTestActivity.kt:585-590 | cutting a text's UTF-16 units keeps a short text decodable back to itself and brings a long one to 100000 units plus the marker's length |
| QuickTest.Cut | app/src/main/java/com/skincare/apitest/performance/PerformanceTestActivity.kt:585-590 | unit sequences of at most 100000 are kept, longer ones come out at 100000 plus the marker's length |
| QuickTest.CutKeepsEnds | app/src/main/java/com/skincare/apitest/performance/PerformanceTestActivity.kt:588-589 | a cut keeps both 50000-unit ends around the marker and cutting again changes nothing |
| QuickTest.AstralTextIsCut | app/src/main/java/com/skincare/apitest/performance/PerformanceTestActivity.kt:585 | text of exactly 100000 characters holding an emoji is longer than 100000 units and is cut |
| ResellerGrid.CountIsMultiplicity | backend/server.js:235 | counting occurrences agrees with the multiset multiplicity |
| ResellerGrid.CountAppended | backend/server.js:230 | pushing v adds one occurrence of v and of nothing else |
| ResellerGrid.Range | backend/server.js:195-196 | the positions 0 to n-1, in order |
| ResellerGrid.RangeCount | backend/server.js:195-196 | each position below n occurs once, no other occurs |
| ResellerGrid.RangeHasNoDuplicates | backend/server.js:195-196 | all the resellers, when they fit, hold no position twice |
| ResellerGrid.Take | backend/server.js:230 | `slice(0, m)` keeps the first m elements, or all of them |
| ResellerGrid.TakeCount | backend/server.js:230 | a slice never holds an element more often than the whole |
| ResellerGrid.PrefixNoDuplicates | backend/server.js:240 | a prefix of a list without repeats has no repeats |
| ResellerGrid.ShuffleLength | backend/server.js:229 | shuffling keeps the length |
| ResellerGrid.CellKeys | backend/server.js:209-221 | the occupied cells, each once: every reseller's cell is among them and each of them holds a reseller |
| ResellerGrid.MembersCount | backend/server.js:214-217 | a cell's list holds each of its resellers once and no other |
| ResellerGrid.MembersCounted | backend/server.js:214-217 | the same, by counting |
| ResellerGrid.MembersStep | backend/server.js:217 | visiting one more reseller adds it to its own cell only |
| ResellerGrid.MembersOfOccupied | backend/server.js:214-217 | the cell of any reseller is not empty |
| ResellerGrid.PerCell | backend/server.js:222 | the share per cell is at least one, and with no more cells than the limit the shares fit the limit |
| ResellerGrid.Picks | backend/server.js:224-231 | the cell draw takes at most the share from each cell |
| ResellerGrid.PicksCount | backend/server.js:224-231 | a reseller is drawn at most once, and only from a cell it belongs to |
| ResellerGrid.PicksCoverCells | backend/server.js:224-231 | with a share of at least one, every occupied cell has a reseller drawn |
| ResellerGrid.LastCellDrawn | backend/server.js:224-231 | the last cell visited has one of its resellers drawn |
| ResellerGrid.DrawIsSound | backend/server.js:224-231 | the draw holds no reseller twice, and only real ones |
| ResellerGrid.UnselectedCount | backend/server.js:235 | the remaining list holds each undrawn reseller once and no drawn one |
| ResellerGrid.UnselectedCounted | backend/server.js:235 | the same, by counting |
| ResellerGrid.UnselectedStep | backend/server.js:235 | one more reseller joins the remaining list exactly when it was not drawn |
| ResellerGrid.UnselectedSize | backend/server.js:235 | the remaining and the drawn resellers together are all of them |
| ResellerGrid.Distribute | backend/server.js:194-241 | all resellers, in order, when they fit the limit; otherwise exactly the limit many, each a real reseller and none twice |
| ResellerGrid.Selection | backend/server.js:224-238 | the draw, topped up, reaches the limit with no reseller twice and starts with the draw |
| ResellerGrid.Fill | backend/server.js:233-238 | topping up keeps the draw in front, adds only undrawn resellers, and reaches the limit |
| ResellerGrid.FillIsNew | backend/server.js:235-237 | the top-up holds only resellers that were not drawn, none twice |
| ResellerGrid.DistributeResellersEvenly | backend/server.js:194-241 | the markers are all resellers when they fit the limit, and otherwise exactly the limit many, each one of the resellers |
| ResellerGrid.EveryCellIsShown | backend/server.js:220-240 | when the occupied cells are no more than the limit, every occupied cell keeps a marker |
| ResellerGrid.ShownWhenCut | backend/server.js:220-240 | with more resellers than the limit and no more cells than it, each occupied cell keeps a marker after the cut |
| ResellerGrid.DrawnFromCell | backend/server.js:224-231 | every occupied cell has a reseller in the draw |
| ResellerGrid.DrawIsKept | backend/server.js:224-240 | with no more cells than the limit, the whole draw survives the cut as the front of the markers |
| ResellerGrid.DrawFits | backend/server.js:222-231 | with no more cells than the limit, the draw fits the limit |
| ResellerGrid.ShareIsBounded | backend/server.js:222-226 | each cell gives at least a share of one, at most its share, and never more than it holds |

## Left out

- Network, database and YAML: the transports are inputs. A REST or GraphQL reply, or the exception a call throws, is an input. Database rows and the value `yaml.load` returns are inputs too. The Postgres `LIKE … LIMIT 50` search semantics run in the database and are not modelled.
- Clocks, `/proc` and `Runtime` readings, and `Debug` allocation figures: each reading is a parameter of the tracker step or trial that takes it. Parsing `/proc/<pid>/stat`, `/proc/stat` and `/proc/meminfo` into numbers is not modelled: the parsed counters are the input. `getPerCoreCpuInfo`, `getCpuFrequency`, `getProcessMemoryInfo` and `formatBytes` only read or format OS data and are left out.
- Concurrency and timing: coroutines, Flow collection, `withTimeout` and every `delay` are not modelled. A delay that throws is the one timing effect kept, because it adds a record. The inter-request delay computed from the load level is left out.
- Connectivity checks and warm-up calls in the sweep: their outcome is a parameter (`connected`) that the schedule ignores (the parameter is unused, because the `continue` only ends an iteration of the check loop). Warm-up results are discarded, so they are not modelled.
- Randomness: each `Math.random` shuffle in `distributeResellersEvenly` is an arbitrary permutation, given as a parameter that is called once per cell and once for the top-up.
- Map geometry: the latitude/longitude grid-cell computation is an abstract cell function, because it is floating-point division and flooring. The properties hold for every cell function.
- Floating point: prices, CPU figures, percentages and scores are exact reals. Double rounding, NaN from `0/0` and infinities are not modelled, except the infinity `parseInt` returns for an over-long digit string. A `Double` written to a CSV file is rendered by an abstract `fmt` that is assumed to produce no comma or line break. This affects `Statistics.CalculateStatistics`, `CpuTracker.GetCurrentCpuUsage` and `QuickTest.Average`.
- `Statistics.CalculateStatistics`: the standard deviation is kept as the variance, because `sqrt` is not modelled. The statistics file writes `stdDev` of the variance through an abstract `stdDev` function.
- Kotlin's 64-bit `Long` arithmetic is unbounded here. Sums of times, memory and character counts are assumed not to overflow.
- `BackendQuery.ParseIntJs`: below the overflow bound, numbers are exact integers. The rounding of magnitudes above 2^53 to the nearest double is not modelled. From 2^1024 - 2^970 on (a digit string of about 309 digits) `parseInt` gives an infinity, and the model does too. Such an infinity is truthy, so the REST routes append `LIMIT $1` and bind Infinity (`BackendQuery.HugeLimitIsInfinity`). The database then rejects the query. That failure lies in the database, which is outside the model.
- `Common.ParseInt32`: only the ASCII digits 0-9 are accepted. `Integer.parseInt` reads digits through `Character.digit`, so it also accepts every other Unicode decimal digit ("٣" reads as 3). The model treats such text as a thrown NumberFormatException. This reaches `ProductRepository.MapProducts` and `ProductRepository.MapPackages` only for ids written in non-ASCII digits.
- `QuickTest.HandleLongResults`: the shown text is a sequence of UTF-16 code units, because a cut at 50000 units may split a surrogate pair, which no string of whole characters can hold. How the text view renders such half of a pair is not modelled.
- `BackendQuery.RestLimit`: a `limit` given more than once (which Express delivers as an array) is not modelled. Only a single string or an absent value is.
- `BackendQuery.GraphQLQuery`: the GraphQL `limit` argument is taken to be a nullable integer, as the GraphQL schema's `Int` type makes it.
- A negative limit is bound as the parameter like any truthy value. What the database does with it is outside the model.
- The product routes' `image_data || null` default and the resolver's `id.toString()` are modelled once, for packages (`BackendQuery.OrNull`, `BackendQuery.TransportsServeTheSamePackage`); the product routes copy fields in the same way.
- `ProductRepository.NumberFormatMessage`: the message of the exception thrown by `toInt()` follows the JVM's `For input string: "<s>"` wording. It is modelled but not checked against any runtime.
- `CartSlots.OnItemSelected`: the message of the out-of-bounds exception is not modelled (`Threw(None)`).
- `CartSlots.ShortSelectionThrows`: assumes Android calls `onItemSelected` once with the spinner's initial position after `setSelection`.
- Free typing into the package card's `AutoCompleteTextView`: the selection is changed only by clicking a drop-down option. The position clicked is an index into the options offered at that moment.
- UI: view binding, Glide image loading, dialogs, maps, permissions, scrolling, toasts and status text are not modelled. The same goes for the activities and fragments other than the cart total and the quick-test protocol, and for the adapters whose only logic is an id-equality diff.
- File I/O: directory choice, file names, timestamps and writer errors are not modelled. Only the header and line shapes are.
- `logResearchSummary` only logs averages and is left out.
- Mismatched calls: some callers use repository methods with a limit argument, reseller methods that `ProductRepository.kt` does not define, and a two-argument `addPackageToCart` in `ProductViewModel.kt`. These are modelled as the definitions shown. The reseller and search transports used by the trials are abstract flows with the same `Loading`-then-terminal contract.
- `ProductRepository.GetProducts`: Apollo's error list is a list of messages. The "Unknown GraphQL error" fallback for an error without a message cannot arise with such a list, so it is not modelled.

## Findings

| source | as written | input that shows it | evidently intended | confidence | as-written member | corrected member |
|---|---|---|---|---|---|---|
| app/src/main/java/com/skincare/apitest/ui/CombinedCartAdapter.kt:157-160 | the spinner listener reads and writes `selectedItemsLocal[index]` without a bounds check, although `getOrNull(index)` two lines earlier allows fewer selections than spinners | a package with items A, B, C added by `addCustomPackageToCart` with the selection [A] (the card hands on only non-empty slots): spinner 1 offers B and C, reports B as its initial item, and `selectedItemsLocal[1]` is out of bounds | record the choice for every spinner; slots past the end of the stored selection are empty | not executed | CartSlots.OnItemSelected (shown by CartSlots.ShortSelectionThrows and CartSlots.ShortSelectionExample) | CartSlots.OnItemSelectedPadded (agreement proved by CartSlots.PaddedAgreesWhenInRange) |

=== FILE: backend_query.dfy ===
/** The backend's list routes: how the optional `limit` becomes a `LIMIT`
    clause and its parameter, on the REST side through JavaScript's
    `parseInt` of the query string and on the GraphQL side from the query
    argument, and how a package's `items` column, once loaded from YAML, is
    normalised to an array. The database and the YAML parser are outside
    the model: rows and loaded values are inputs. */
module BackendQuery {
  import opened Common

  // ---------------------------------------------------------------------
  // JavaScript values

  /** A JavaScript number, as far as the routes distinguish them. */
  datatype JsNumber = NaN | Finite(value: real) | Infinite(negative: bool)

  /** A JavaScript value as `yaml.load` or a database row can produce it. */
  datatype JsValue =
    | Undefined
    | Null
    | Bool(b: bool)
    | Number(n: JsNumber)
    | Str(s: string)
    | Array(elems: seq<JsValue>)
    | Object(entries: seq<(string, JsValue)>)

  /** ToBoolean of a number: zero and NaN are falsy. */
  predicate NumberTruthy(n: JsNumber) {
    match n
    case NaN => false
    case Finite(v) => v != 0.0
    case Infinite(_) => true
  }

  /** ToBoolean: `undefined`, `null`, `false`, zero, NaN and the empty string
      are falsy; every array and object is truthy. */
  predicate Truthy(v: JsValue) {
    match v
    case Undefined => false
    case Null => false
    case Bool(b) => b
    case Number(n) => NumberTruthy(n)
    case Str(s) => |s| > 0
    case Array(_) => true
    case Object(_) => true
  }

  // ---------------------------------------------------------------------
  // parseInt

  /** The characters `parseInt` skips at the start: ECMAScript's WhiteSpace
      and LineTerminator code points. */
  predicate IsJsWhitespace(c: char) {
    c == '\t' || c == '\n' || c == '\U{B}' || c == '\U{C}' || c == '\r' || c == ' '
    || c == '\U{A0}' || c == '\U{1680}' || ('\U{2000}' <= c <= '\U{200A}')
    || c == '\U{2028}' || c == '\U{2029}' || c == '\U{202F}' || c == '\U{205F}'
    || c == '\U{3000}' || c == '\U{FEFF}'
  }

  /** The longest suffix of `s` that does not start with whitespace. */
  function TrimJsStart(s: string): (r: string)
    ensures |r| <= |s| && r == s[|s| - |r|..]
    ensures |r| > 0 ==> !IsJsWhitespace(r[0])
    decreases |s|
  {
    if |s| > 0 && IsJsWhitespace(s[0]) then TrimJsStart(s[1..]) else s
  }

  /** Everything `TrimJsStart` drops is whitespace. */
  lemma {:induction false} TrimDropsOnlyWhitespace(s: string)
    ensures forall i :: 0 <= i < |s| - |TrimJsStart(s)| ==> IsJsWhitespace(s[i])
    decreases |s|
  {
    if |s| > 0 && IsJsWhitespace(s[0]) {
      TrimDropsOnlyWhitespace(s[1..]);
    }
  }

  predicate IsHexDigit(c: char) {
    IsDigit(c) || ('a' <= c <= 'f') || ('A' <= c <= 'F')
  }

  /** A digit of radix 16 when `hex`, of radix 10 otherwise. */
  predicate IsRadixDigit(c: char, hex: bool) {
    if hex then IsHexDigit(c) else IsDigit(c)
  }

  function HexDigitValue(c: char): (d: nat)
    requires IsHexDigit(c)
    ensures d < 16
    ensures IsDigit(c) ==> d == DigitValue(c)
  {
    if IsDigit(c) then DigitValue(c)
    else if 'a' <= c <= 'f' then (c as int) - ('a' as int) + 10
    else (c as int) - ('A' as int) + 10
  }

  /** The longest prefix of `s` made of digits of the radix. */
  function LeadingDigits(s: string, hex: bool): (d: string)
    ensures |d| <= |s| && d == s[..|d|]
    ensures forall i :: 0 <= i < |d| ==> IsRadixDigit(d[i], hex)
    ensures |d| < |s| ==> !IsRadixDigit(s[|d|], hex)
    decreases |s|
  {
    if |s| == 0 || !IsRadixDigit(s[0], hex) then ""
    else
      var more := LeadingDigits(s[1..], hex);
      assert s[..|more| + 1] == [s[0]] + s[1..][..|more|];
      [s[0]] + more
  }

  /** The value of a string of digits in the radix. */
  function RadixValue(d: string, hex: bool): nat
    requires forall i :: 0 <= i < |d| ==> IsRadixDigit(d[i], hex)
    decreases |d|
  {
    if |d| == 0 then 0
    else
      var last := d[|d| - 1];
      assert IsRadixDigit(last, hex);
      RadixValue(d[..|d| - 1], hex) * (if hex then 16 else 10) + HexDigitValue(last)
  }

  /** 2^1024 - 2^970, halfway between the largest finite double
      (2^1024 - 2^971) and 2^1024: a magnitude at least this large rounds to
      an infinity. */
  const OverflowBound: int :=
    0xFFFFFFFFFFFFFC00_0000000000000000_0000000000000000_0000000000000000_0000000000000000_0000000000000000_0000000000000000_0000000000000000_0000000000000000_0000000000000000_0000000000000000_0000000000000000_0000000000000000_0000000000000000_0000000000000000_0000000000000000

  /** `parseInt(s)` with no radix: leading whitespace is skipped, one sign is
      read, and the rest is read as an unsigned number; no digit at all
      gives NaN, and a magnitude too large for a double an infinity. */
  function ParseIntJs(s: string): (n: JsNumber)
    ensures n.Finite? ==> -(OverflowBound as real) < n.value < OverflowBound as real
  {
    ParseSigned(TrimJsStart(s))
  }

  /** A `-` negates the unsigned number after it; a `+` is skipped. */
  function ParseSigned(t: string): (n: JsNumber)
    ensures n.Infinite? ==> (n.negative <==> |t| > 0 && t[0] == '-')
    ensures n.Finite? ==> -(OverflowBound as real) < n.value < OverflowBound as real
  {
    if |t| > 0 && t[0] == '-' then Signed(true, ParseUnsigned(t[1..]))
    else if |t| > 0 && t[0] == '+' then Signed(false, ParseUnsigned(t[1..]))
    else Signed(false, ParseUnsigned(t))
  }

  function Signed(negative: bool, v: Option<nat>): (n: JsNumber)
    ensures n.NaN? <==> v.None?
    ensures n.Infinite? <==> v.Some? && v.value >= OverflowBound
    ensures n.Infinite? ==> n.negative == negative
    ensures v.Some? && v.value < OverflowBound ==>
      n == Finite(if negative then 0.0 - v.value as real else v.value as real)
  {
    match v
    case None => NaN
    case Some(m) =>
      if m >= OverflowBound then Infinite(negative)
      else Finite(if negative then 0.0 - m as real else m as real)
  }

  /** After the sign: a `0x`/`0X` prefix switches to radix 16, and the
      longest run of digits that follows is the value. Whatever follows the
      digits is ignored. */
  function ParseUnsigned(u: string): (v: Option<nat>)
    ensures v.Some? ==> |u| > 0 && IsDigit(u[0])
  {
    var hex := |u| >= 2 && u[0] == '0' && (u[1] == 'x' || u[1] == 'X');
    var body := if hex then u[2..] else u;
    var digits := LeadingDigits(body, hex);
    if |digits| == 0 then None else Some(RadixValue(digits, hex))
  }

  /** A run of decimal digits is its own longest digit prefix, and its radix
      10 value is its decimal value. */
  lemma {:induction false} DecimalDigitsValue(d: string)
    requires AllDigits(d)
    ensures forall i :: 0 <= i < |d| ==> IsRadixDigit(d[i], false)
    ensures RadixValue(d, false) == DigitsValue(d)
    decreases |d|
  {
    if |d| > 0 {
      DecimalDigitsValue(d[..|d| - 1]);
    }
  }

  /** Decimal digits followed by something that does not continue them. */
  lemma {:induction false} LeadingOfDigits(d: string, rest: string)
    requires AllDigits(d)
    requires |rest| == 0 || !IsDigit(rest[0])
    ensures LeadingDigits(d + rest, false) == d
    decreases |d|
  {
    if |d| > 0 {
      assert (d + rest)[0] == d[0];
      assert (d + rest)[1..] == d[1..] + rest;
      LeadingOfDigits(d[1..], rest);
      assert [d[0]] + d[1..] == d;
    } else {
      assert d + rest == rest;
    }
  }

  /** `parseInt` reads back the decimal rendering of any integer, and
      ignores a tail that does not continue the digits; after a lone `0` the
      tail must not begin with `x`, which would turn it into a hexadecimal
      prefix. */
  lemma ParseIntOfRendered(n: int, rest: string)
    requires -OverflowBound < n < OverflowBound
    requires |rest| == 0 || !IsDigit(rest[0])
    requires |rest| > 0 && (n == 0) ==> rest[0] != 'x' && rest[0] != 'X'
    ensures ParseIntJs(IntToString(n) + rest) == Finite(n as real)
  {
    if n < 0 {
      ParseIntOfNegativeInt(n, rest);
    } else {
      ParseIntOfNonNegative(n, rest);
    }
  }

  lemma ParseIntOfNegative(m: nat, rest: string)
    requires 0 < m < OverflowBound
    requires |rest| == 0 || !IsDigit(rest[0])
    ensures ParseIntJs("-" + (NatToString(m) + rest)) == Finite(0.0 - m as real)
  {
    var u := NatToString(m) + rest;
    UnsignedOfRendered(m, rest);
    MinusSign("-" + u, u, m);
  }

  lemma ParseIntOfNegativeInt(n: int, rest: string)
    requires -OverflowBound < n < 0
    requires |rest| == 0 || !IsDigit(rest[0])
    ensures ParseIntJs(IntToString(n) + rest) == Finite(n as real)
  {
    NegativeRendering(n, rest);
    ParseIntOfNegativeAt(IntToString(n) + rest, -n, rest);
  }

  /** `ParseIntOfNegative` restated about a string `s` named by the caller,
      so that the caller's goal term matches the ensures syntactically. */
  lemma ParseIntOfNegativeAt(s: string, m: nat, rest: string)
    requires 0 < m < OverflowBound
    requires |rest| == 0 || !IsDigit(rest[0])
    requires s == "-" + (NatToString(m) + rest)
    ensures ParseIntJs(s) == Finite(0.0 - m as real)
  {
    ParseIntOfNegative(m, rest);
  }

  lemma ParseIntOfNonNegative(n: nat, rest: string)
    requires n < OverflowBound
    requires |rest| == 0 || !IsDigit(rest[0])
    requires |rest| > 0 && (n == 0) ==> rest[0] != 'x' && rest[0] != 'X'
    ensures ParseIntJs(IntToString(n) + rest) == Finite(n as real)
  {
    UnsignedOfRendered(n, rest);
    var s := NatToString(n) + rest;
    assert IntToString(n) + rest == s;
    assert IsDigit(s[0]);
    ParseOfUnsigned(s, n);
  }

  /** Text starting with a digit is read unsigned. */
  lemma ParseOfUnsigned(s: string, n: nat)
    requires |s| > 0 && IsDigit(s[0])
    requires ParseUnsigned(s) == Some(n) && n < OverflowBound
    ensures ParseIntJs(s) == Finite(n as real)
  {
    NoLeadingSpace(s);
  }

  /** A negative number renders as a minus sign before its magnitude. */
  lemma NegativeRendering(n: int, rest: string)
    requires n < 0
    ensures IntToString(n) + rest == "-" + (NatToString(-n) + rest)
  {
    var d := IntToString(n);
    assert d == "-" + NatToString(-n);
  }

  /** A leading minus sign negates what follows it. */
  lemma MinusSign(s: string, u: string, v: nat)
    requires v < OverflowBound
    requires s == "-" + u
    requires ParseUnsigned(u) == Some(v)
    ensures ParseIntJs(s) == Finite(0.0 - v as real)
  {
    NoLeadingSpace(s);
    assert s[1..] == u;
  }

  lemma NoLeadingSpace(s: string)
    requires |s| > 0 && !IsJsWhitespace(s[0])
    ensures TrimJsStart(s) == s
  {
  }

  lemma UnsignedOfRendered(m: nat, rest: string)
    requires |rest| == 0 || !IsDigit(rest[0])
    requires |rest| > 0 && (m == 0) ==> rest[0] != 'x' && rest[0] != 'X'
    ensures ParseUnsigned(NatToString(m) + rest) == Some(m)
  {
    var d := NatToString(m);
    assert AllDigits(d);
    DecimalDigitsValue(d);
    DigitsOfNat(m);
    LeadingOfDigits(d, rest);
    var u := d + rest;
    if |d| >= 2 {
      assert IsDigit(u[1]);
    } else if |rest| > 0 {
      assert u[1] == rest[0];
      assert d[0] == '0' ==> m == 0 by {
        if d[0] == '0' {
          assert DigitsValue(d) == DigitsValue(d[..0]) * 10 + DigitValue(d[0]);
        }
      }
    }
  }

  /** A text without a single decimal digit parses to NaN: even the
      hexadecimal prefix starts with the digit `0`. */
  lemma ParseIntWithoutDigits(s: string)
    requires forall i :: 0 <= i < |s| ==> !IsDigit(s[i])
    ensures ParseIntJs(s) == NaN
  {
    var t := TrimJsStart(s);
    var unsigned := if |t| > 0 && (t[0] == '-' || t[0] == '+') then t[1..] else t;
    assert |unsigned| > 0 ==> unsigned[0] == s[|s| - |unsigned|];
    if |unsigned| > 0 {
      assert !IsDigit(unsigned[0]);
    }
  }

  // ---------------------------------------------------------------------
  // The LIMIT rule

  /** A query text and its positional parameters. */
  datatype Query = Query(text: string, params: seq<JsNumber>)

  const LimitClause: string := " LIMIT $1"

  /** `if (limit) { query += ' LIMIT $1'; params.push(limit); }`: the clause
      and its parameter come together, and only for a truthy limit. */
  function WithLimit(base: string, limit: Option<JsNumber>): (q: Query)
    ensures |q.params| <= 1
    ensures |q.params| == 1 <==> limit.Some? && NumberTruthy(limit.value)
    ensures |q.params| == 1 ==> q.text == base + LimitClause && q.params[0] == limit.value
    ensures |q.params| == 0 ==> q.text == base
  {
    if limit.Some? && NumberTruthy(limit.value) then Query(base + LimitClause, [limit.value])
    else Query(base, [])
  }

  /** `req.query.limit ? parseInt(req.query.limit) : null`: a missing or
      empty query parameter is null. */
  function RestLimit(param: Option<string>): (limit: Option<JsNumber>)
    ensures limit.None? <==> param.None? || |param.value| == 0
    ensures limit.Some? ==> limit.value == ParseIntJs(param.value)
  {
    if param.Some? && |param.value| > 0 then Some(ParseIntJs(param.value)) else None
  }

  /** The REST routes' query for the `limit` query-string parameter. */
  function RestQuery(base: string, param: Option<string>): Query {
    WithLimit(base, RestLimit(param))
  }

  /** The GraphQL resolvers' query for the nullable integer `limit`
      argument. */
  function GraphQLQuery(base: string, limit: Option<int>): Query {
    WithLimit(base, if limit.Some? then Some(Finite(limit.value as real)) else None)
  }

  /** A `LIMIT` is applied exactly when the parameter is bound. */
  lemma PlaceholderMatchesParams(base: string, limit: Option<JsNumber>)
    ensures var q := WithLimit(base, limit);
      (|q.params| == 1 <==> |q.text| > |base|) && q.text[..|base|] == base
  {
  }

  /** A limit of zero, or one with no leading number, returns the whole
      table, as does an absent or empty one. */
  lemma ZeroOrNonNumericIsWholeTable(base: string, param: Option<string>)
    requires param.Some? ==> ParseIntJs(param.value) == NaN || ParseIntJs(param.value) == Finite(0.0)
    ensures RestQuery(base, param) == Query(base, [])
  {
  }

  /** In particular every text without a digit, and `"0"`, mean no limit. */
  lemma NoDigitsMeansNoLimit(base: string, s: string)
    requires forall i :: 0 <= i < |s| ==> !IsDigit(s[i])
    ensures RestQuery(base, Some(s)) == Query(base, [])
  {
    if |s| > 0 {
      ParseIntWithoutDigits(s);
    }
  }

  lemma ZeroMeansNoLimit(base: string)
    ensures RestQuery(base, Some("0")) == Query(base, [])
    ensures GraphQLQuery(base, Some(0)) == Query(base, [])
  {
    ParseIntOfRendered(0, "");
    assert IntToString(0) + "" == "0";
  }

  /** The two transports agree: `?limit=n` and `limit: n` give the same
      query for every integer n a double can hold (every GraphQL `Int`
      among them), and a digit run followed by other text counts as its
      number. */
  lemma TransportsAgree(base: string, n: int, rest: string)
    requires -OverflowBound < n < OverflowBound
    requires |rest| == 0 || !IsDigit(rest[0])
    requires |rest| > 0 && (n == 0) ==> rest[0] != 'x' && rest[0] != 'X'
    ensures RestQuery(base, Some(IntToString(n) + rest)) == GraphQLQuery(base, Some(n))
  {
    ParseIntOfRendered(n, rest);
    RestQueryOfParsed(base, IntToString(n) + rest, Finite(n as real));
  }

  /** A positive limit is bound as the clause's parameter. */
  lemma PositiveLimitIsBound(base: string, n: nat)
    requires 0 < n < OverflowBound
    ensures RestQuery(base, Some(IntToString(n))) == Query(base + LimitClause, [Finite(n as real)])
  {
    ParsesRendered(n);
    RestQueryOfParsed(base, IntToString(n), Finite(n as real));
  }

  lemma ParsesRendered(n: nat)
    requires n < OverflowBound
    ensures ParseIntJs(IntToString(n)) == Finite(n as real)
  {
    var s := IntToString(n);
    assert s + "" == s;
    ParseIntOfNonNegative(n, "");
  }


  /** A digit string too large for a double reads as an infinity, which is
      truthy: the REST query gets a `LIMIT` bound to Infinity, where the
      GraphQL query for the same number binds the number. */
  lemma HugeLimitIsInfinity(base: string)
    ensures ParseIntJs(IntToString(OverflowBound)) == Infinite(false)
    ensures RestQuery(base, Some(IntToString(OverflowBound))) == Query(base + LimitClause, [Infinite(false)])
    ensures RestQuery(base, Some(IntToString(OverflowBound))) != GraphQLQuery(base, Some(OverflowBound))
  {
    var s := IntToString(OverflowBound);
    assert s == NatToString(OverflowBound) && s + "" == s;
    UnsignedOfRendered(OverflowBound, "");
    InfiniteOfUnsigned(s, OverflowBound);
    RestQueryOfParsed(base, s, Infinite(false));
  }

  /** Text starting with a digit whose value reaches the bound reads as
      positive Infinity. */
  lemma InfiniteOfUnsigned(s: string, n: nat)
    requires |s| > 0 && IsDigit(s[0])
    requires ParseUnsigned(s) == Some(n) && n >= OverflowBound
    ensures ParseIntJs(s) == Infinite(false)
  {
    NoLeadingSpace(s);
  }

  /** The REST query depends on a non-empty parameter only through what
      `parseInt` makes of it. */
  lemma RestQueryOfParsed(base: string, s: string, x: JsNumber)
    requires |s| > 0 && ParseIntJs(s) == x
    ensures RestQuery(base, Some(s)) == WithLimit(base, Some(x))
  {
  }

  // ---------------------------------------------------------------------
  // Package rows

  /** `if (!Array.isArray(items)) items = items ? [items] : [];` on the value
      `yaml.load` returned for the column. */
  function NormalizeItems(loaded: JsValue): (items: seq<JsValue>)
    ensures loaded.Array? ==> items == loaded.elems
    ensures !loaded.Array? ==> |items| <= 1 && (|items| == 1 <==> Truthy(loaded))
    ensures forall i :: 0 <= i < |items| ==> items[i] == loaded || (loaded.Array? && items[i] in loaded.elems)
  {
    if loaded.Array? then loaded.elems
    else if Truthy(loaded) then [loaded]
    else []
  }

  /** Normalising an array changes nothing, so normalising twice is
      normalising once. */
  lemma NormalizeIsIdempotent(loaded: JsValue)
    ensures NormalizeItems(Array(NormalizeItems(loaded))) == NormalizeItems(loaded)
  {
  }

  /** An empty document, `null`, `false`, `0`, NaN and the empty string give
      no items; a lone truthy scalar or object is one item. */
  lemma FalsyLoadsGiveNoItems(loaded: JsValue)
    requires loaded in {Undefined, Null, Bool(false), Number(Finite(0.0)), Number(NaN), Str("")}
    ensures NormalizeItems(loaded) == []
  {
  }

  lemma ScalarLoadIsOneItem(loaded: JsValue)
    requires !loaded.Array? && Truthy(loaded)
    ensures NormalizeItems(loaded) == [loaded]
  {
  }

  /** A row of `package_products` with the `items` column already loaded. */
  datatype PackageRow = PackageRow(id: int, packageName: string, items: JsValue, price: real, imageData: JsValue)

  /** The package objects the two transports serve. */
  datatype RestPackage = RestPackage(id: int, packageName: string, items: seq<JsValue>, price: real, imageData: JsValue)
  datatype GraphQLPackage = GraphQLPackage(id: string, packageName: string, items: seq<JsValue>, price: real, imageData: JsValue)

  /** `value || null`. */
  function OrNull(v: JsValue): (r: JsValue)
    ensures Truthy(v) ==> r == v
    ensures !Truthy(v) ==> r == Null
  {
    if Truthy(v) then v else Null
  }

  function ServeRestPackage(row: PackageRow): RestPackage {
    RestPackage(row.id, row.packageName, NormalizeItems(row.items), row.price, OrNull(row.imageData))
  }

  /** The GraphQL id is `row.id.toString()`. */
  function ServeGraphQLPackage(row: PackageRow): GraphQLPackage {
    GraphQLPackage(IntToString(row.id), row.packageName, NormalizeItems(row.items), row.price, OrNull(row.imageData))
  }

  /** Both transports serve the same package; the GraphQL id, rendered in
      decimal, converts back with the app's `toInt()` for every 32-bit id. */
  lemma TransportsServeTheSamePackage(row: PackageRow)
    ensures var r := ServeRestPackage(row);
      var g := ServeGraphQLPackage(row);
      r.packageName == g.packageName && r.items == g.items && r.price == g.price && r.imageData == g.imageData
    ensures IntMin <= row.id <= IntMax ==> ParseInt32(ServeGraphQLPackage(row).id) == Some(ServeRestPackage(row).id)
  {
    if IntMin <= row.id <= IntMax {
      ParseRendered(row.id);
    }
  }
}

=== FILE: cart.dfy ===
/** The shopping cart: one list of cart items, individual products and
    packages with their chosen item names, and the item count published next
    to it; plus the total the cart screen shows. */
module Cart {
  import opened Common
  import opened Catalogue

  datatype CartItem =
    | IndividualProduct(product: Product)
    | PackageProductItem(packageProduct: CustomPackageProduct)

  /** The two state flows of the cart object: the list and its count. */
  datatype CartState = CartState(items: seq<CartItem>, count: int)

  /** Every operation republishes the count as the list's size. */
  predicate CountMatches(c: CartState) {
    c.count == |c.items|
  }

  /** Both flows start out empty. */
  const EmptyCart: CartState := CartState([], 0)

  /** Appends one item; the count follows the new size. */
  function Append(c: CartState, item: CartItem): (d: CartState)
    ensures |d.items| == |c.items| + 1 && d.items[..|c.items|] == c.items
    ensures d.items[|c.items|] == item
    ensures CountMatches(d)
  {
    var items := c.items + [item];
    assert items[..|c.items|] == c.items;
    CartState(items, |items|)
  }

  /** `addToCart`: the product goes at the end; nothing before it moves. */
  function AddToCart(c: CartState, p: Product): (d: CartState)
    ensures |d.items| == |c.items| + 1 && d.items[..|c.items|] == c.items
    ensures d.items[|c.items|] == IndividualProduct(p)
    ensures CountMatches(d)
  {
    Append(c, IndividualProduct(p))
  }

  /** `addPackageToCart`: the package is stored with every one of its item
      names selected, each entry split on commas and trimmed. */
  function AddPackageToCart(c: CartState, pkg: PackageProduct): (d: CartState)
    ensures |d.items| == |c.items| + 1 && d.items[..|c.items|] == c.items
    ensures d.items[|c.items|].PackageProductItem?
    ensures d.items[|c.items|].packageProduct.basePackage == pkg
    ensures d.items[|c.items|].packageProduct.selectedItems == ItemNames(pkg.items)
    ensures CountMatches(d)
  {
    Append(c, PackageProductItem(CustomPackageProduct(pkg, ItemNames(pkg.items))))
  }

  /** `addCustomPackageToCart`: the package goes in with the caller's
      selection, whatever it is. */
  function AddCustomPackageToCart(c: CartState, cp: CustomPackageProduct): (d: CartState)
    ensures |d.items| == |c.items| + 1 && d.items[..|c.items|] == c.items
    ensures d.items[|c.items|] == PackageProductItem(cp)
    ensures CountMatches(d)
  {
    Append(c, PackageProductItem(cp))
  }

  /** What `removeFromCart(product)` keeps: everything but that product. */
  function KeepUnlessProduct(p: Product): CartItem -> bool {
    (it: CartItem) => !(it.IndividualProduct? && it.product == p)
  }

  /** What `removePackageFromCart(pkg)` keeps: everything but packages built
      on a package with the same id. */
  function KeepUnlessPackage(pkg: PackageProduct): CartItem -> bool {
    (it: CartItem) => !(it.PackageProductItem? && it.packageProduct.basePackage.id == pkg.id)
  }

  /** `removeFromCart`: every entry equal to the product goes, all others
      stay in their order. */
  function RemoveFromCart(c: CartState, p: Product): (d: CartState)
    ensures IndividualProduct(p) !in d.items
    ensures forall it :: it in d.items <==> it in c.items && it != IndividualProduct(p)
    ensures CountMatches(d)
  {
    var items := Filter(c.items, KeepUnlessProduct(p));
    CartState(items, |items|)
  }

  /** `removePackageFromCart`: every package entry whose base package has
      the id goes, whatever its selection; all others stay in their order. */
  function RemovePackageFromCart(c: CartState, pkg: PackageProduct): (d: CartState)
    ensures forall cp: CustomPackageProduct :: cp.basePackage.id == pkg.id ==> PackageProductItem(cp) !in d.items
    ensures forall it :: it in d.items <==>
      it in c.items && !(it.PackageProductItem? && it.packageProduct.basePackage.id == pkg.id)
    ensures CountMatches(d)
  {
    var items := Filter(c.items, KeepUnlessPackage(pkg));
    CartState(items, |items|)
  }

  /** Removing a product keeps the relative order: removal from a list made
      of two parts is removal from each part. */
  lemma RemoveKeepsOrder(a: seq<CartItem>, b: seq<CartItem>, p: Product)
    ensures RemoveFromCart(CartState(a + b, 0), p).items ==
      RemoveFromCart(CartState(a, 0), p).items + RemoveFromCart(CartState(b, 0), p).items
  {
    FilterAppend(a, b, KeepUnlessProduct(p));
  }

  lemma RemovePackageKeepsOrder(a: seq<CartItem>, b: seq<CartItem>, pkg: PackageProduct)
    ensures RemovePackageFromCart(CartState(a + b, 0), pkg).items ==
      RemovePackageFromCart(CartState(a, 0), pkg).items + RemovePackageFromCart(CartState(b, 0), pkg).items
  {
    FilterAppend(a, b, KeepUnlessPackage(pkg));
  }

  /** Removing a product that is not in the cart changes nothing but the
      count, which is brought back in line with the list. */
  lemma RemoveAbsentProduct(c: CartState, p: Product)
    requires IndividualProduct(p) !in c.items
    ensures RemoveFromCart(c, p).items == c.items
  {
    var keep := KeepUnlessProduct(p);
    forall i | 0 <= i < |c.items|
      ensures keep(c.items[i])
    {
      assert c.items[i] in c.items;
    }
    FilterAll(c.items, keep);
  }

  /** Removing the same product twice is removing it once. */
  lemma RemoveIsIdempotent(c: CartState, p: Product)
    ensures RemoveFromCart(RemoveFromCart(c, p), p) == RemoveFromCart(c, p)
  {
    RemoveAbsentProduct(RemoveFromCart(c, p), p);
  }

  /** Adding a product the cart did not hold and removing it again gives
      back the list it started from. */
  lemma AddThenRemoveRestores(c: CartState, p: Product)
    requires IndividualProduct(p) !in c.items
    ensures RemoveFromCart(AddToCart(c, p), p).items == c.items
  {
    var keep := KeepUnlessProduct(p);
    assert AddToCart(c, p).items == c.items + [IndividualProduct(p)];
    FilterAppend(c.items, [IndividualProduct(p)], keep);
    RemoveAbsentProduct(c, p);
    assert Filter([IndividualProduct(p)], keep) == [];
  }

  /** Removing a package leaves every individual product where it was. */
  lemma RemovePackageKeepsProducts(c: CartState, pkg: PackageProduct, p: Product)
    ensures RemoveFromCart(RemovePackageFromCart(c, pkg), p) ==
      RemovePackageFromCart(RemoveFromCart(c, p), pkg)
  {
    FilterCommute(c.items, KeepUnlessProduct(p), KeepUnlessPackage(pkg));
  }

  lemma {:induction false} FilterCommute<T(!new)>(xs: seq<T>, f: T -> bool, g: T -> bool)
    ensures Filter(Filter(xs, g), f) == Filter(Filter(xs, f), g)
    decreases |xs|
  {
    if |xs| > 0 {
      FilterCommute(xs[1..], f, g);
      var rest := xs[1..];
      if f(xs[0]) && g(xs[0]) {
        assert ([xs[0]] + Filter(rest, g))[1..] == Filter(rest, g);
        assert ([xs[0]] + Filter(rest, f))[1..] == Filter(rest, f);
      }
    }
  }

  /** Adding a package with every item selected, or with a custom selection,
      and removing its package again gives back the list, when no package
      with that id was in the cart. */
  lemma AddCustomThenRemovePackage(c: CartState, cp: CustomPackageProduct, pkg: PackageProduct)
    requires cp.basePackage.id == pkg.id
    requires forall it :: it in c.items && it.PackageProductItem? ==> it.packageProduct.basePackage.id != pkg.id
    ensures RemovePackageFromCart(AddCustomPackageToCart(c, cp), pkg).items == c.items
  {
    var keep := KeepUnlessPackage(pkg);
    assert AddCustomPackageToCart(c, cp).items == c.items + [PackageProductItem(cp)];
    FilterAppend(c.items, [PackageProductItem(cp)], keep);
    forall i | 0 <= i < |c.items|
      ensures keep(c.items[i])
    {
      assert c.items[i] in c.items;
    }
    FilterAll(c.items, keep);
    assert Filter([PackageProductItem(cp)], keep) == [];
  }

  // ---------------------------------------------------------------------
  // The cart total

  /** A product counts its own price, a package its base package's price. */
  function ItemPrice(it: CartItem): real {
    match it
    case IndividualProduct(p) => p.price
    case PackageProductItem(cp) => cp.basePackage.price
  }

  /** `cartItems.sumOf { ... }` on the cart screen. */
  function Total(items: seq<CartItem>): (t: real)
    ensures |items| == 0 ==> t == 0.0
  {
    if |items| == 0 then 0.0 else ItemPrice(items[0]) + Total(items[1..])
  }

  lemma {:induction false} TotalAppend(a: seq<CartItem>, b: seq<CartItem>)
    ensures Total(a + b) == Total(a) + Total(b)
    decreases |a|
  {
    if |a| == 0 {
      assert a + b == b;
    } else {
      assert (a + b)[1..] == a[1..] + b;
      TotalAppend(a[1..], b);
    }
  }

  /** Adding a product raises the total by its price. */
  lemma AddRaisesTotal(c: CartState, p: Product)
    ensures Total(AddToCart(c, p).items) == Total(c.items) + p.price
  {
    assert AddToCart(c, p).items == c.items + [IndividualProduct(p)];
    TotalAppend(c.items, [IndividualProduct(p)]);
  }

  /** Adding a package raises the total by the package's price, whatever its
      selection. */
  lemma AddPackageRaisesTotal(c: CartState, cp: CustomPackageProduct)
    ensures Total(AddCustomPackageToCart(c, cp).items) == Total(c.items) + cp.Price()
  {
    assert AddCustomPackageToCart(c, cp).items == c.items + [PackageProductItem(cp)];
    TotalAppend(c.items, [PackageProductItem(cp)]);
  }

  /** `x` added up `n` times. */
  function Times(n: nat, x: real): real {
    if n == 0 then 0.0 else Times(n - 1, x) + x
  }

  /** The total of `items` exceeds the total of what removing `p` keeps by
      the price of `p` once per entry removed. */
  predicate RemovalLowersBy(items: seq<CartItem>, p: Product) {
    var kept := Filter(items, KeepUnlessProduct(p));
    Total(items) == Total(kept) + Times(|items| - |kept|, p.price)
  }

  /** Removing a product lowers the total by its price once for every entry
      removed. */
  lemma {:induction false} RemoveLowersTotal(items: seq<CartItem>, p: Product)
    ensures RemovalLowersBy(items, p)
    decreases |items|
  {
    if |items| > 0 {
      RemoveLowersTotal(items[1..], p);
      RemoveStep(items, p);
    }
  }

  lemma RemoveStep(items: seq<CartItem>, p: Product)
    requires |items| > 0 && RemovalLowersBy(items[1..], p)
    ensures RemovalLowersBy(items, p)
  {
    var keep := KeepUnlessProduct(p);
    var rest := items[1..];
    var k := Filter(rest, keep);
    var kept := Filter(items, keep);
    assert Total(items) == ItemPrice(items[0]) + Total(rest);
    if keep(items[0]) {
      assert kept == [items[0]] + k;
      assert ([items[0]] + k)[1..] == k;
    } else {
      assert kept == k;
    }
  }
}

=== FILE: cart_slots.dfy ===
/** The cart list: which row layout each cart item gets, the three item
    spinners of a package row (what each offers, what it starts on, what a
    choice writes), and the list differ's identity of cart items. */
module CartSlots {
  import opened Common
  import opened Catalogue
  import opened Cart

  const ViewTypeProduct: int := 1
  const ViewTypePackage: int := 2

  /** `getItemViewType`. */
  function ViewType(it: CartItem): (t: int)
    ensures t == ViewTypeProduct <==> it.IndividualProduct?
    ensures t == ViewTypePackage <==> it.PackageProductItem?
  {
    match it
    case IndividualProduct(_) => ViewTypeProduct
    case PackageProductItem(_) => ViewTypePackage
  }

  /** The two row layouts. */
  datatype Holder = ProductHolder | PackageHolder

  /** `onCreateViewHolder`: any view type but the two throws. */
  function CreateHolder(viewType: int): (h: Call<Holder>)
    ensures h.Threw? <==> viewType != ViewTypeProduct && viewType != ViewTypePackage
    ensures h == Returned(ProductHolder) <==> viewType == ViewTypeProduct
  {
    if viewType == ViewTypeProduct then Returned(ProductHolder)
    else if viewType == ViewTypePackage then Returned(PackageHolder)
    else Threw(Some("Invalid view type"))
  }

  /** Every cart item gets a row of its own kind, so the cast in
      `onBindViewHolder` never fails and creation never throws. */
  lemma EveryItemGetsItsHolder(it: CartItem)
    ensures CreateHolder(ViewType(it)) == Returned(if it.IndividualProduct? then ProductHolder else PackageHolder)
  {
  }

  /** Spinner `index` keeps an item when the first slot holding it is
      `index`, or no slot holds it. */
  function ShownAt(selected: seq<string>, index: int): string -> bool {
    (x: string) => var at := IndexOf(selected, x); at == -1 || at == index
  }

  /** The items spinner `index` offers, in the package's order. */
  function SpinnerItems(itemsList: seq<string>, selected: seq<string>, index: int): (r: seq<string>)
    ensures forall x :: x in r <==> x in itemsList && (x !in selected || IndexOf(selected, x) == index)
  {
    Filter(itemsList, ShownAt(selected, index))
  }

  /** With nothing selected every spinner offers the whole list. */
  lemma NothingSelectedShowsAll(itemsList: seq<string>, index: int)
    ensures SpinnerItems(itemsList, [], index) == itemsList
  {
    FilterAll(itemsList, ShownAt([], index));
  }

  /** Two spinners never both offer a selected item; an item selected in
      several slots is offered only at the first of them. */
  lemma SelectedItemShownOnce(itemsList: seq<string>, selected: seq<string>, i: int, j: int, x: string)
    requires i != j && x in selected
    ensures !(x in SpinnerItems(itemsList, selected, i) && x in SpinnerItems(itemsList, selected, j))
  {
  }

  lemma DuplicateShownAtFirstSlotOnly(itemsList: seq<string>, selected: seq<string>, a: nat, b: nat)
    requires a < b < |selected| && selected[a] == selected[b] && selected[a] in itemsList
    requires forall k :: 0 <= k < a ==> selected[k] != selected[a]
    ensures selected[a] in SpinnerItems(itemsList, selected, a)
    ensures selected[b] !in SpinnerItems(itemsList, selected, b)
  {
    assert IndexOf(selected, selected[a]) == a by {
      IndexOfFirst(selected, a);
    }
  }

  /** `indexOf` finds a position before which the element does not occur. */
  lemma IndexOfFirst<T>(xs: seq<T>, a: nat)
    requires a < |xs| && forall k :: 0 <= k < a ==> xs[k] != xs[a]
    ensures IndexOf(xs, xs[a]) == a
  {
    assert xs[a] in xs;
  }

  /** The item a spinner starts on: its stored selection if the list has
      one for this slot, else the first item offered, else nothing. */
  function InitialItem(selected: seq<string>, filtered: seq<string>, index: nat): (item: string)
    ensures index < |selected| ==> item == selected[index]
    ensures index >= |selected| && |filtered| > 0 ==> item == filtered[0]
    ensures index >= |selected| && |filtered| == 0 ==> item == ""
  {
    if index < |selected| then selected[index]
    else if |filtered| > 0 then filtered[0]
    else ""
  }

  /** The position the spinner is set to: that of the item, or 0 when it is
      not offered. */
  function SelectionIndex(filtered: seq<string>, item: string): (k: nat)
    ensures item in filtered ==> k < |filtered| && filtered[k] == item
    ensures item !in filtered ==> k == 0
  {
    var at := IndexOf(filtered, item);
    if at >= 0 then at else 0
  }

  /** A stored selection that is one of the items and held by no earlier
      slot is what its spinner starts on. */
  lemma StoredSelectionIsShown(itemsList: seq<string>, selected: seq<string>, index: nat)
    requires index < |selected| && selected[index] in itemsList
    requires forall k :: 0 <= k < index ==> selected[k] != selected[index]
    ensures var filtered := SpinnerItems(itemsList, selected, index);
      var k := SelectionIndex(filtered, InitialItem(selected, filtered, index));
      k < |filtered| && filtered[k] == selected[index]
  {
    IndexOfFirst(selected, index);
  }

  /** The spinner listener: the chosen item is written to slot `index` of
      the row's copy of the selection, only when it differs. The list is
      indexed without a bounds check, so a stored selection shorter than
      the slot number throws. */
  function OnItemSelected(local: seq<string>, index: nat, newItem: string): (r: Call<seq<string>>)
    ensures r.Threw? <==> index >= |local|
    ensures r.Returned? ==> |r.value| == |local| && r.value[index] == newItem
    ensures r.Returned? ==> forall k :: 0 <= k < |local| && k != index ==> r.value[k] == local[k]
  {
    if index >= |local| then Threw(None)
    else if local[index] != newItem then Returned(local[index := newItem])
    else Returned(local)
  }

  /** A package put in the cart with fewer than three chosen items makes
      the listener of a later spinner throw as soon as that spinner reports
      its first item. */
  lemma ShortSelectionThrows(itemsList: seq<string>, selected: seq<string>, index: nat)
    requires |selected| <= index < 3 && |SpinnerItems(itemsList, selected, index)| > 0
    ensures var filtered := SpinnerItems(itemsList, selected, index);
      var k := SelectionIndex(filtered, InitialItem(selected, filtered, index));
      OnItemSelected(selected, index, filtered[k]).Threw?
  {
  }

  /** A package of items A, B and C put in the cart with only A chosen:
      the second spinner offers B and C, starts on B, and reporting B
      throws, while the padded listener records it. */
  lemma ShortSelectionExample()
    ensures SpinnerItems(["A", "B", "C"], ["A"], 1) == ["B", "C"]
    ensures InitialItem(["A"], ["B", "C"], 1) == "B"
    ensures OnItemSelected(["A"], 1, "B").Threw?
    ensures OnItemSelectedPadded(["A"], 1, "B") == ["A", "B"]
  {
    var items: seq<string> := ["A", "B", "C"];
    assert IndexOf(["A"], "A") == 0;
    assert "B" !in ["A"] && "C" !in ["A"];
    assert Filter(items, ShownAt(["A"], 1)) == Filter(["B", "C"], ShownAt(["A"], 1)) by {
      assert items == ["A"] + ["B", "C"];
      FilterAppend(["A"], ["B", "C"], ShownAt(["A"], 1));
      assert Filter(["A"], ShownAt(["A"], 1)) == [];
    }
    FilterAll(["B", "C"], ShownAt(["A"], 1));
  }

  /** Reporting the same item again changes nothing. */
  lemma SelectingTwiceIsSelectingOnce(local: seq<string>, index: nat, newItem: string)
    requires index < |local|
    ensures OnItemSelected(local, index, newItem).Returned?
    ensures OnItemSelected(OnItemSelected(local, index, newItem).value, index, newItem) ==
      OnItemSelected(local, index, newItem)
  {
  }

  /** The listener with the slot recorded even past the end of the stored
      selection, which is padded with empty slots. */
  function OnItemSelectedPadded(local: seq<string>, index: nat, newItem: string): (r: seq<string>)
    ensures |r| == if index < |local| then |local| else index + 1
    ensures r[index] == newItem
    ensures forall k :: 0 <= k < |local| && k != index ==> r[k] == local[k]
    ensures forall k :: |local| <= k < index ==> r[k] == ""
  {
    if index < |local| then local[index := newItem]
    else
      var pad := seq(index - |local|, _ => "");
      var r := local + pad + [newItem];
      assert forall k :: |local| <= k < index ==> r[k] == pad[k - |local|];
      r
  }

  /** Where the listener as written returns, the padded one agrees with it. */
  lemma PaddedAgreesWhenInRange(local: seq<string>, index: nat, newItem: string)
    requires index < |local|
    ensures OnItemSelected(local, index, newItem) == Returned(OnItemSelectedPadded(local, index, newItem))
  {
    if local[index] == newItem {
      assert local[index := newItem] == local;
    }
  }

  /** `areItemsTheSame`: the same kind of item with the same id. */
  predicate SameCartItem(a: CartItem, b: CartItem) {
    (a.IndividualProduct? && b.IndividualProduct? && a.product.id == b.product.id)
    || (a.PackageProductItem? && b.PackageProductItem? && a.packageProduct.Id() == b.packageProduct.Id())
  }

  /** `areContentsTheSame` (data-class equality) implies `areItemsTheSame`;
      a product and a package are never the same item, whatever their ids. */
  lemma SameContentsIsSameItem(a: CartItem, b: CartItem)
    ensures a == b ==> SameCartItem(a, b)
    ensures a.IndividualProduct? != b.IndividualProduct? ==> !SameCartItem(a, b)
  {
  }

  /** Identity ignores the package's selection: re-adding a package with
      another selection is an update of the same row. */
  lemma SelectionDoesNotChangeIdentity(cp: CustomPackageProduct, items: seq<string>)
    ensures SameCartItem(PackageProductItem(cp), PackageProductItem(CustomPackageProduct(cp.basePackage, items)))
  {
  }
}

=== FILE: catalogue.dfy ===
/** The catalogue entities shared by the app and the backend, the two
    transports, and the `Loading`/`Success`/`Error` response wrapper. */
module Catalogue {
  import opened Common

  /** The two transports the benchmark compares. */
  datatype ApiType = Retrofit | GraphQL

  /** The enum constant's name, as Kotlin string templates print it. */
  function ApiTypeName(a: ApiType): (name: string)
    ensures ',' !in name && '\n' !in name
  {
    match a
    case Retrofit => "RETROFIT"
    case GraphQL => "GRAPHQL"
  }

  /** The repository's response wrapper. */
  datatype ApiResponse<+T> = Loading | Success(data: T) | Error(message: string)

  datatype Product = Product(
    id: int,
    productName: string,
    description: string,
    price: real,
    imageData: Option<string>)

  datatype PackageProduct = PackageProduct(
    id: int,
    packageName: string,
    items: seq<string>,
    price: real,
    imageData: Option<string>)

  /** A package together with the item names chosen for it. */
  datatype CustomPackageProduct = CustomPackageProduct(
    basePackage: PackageProduct,
    selectedItems: seq<string>)
  {
    function Id(): int { basePackage.id }
    function Price(): real { basePackage.price }
  }

  datatype Reseller = Reseller(
    id: int,
    shopName: string,
    profilePictureUrl: Option<string>,
    resellerName: string,
    whatsappNumber: Option<string>,
    facebook: Option<string>,
    instagram: Option<string>,
    city: Option<string>,
    latitude: real,
    longitude: real)

  /** The trimmed comma-separated parts of one `items` entry. */
  function EntryNames(entry: string): (names: seq<string>)
    ensures |names| == 1 + multiset(entry)[',']
  {
    var parts := Split(entry, ',');
    SplitCount(entry, ',');
    seq(|parts|, i requires 0 <= i < |parts| => Trim(parts[i]))
  }

  /** `items.flatMap { it.split(",").map { it.trim() } }`: every item name of a
      package, an entry holding several comma-separated names contributing
      each of them, in order. */
  function ItemNames(items: seq<string>): (names: seq<string>)
    ensures |names| >= |items|
  {
    if |items| == 0 then [] else EntryNames(items[0]) + ItemNames(items[1..])
  }

  /** Flattening distributes over concatenation of the entry lists. */
  lemma {:induction false} ItemNamesAppend(a: seq<string>, b: seq<string>)
    ensures ItemNames(a + b) == ItemNames(a) + ItemNames(b)
    decreases |a|
  {
    if |a| == 0 {
      assert a + b == b;
    } else {
      assert (a + b)[1..] == a[1..] + b;
      ItemNamesAppend(a[1..], b);
    }
  }

  /** Entries without commas contribute exactly their trimmed selves, so a
      package whose entries are single names has one name per entry. */
  lemma {:induction false} ItemNamesOfSingleNames(items: seq<string>)
    requires forall i :: 0 <= i < |items| ==> ',' !in items[i]
    ensures |ItemNames(items)| == |items|
    ensures forall i :: 0 <= i < |items| ==> ItemNames(items)[i] == Trim(items[i])
    decreases |items|
  {
    if |items| > 0 {
      var tail := items[1..];
      SingleNameEntry(items[0]);
      ItemNamesOfSingleNames(tail);
      ItemNamesStep(items, tail);
    }
  }

  /** One entry in front of entries that each give their trimmed selves. */
  lemma ItemNamesStep(items: seq<string>, tail: seq<string>)
    requires |items| > 0 && tail == items[1..]
    requires EntryNames(items[0]) == [Trim(items[0])]
    requires |ItemNames(tail)| == |tail|
    requires forall i :: 0 <= i < |tail| ==> ItemNames(tail)[i] == Trim(tail[i])
    ensures |ItemNames(items)| == |items|
    ensures forall i :: 0 <= i < |items| ==> ItemNames(items)[i] == Trim(items[i])
  {
    var rest := ItemNames(tail);
    assert ItemNames(items) == [Trim(items[0])] + rest;
    forall i | 0 <= i < |items|
      ensures ItemNames(items)[i] == Trim(items[i])
    {
      if i > 0 {
        assert tail[i - 1] == items[i];
      }
    }
  }

  lemma SingleNameEntry(entry: string)
    requires ',' !in entry
    ensures EntryNames(entry) == [Trim(entry)]
  {
    SplitNoSeparator(entry, ',');
  }
}

=== FILE: common.dfy ===
/** Small shared vocabulary: an optional value, sums, filtering, first-index
    search, Kotlin-style `split`/`trim`, and decimal rendering and parsing of
    integers. Every other module imports this one. */
module Common {

  /** A value that may be absent (Kotlin's nullable types, JavaScript's null). */
  datatype Option<+T> = None | Some(value: T) {
    /** Kotlin's elvis operator `x ?: default`. */
    function GetOr(default: T): T {
      match this
      case Some(v) => v
      case None => default
    }
  }

  /** A call into code outside the model: it returned a value, or it threw
      an exception whose message may be null. */
  datatype Call<+T> = Returned(value: T) | Threw(message: Option<string>)

  // ---------------------------------------------------------------------
  // Sums and extrema

  function Sum(xs: seq<int>): int {
    if |xs| == 0 then 0 else Sum(xs[..|xs| - 1]) + xs[|xs| - 1]
  }

  function SumReal(xs: seq<real>): real {
    if |xs| == 0 then 0.0 else SumReal(xs[..|xs| - 1]) + xs[|xs| - 1]
  }

  lemma {:induction false} SumAppend(a: seq<int>, b: seq<int>)
    ensures Sum(a + b) == Sum(a) + Sum(b)
    decreases |b|
  {
    if |b| == 0 {
      assert a + b == a;
    } else {
      assert (a + b)[..|a + b| - 1] == a + b[..|b| - 1];
      SumAppend(a, b[..|b| - 1]);
    }
  }

  lemma {:induction false} SumRealAppend(a: seq<real>, b: seq<real>)
    ensures SumReal(a + b) == SumReal(a) + SumReal(b)
    decreases |b|
  {
    if |b| == 0 {
      assert a + b == a;
    } else {
      assert (a + b)[..|a + b| - 1] == a + b[..|b| - 1];
      SumRealAppend(a, b[..|b| - 1]);
    }
  }

  // Steps of real arithmetic the solver does not take on its own.

  lemma CastMul(a: int, b: int)
    ensures (a * b) as real == a as real * b as real
  {
  }

  lemma MulPositive(a: real, b: real)
    requires a > 0.0 && b > 0.0
    ensures a * b > 0.0
  {
  }

  /** A quotient by a positive divisor is at most `hi` when the dividend is
      at most `hi` times the divisor. */
  lemma DivAtMost(x: real, n: real, hi: real)
    requires n > 0.0 && x <= n * hi
    ensures x / n <= hi
  {
    var q := x / n;
    assert q * n == x;
    if q > hi {
      MulPositive(q - hi, n);
    }
  }

  lemma DivAtLeast(x: real, n: real, lo: real)
    requires n > 0.0 && n * lo <= x
    ensures lo <= x / n
  {
    var q := x / n;
    assert q * n == x;
    if q < lo {
      MulPositive(lo - q, n);
    }
  }

  function MaxReal(a: real, b: real): (m: real)
    ensures m >= a && m >= b && (m == a || m == b)
  {
    if a >= b then a else b
  }

  // ---------------------------------------------------------------------
  // Filtering and search

  /** Kotlin's `filter` / JavaScript's `Array.prototype.filter`: the elements
      that satisfy `keep`, in their original order. */
  function Filter<T(!new)>(xs: seq<T>, keep: T -> bool): (r: seq<T>)
    ensures |r| <= |xs|
    ensures forall i :: 0 <= i < |r| ==> keep(r[i])
    ensures forall x :: x in r <==> x in xs && keep(x)
  {
    if |xs| == 0 then []
    else if keep(xs[0]) then [xs[0]] + Filter(xs[1..], keep)
    else Filter(xs[1..], keep)
  }

  lemma {:induction false} FilterAppend<T(!new)>(a: seq<T>, b: seq<T>, keep: T -> bool)
    ensures Filter(a + b, keep) == Filter(a, keep) + Filter(b, keep)
    decreases |a|
  {
    if |a| == 0 {
      assert a + b == b;
    } else {
      assert (a + b)[1..] == a[1..] + b;
      FilterAppend(a[1..], b, keep);
    }
  }

  lemma {:induction false} FilterAll<T(!new)>(xs: seq<T>, keep: T -> bool)
    requires forall i :: 0 <= i < |xs| ==> keep(xs[i])
    ensures Filter(xs, keep) == xs
    decreases |xs|
  {
    if |xs| > 0 {
      FilterAll(xs[1..], keep);
    }
  }

  lemma {:induction false} FilterNone<T(!new)>(xs: seq<T>, keep: T -> bool)
    requires forall i :: 0 <= i < |xs| ==> !keep(xs[i])
    ensures Filter(xs, keep) == []
    decreases |xs|
  {
    if |xs| > 0 {
      FilterNone(xs[1..], keep);
    }
  }

  /** Kotlin's `List.indexOf`: the first position of `x`, or -1. */
  function IndexOf<T(==)>(xs: seq<T>, x: T): (i: int)
    ensures -1 <= i < |xs|
    ensures i == -1 <==> x !in xs
    ensures 0 <= i ==> xs[i] == x && forall j :: 0 <= j < i ==> xs[j] != x
  {
    if |xs| == 0 then -1
    else if xs[0] == x then 0
    else
      var k := IndexOf(xs[1..], x);
      if k == -1 then -1 else k + 1
  }

  // ---------------------------------------------------------------------
  // Kotlin strings: split on one delimiter, trim, join

  /** Kotlin's `Char.isWhitespace()`: Java whitespace or a Unicode space
      separator (categories Zs, Zl, Zp). */
  predicate IsWhitespace(c: char) {
    || ('\t' <= c <= '\r')
    || ('\U{1C}' <= c <= '\U{1F}')
    || c == ' ' || c == '\U{A0}' || c == '\U{1680}'
    || ('\U{2000}' <= c <= '\U{200A}')
    || c == '\U{2028}' || c == '\U{2029}' || c == '\U{202F}' || c == '\U{205F}' || c == '\U{3000}'
  }

  function TrimStart(s: string): (r: string)
    ensures |r| <= |s| && r == s[|s| - |r|..]
    ensures |r| > 0 ==> !IsWhitespace(r[0])
    ensures forall i :: 0 <= i < |s| - |r| ==> IsWhitespace(s[i])
  {
    if |s| > 0 && IsWhitespace(s[0]) then TrimStart(s[1..]) else s
  }

  function TrimEnd(s: string): (r: string)
    ensures |r| <= |s| && r == s[..|r|]
    ensures |r| > 0 ==> !IsWhitespace(r[|r| - 1])
    ensures forall i :: |r| <= i < |s| ==> IsWhitespace(s[i])
  {
    if |s| > 0 && IsWhitespace(s[|s| - 1]) then TrimEnd(s[..|s| - 1]) else s
  }

  /** Kotlin's `String.trim()`: the longest slice without leading or trailing
      whitespace. */
  function Trim(s: string): (r: string)
    ensures |r| <= |s|
    ensures |r| > 0 ==> !IsWhitespace(r[0]) && !IsWhitespace(r[|r| - 1])
    // r is the slice of s starting where TrimStart stops, and what lies
    // outside it on either side is whitespace
    ensures |s| - |TrimStart(s)| + |r| <= |s|
    ensures r == s[|s| - |TrimStart(s)|..|s| - |TrimStart(s)| + |r|]
    ensures forall k :: 0 <= k < |s| - |TrimStart(s)| ==> IsWhitespace(s[k])
    ensures forall k :: |s| - |TrimStart(s)| + |r| <= k < |s| ==> IsWhitespace(s[k])
  {
    var t := TrimStart(s);
    var r := TrimEnd(t);
    TrimIsSlice(s, t, r);
    r
  }

  /** Trimming the end of a suffix whose dropped prefix is whitespace leaves
      a slice with whitespace on either side. */
  lemma TrimIsSlice(s: string, t: string, r: string)
    requires |t| <= |s| && t == s[|s| - |t|..]
    requires |r| <= |t| && r == t[..|r|]
    requires forall k :: 0 <= k < |s| - |t| ==> IsWhitespace(s[k])
    requires forall k :: |r| <= k < |t| ==> IsWhitespace(t[k])
    ensures |s| - |t| + |r| <= |s| && r == s[|s| - |t|..|s| - |t| + |r|]
    ensures forall k :: 0 <= k < |s| - |t| ==> IsWhitespace(s[k])
    ensures forall k :: |s| - |t| + |r| <= k < |s| ==> IsWhitespace(s[k])
  {
    var i := |s| - |t|;
    forall k | i + |r| <= k < |s|
      ensures IsWhitespace(s[k])
    {
      assert s[k] == t[k - i];
    }
  }

  /** Kotlin's `String.split(sep)` with one delimiter and no limit: every
      delimiter ends a part, so empty parts are kept. */
  function Split(s: string, sep: char): (parts: seq<string>)
    ensures |parts| >= 1
    ensures forall i :: 0 <= i < |parts| ==> sep !in parts[i]
    decreases |s|
  {
    if |s| == 0 then [""]
    else
      var rest := Split(s[1..], sep);
      if s[0] == sep then [""] + rest
      else [[s[0]] + rest[0]] + rest[1..]
  }

  /** Kotlin's `joinToString(sep)` for a one-character separator. */
  function Join(parts: seq<string>, sep: char): string {
    if |parts| == 0 then ""
    else if |parts| == 1 then parts[0]
    else parts[0] + [sep] + Join(parts[1..], sep)
  }

  /** Splitting yields one more part than there are delimiters. */
  lemma {:induction false} SplitCount(s: string, sep: char)
    ensures |Split(s, sep)| == 1 + multiset(s)[sep]
    decreases |s|
  {
    if |s| > 0 {
      assert s == [s[0]] + s[1..];
      SplitCount(s[1..], sep);
    }
  }

  /** Joining the parts of a split restores the original text. */
  lemma {:induction false} JoinSplit(s: string, sep: char)
    ensures Join(Split(s, sep), sep) == s
    decreases |s|
  {
    if |s| > 0 {
      var rest := Split(s[1..], sep);
      JoinSplit(s[1..], sep);
      if s[0] == sep {
        assert Split(s, sep) == [""] + rest;
        assert ([""] + rest)[1..] == rest;
        assert s == [sep] + s[1..];
      } else {
        var parts := Split(s, sep);
        assert parts == [[s[0]] + rest[0]] + rest[1..];
        if |rest| == 1 {
          assert Join(parts, sep) == [s[0]] + rest[0];
        } else {
          assert parts[1..] == rest[1..];
          assert Join(rest, sep) == rest[0] + [sep] + Join(rest[1..], sep);
        }
      }
    }
  }

  lemma {:induction false} SplitNoSeparator(p: string, sep: char)
    requires sep !in p
    ensures Split(p, sep) == [p]
    decreases |p|
  {
    if |p| > 0 {
      SplitNoSeparator(p[1..], sep);
      assert [p[0]] + p[1..] == p;
    }
  }

  lemma {:induction false} SplitPrefix(p: string, t: string, sep: char)
    requires sep !in p
    ensures Split(p + [sep] + t, sep) == [p] + Split(t, sep)
    decreases |p|
  {
    var s := p + [sep] + t;
    if |p| == 0 {
      assert s[1..] == t;
    } else {
      assert s[1..] == p[1..] + [sep] + t;
      SplitPrefix(p[1..], t, sep);
      assert [p[0]] + p[1..] == p;
    }
  }

  /** Splitting a join of delimiter-free parts gives the parts back. */
  lemma {:induction false} SplitJoin(parts: seq<string>, sep: char)
    requires |parts| >= 1
    requires forall i :: 0 <= i < |parts| ==> sep !in parts[i]
    ensures Split(Join(parts, sep), sep) == parts
    decreases |parts|
  {
    if |parts| == 1 {
      SplitNoSeparator(parts[0], sep);
    } else {
      SplitJoin(parts[1..], sep);
      SplitPrefix(parts[0], Join(parts[1..], sep), sep);
      assert [parts[0]] + parts[1..] == parts;
    }
  }

  // ---------------------------------------------------------------------
  // Decimal integers

  predicate IsDigit(c: char) { '0' <= c <= '9' }

  function DigitChar(d: int): char
    requires 0 <= d < 10
  {
    "0123456789"[d]
  }

  function DigitValue(c: char): (d: int)
    requires IsDigit(c)
    ensures 0 <= d < 10
  {
    (c as int) - ('0' as int)
  }

  /** Decimal rendering of a natural number, most significant digit first. */
  function NatToString(n: nat): (s: string)
    ensures |s| >= 1
    ensures forall i :: 0 <= i < |s| ==> IsDigit(s[i])
  {
    if n < 10 then [DigitChar(n)] else NatToString(n / 10) + [DigitChar(n % 10)]
  }

  /** Kotlin's `toString()` of an integer. */
  function IntToString(n: int): (s: string)
    ensures |s| >= 1 && ',' !in s && '\n' !in s
  {
    if n < 0 then "-" + NatToString(-n) else NatToString(n)
  }

  /** The value of a string of decimal digits. */
  function DigitsValue(s: string): (n: nat)
    requires forall i :: 0 <= i < |s| ==> IsDigit(s[i])
  {
    if |s| == 0 then 0 else DigitsValue(s[..|s| - 1]) * 10 + DigitValue(s[|s| - 1])
  }

  lemma {:induction false} DigitsOfNat(n: nat)
    ensures DigitsValue(NatToString(n)) == n
    decreases n
  {
    var s := NatToString(n);
    if n >= 10 {
      DigitsOfNat(n / 10);
      assert s[..|s| - 1] == NatToString(n / 10);
    }
  }

  predicate AllDigits(s: string) {
    forall i :: 0 <= i < |s| ==> IsDigit(s[i])
  }

  const IntMin: int := -0x8000_0000
  const IntMax: int := 0x7FFF_FFFF

  /** Kotlin's `String.toInt()` (Java's `Integer.parseInt` in radix 10): an
      optional sign and at least one decimal digit, within the 32-bit range;
      `None` stands for the thrown NumberFormatException. */
  function ParseInt32(s: string): (r: Option<int>)
    ensures r.Some? ==> IntMin <= r.value <= IntMax
  {
    var signed := |s| > 0 && (s[0] == '-' || s[0] == '+');
    var digits := if signed then s[1..] else s;
    if |digits| == 0 || !AllDigits(digits) then None
    else
      var v: int := if signed && s[0] == '-' then 0 - (DigitsValue(digits) as int) else DigitsValue(digits) as int;
      if IntMin <= v <= IntMax then Some(v) else None
  }

  /** Every 32-bit integer survives rendering and re-parsing. */
  lemma ParseRendered(n: int)
    requires IntMin <= n <= IntMax
    ensures ParseInt32(IntToString(n)) == Some(n)
  {
    if n < 0 {
      ParseNegative(n);
    } else {
      ParseNonNegative(n);
    }
  }

  lemma ParseNegative(n: int)
    requires IntMin <= n < 0
    ensures ParseInt32(IntToString(n)) == Some(n)
  {
    var digits := NatToString(-n);
    assert IntToString(n) == "-" + digits;
    assert AllDigits(digits);
    DigitsOfNat(-n);
    ParseMinusDigits(digits, -n);
  }

  /** A minus sign before digits worth at most 2^31 reads as their negation. */
  lemma ParseMinusDigits(digits: string, m: nat)
    requires |digits| > 0 && AllDigits(digits) && DigitsValue(digits) == m && m <= -IntMin
    ensures ParseInt32("-" + digits) == Some(0 - m)
  {
    var s := "-" + digits;
    assert s[0] == '-' && s[1..] == digits;
  }

  lemma ParseNonNegative(n: int)
    requires 0 <= n <= IntMax
    ensures ParseInt32(IntToString(n)) == Some(n)
  {
    var s := IntToString(n);
    assert s == NatToString(n);
    assert IsDigit(s[0]);
    assert AllDigits(s);
    DigitsOfNat(n);
  }

  // ---------------------------------------------------------------------
  // UTF-16: what Kotlin's `length`, `take` and `takeLast` count

  /** The UTF-16 code units of one character: itself below 0x10000,
      otherwise a high and a low surrogate. */
  function CharUnits(c: char): (u: seq<int>)
    ensures |u| == if c as int < 0x1_0000 then 1 else 2
    ensures forall i :: 0 <= i < |u| ==> 0 <= u[i] < 0x1_0000
  {
    var v := c as int;
    if v < 0x1_0000 then [v]
    else [0xD800 + (v - 0x1_0000) / 0x400, 0xDC00 + (v - 0x1_0000) % 0x400]
  }

  /** The UTF-16 encoding of a string, as a JVM string holds it. */
  function Utf16(s: string): (u: seq<int>)
    ensures forall i :: 0 <= i < |u| ==> 0 <= u[i] < 0x1_0000
    decreases |s|
  {
    if |s| == 0 then [] else CharUnits(s[0]) + Utf16(s[1..])
  }

  /** A character outside the Basic Multilingual Plane, such as an emoji:
      two code units. */
  predicate IsAstral(c: char) {
    c as int >= 0x1_0000
  }

  /** Kotlin's `String.length`: one per character, two per astral one. */
  function Utf16Length(s: string): (n: nat)
    ensures |s| <= n <= 2 * |s|
    ensures n == |s| <==> forall i :: 0 <= i < |s| ==> !IsAstral(s[i])
    decreases |s|
  {
    if |s| == 0 then 0
    else
      var rest := Utf16Length(s[1..]);
      assert forall i :: 1 <= i < |s| ==> s[1..][i - 1] == s[i];
      (if IsAstral(s[0]) then 2 else 1) + rest
  }

  /** The length counts exactly the code units of the encoding. */
  lemma {:induction false} Utf16LengthIsUnits(s: string)
    ensures Utf16Length(s) == |Utf16(s)|
    decreases |s|
  {
    if |s| > 0 {
      Utf16LengthIsUnits(s[1..]);
    }
  }

  lemma {:induction false} Utf16Append(a: string, b: string)
    ensures Utf16(a + b) == Utf16(a) + Utf16(b)
    ensures Utf16Length(a + b) == Utf16Length(a) + Utf16Length(b)
    decreases |a|
  {
    if |a| == 0 {
      assert a + b == b;
    } else {
      assert (a + b)[0] == a[0] && (a + b)[1..] == a[1..] + b;
      Utf16Append(a[1..], b);
    }
  }

  predicate IsHighSurrogate(x: int) { 0xD800 <= x < 0xDC00 }
  predicate IsLowSurrogate(x: int) { 0xDC00 <= x < 0xE000 }

  /** Decoding UTF-16: a high surrogate followed by a low one is one
      character, any other non-surrogate unit is itself, and a lone
      surrogate or a value outside 16 bits is malformed. */
  function DecodeUtf16(u: seq<int>): (r: Option<string>)
    ensures r.Some? ==> |r.value| <= |u|
    decreases |u|
  {
    if |u| == 0 then Some("")
    else if |u| >= 2 && IsHighSurrogate(u[0]) && IsLowSurrogate(u[1]) then
      var c := 0x1_0000 + (u[0] - 0xD800) * 0x400 + (u[1] - 0xDC00);
      var rest := DecodeUtf16(u[2..]);
      if rest.None? then None else Some([c as char] + rest.value)
    else if 0 <= u[0] < 0xD800 || 0xE000 <= u[0] < 0x1_0000 then
      var rest := DecodeUtf16(u[1..]);
      if rest.None? then None else Some([u[0] as char] + rest.value)
    else None
  }

  /** One character's units decode back to it, whatever follows. */
  lemma DecodeCharUnits(c: char, more: seq<int>)
    ensures var u := CharUnits(c) + more;
      DecodeUtf16(u) == if DecodeUtf16(more).None? then None else Some([c] + DecodeUtf16(more).value)
  {
    var u := CharUnits(c) + more;
    var v := c as int;
    if v < 0x1_0000 {
      assert u[0] == v && u[1..] == more;
    } else {
      var hi, lo := 0xD800 + (v - 0x1_0000) / 0x400, 0xDC00 + (v - 0x1_0000) % 0x400;
      assert u[0] == hi && u[1] == lo && u[2..] == more;
      assert 0x1_0000 + (hi - 0xD800) * 0x400 + (lo - 0xDC00) == v;
    }
  }

  /** Every string survives encoding to UTF-16 and decoding. */
  lemma {:induction false} DecodeUtf16OfUtf16(s: string)
    ensures DecodeUtf16(Utf16(s)) == Some(s)
    decreases |s|
  {
    if |s| > 0 {
      DecodeUtf16OfUtf16(s[1..]);
      DecodeCharUnits(s[0], Utf16(s[1..]));
      assert [s[0]] + s[1..] == s;
    }
  }
}

=== FILE: complexity.dfy ===
/** The implementation-complexity table: a fixed list of eight component
    records, four for the REST client and four for the GraphQL client, the
    per-client summary computed from it, and the CSV text it is saved as. */
module Complexity {
  import opened Common
  import ResultFiles

  datatype Difficulty = Easy | Medium | Hard | VeryHard

  function DifficultyName(d: Difficulty): (name: string)
    ensures |name| > 0 && ',' !in name
  {
    match d
    case Easy => "EASY"
    case Medium => "MEDIUM"
    case Hard => "HARD"
    case VeryHard => "VERY_HARD"
  }

  datatype ComplexityResult = ComplexityResult(
    apiType: string,
    component: string,
    linesOfCode: int,
    cyclomaticComplexity: int,
    cognitiveComplexity: int,
    errorHandlingLines: int,
    documentationLines: int,
    implementationDifficulty: Difficulty,
    maintainabilityScore: real,
    readabilityScore: real,
    totalScore: real)

  const RetrofitApi: string := "RETROFIT"
  const ApolloApi: string := "APOLLO"

  /** The four REST-client components, in the order they are analysed. */
  const RetrofitRecords: seq<ComplexityResult> := [
    ComplexityResult(RetrofitApi, "ProductService Interface", 85, 8, 6, 0, 5, Easy, 8.5, 9.0, 8.75),
    ComplexityResult(RetrofitApi, "RetrofitClientProvider", 25, 3, 4, 0, 3, Easy, 8.0, 8.5, 8.25),
    ComplexityResult(RetrofitApi, "ProductRepository (Retrofit Methods)", 120, 15, 12, 25, 8, Medium, 7.0, 7.5, 7.25),
    ComplexityResult(RetrofitApi, "Response Extension", 15, 2, 2, 5, 2, Easy, 8.0, 8.0, 8.0)]

  /** The four GraphQL-client components. */
  const ApolloRecords: seq<ComplexityResult> := [
    ComplexityResult(ApolloApi, "ApolloClientProvider", 15, 2, 3, 0, 2, Easy, 8.5, 9.0, 8.75),
    ComplexityResult(ApolloApi, "GraphQL Query Files", 80, 6, 8, 0, 10, Medium, 7.5, 8.0, 7.75),
    ComplexityResult(ApolloApi, "ProductRepository (Apollo Methods)", 130, 18, 15, 30, 10, Hard, 6.5, 6.0, 6.25),
    ComplexityResult(ApolloApi, "Generated Apollo Classes", 200, 10, 12, 15, 5, Hard, 5.0, 4.0, 4.5)]

  /** `analyzeComplexity`: the REST records followed by the GraphQL ones.
      (Saving the file on the way is `ComplexityFile`.) */
  function AnalyzeComplexity(): (rs: seq<ComplexityResult>)
    ensures |rs| == 8
    ensures forall i :: 0 <= i < 4 ==> rs[i].apiType == RetrofitApi
    ensures forall i :: 4 <= i < 8 ==> rs[i].apiType == ApolloApi
  {
    RetrofitRecords + ApolloRecords
  }

  /** A record's total score is the mean of its maintainability and
      readability scores. */
  predicate ScoresAgree(r: ComplexityResult) {
    2.0 * r.totalScore == r.maintainabilityScore + r.readabilityScore
  }

  lemma EveryTotalIsTheMeanScore()
    ensures forall i :: 0 <= i < |AnalyzeComplexity()| ==> ScoresAgree(AnalyzeComplexity()[i])
  {
  }

  // ---------------------------------------------------------------------
  // The summary

  /** Kotlin's `average()` on a list of numbers: the arithmetic mean, or NaN
      (here `None`) for an empty list. */
  function Average(xs: seq<real>): (m: Option<real>)
    ensures m.None? <==> |xs| == 0
    ensures m.Some? ==> m.value * |xs| as real == SumReal(xs)
  {
    if |xs| == 0 then None else Some(SumReal(xs) / |xs| as real)
  }

  function Lines(rs: seq<ComplexityResult>): seq<int> {
    seq(|rs|, i requires 0 <= i < |rs| => rs[i].linesOfCode)
  }

  function Cyclomatic(rs: seq<ComplexityResult>): seq<real> {
    seq(|rs|, i requires 0 <= i < |rs| => rs[i].cyclomaticComplexity as real)
  }

  function Maintainability(rs: seq<ComplexityResult>): seq<real> {
    seq(|rs|, i requires 0 <= i < |rs| => rs[i].maintainabilityScore)
  }

  function Readability(rs: seq<ComplexityResult>): seq<real> {
    seq(|rs|, i requires 0 <= i < |rs| => rs[i].readabilityScore)
  }

  function Totals(rs: seq<ComplexityResult>): seq<real> {
    seq(|rs|, i requires 0 <= i < |rs| => rs[i].totalScore)
  }

  /** Whether a record belongs to the client named `api`. */
  function IsApi(api: string): ComplexityResult -> bool {
    (r: ComplexityResult) => r.apiType == api
  }

  /** The records of one client, selected by their `apiType` text. */
  function OfApi(results: seq<ComplexityResult>, api: string): (rs: seq<ComplexityResult>)
    ensures forall i :: 0 <= i < |rs| ==> rs[i].apiType == api
    ensures forall r :: r in rs <==> r in results && r.apiType == api
  {
    Filter(results, IsApi(api))
  }

  /** The client names that occur in `results`. */
  function Apis(results: seq<ComplexityResult>): set<string> {
    set i | 0 <= i < |results| :: results[i].apiType
  }

  datatype ComplexitySummary = ComplexitySummary(
    retrofitTotalLines: int,
    apolloTotalLines: int,
    retrofitAvgComplexity: Option<real>,
    apolloAvgComplexity: Option<real>,
    retrofitMaintainability: Option<real>,
    apolloMaintainability: Option<real>,
    retrofitReadability: Option<real>,
    apolloReadability: Option<real>,
    retrofitTotalScore: Option<real>,
    apolloTotalScore: Option<real>)

  /** `getComplexitySummaryFromResults`: per client, the total lines of code
      and the mean of each score; a client with no records has NaN means. */
  function SummaryFromResults(results: seq<ComplexityResult>): (s: ComplexitySummary)
    ensures s.retrofitTotalLines == Sum(Lines(OfApi(results, RetrofitApi)))
    ensures s.apolloTotalLines == Sum(Lines(OfApi(results, ApolloApi)))
    ensures s.retrofitAvgComplexity.None? <==> RetrofitApi !in Apis(results)
    ensures s.apolloAvgComplexity.None? <==> ApolloApi !in Apis(results)
  {
    var rs, ap := OfApi(results, RetrofitApi), OfApi(results, ApolloApi);
    ComplexitySummary(
      Sum(Lines(rs)), Sum(Lines(ap)),
      Average(Cyclomatic(rs)), Average(Cyclomatic(ap)),
      Average(Maintainability(rs)), Average(Maintainability(ap)),
      Average(Readability(rs)), Average(Readability(ap)),
      Average(Totals(rs)), Average(Totals(ap)))
  }

  /** `getComplexitySummary`: analyses afresh and summarises, written out
      on its own rather than through `SummaryFromResults`. */
  function GetComplexitySummary(): (s: ComplexitySummary)
    ensures s.retrofitTotalLines == 245 && s.apolloTotalLines == 425
  {
    var results := AnalyzeComplexity();
    var rs, ap := OfApi(results, RetrofitApi), OfApi(results, ApolloApi);
    SelectByApi();
    ComplexitySummary(
      Sum(Lines(rs)), Sum(Lines(ap)),
      Average(Cyclomatic(rs)), Average(Cyclomatic(ap)),
      Average(Maintainability(rs)), Average(Maintainability(ap)),
      Average(Readability(rs)), Average(Readability(ap)),
      Average(Totals(rs)), Average(Totals(ap)))
  }

  /** Selecting by client splits the analysis into its two halves, of 245
      and 425 lines. */
  lemma SelectByApi()
    ensures OfApi(AnalyzeComplexity(), RetrofitApi) == RetrofitRecords
    ensures OfApi(AnalyzeComplexity(), ApolloApi) == ApolloRecords
    ensures Sum(Lines(RetrofitRecords)) == 245 && Sum(Lines(ApolloRecords)) == 425
  {
    RetrofitOfAnalysis();
    ApolloOfAnalysis();
    LineTotals();
  }

  lemma LineTotals()
    ensures Sum(Lines(RetrofitRecords)) == 245 && Sum(Lines(ApolloRecords)) == 425
  {
    assert Lines(RetrofitRecords) == [85, 25, 120, 15];
    Sum4(85, 25, 120, 15);
    assert Lines(ApolloRecords) == [15, 80, 130, 200];
    Sum4(15, 80, 130, 200);
  }

  lemma RetrofitOfAnalysis()
    ensures OfApi(AnalyzeComplexity(), RetrofitApi) == RetrofitRecords
  {
    RetrofitHalf();
    ApolloHalf();
    FilterAppend(RetrofitRecords, ApolloRecords, IsApi(RetrofitApi));
    assert RetrofitRecords + [] == RetrofitRecords;
  }

  lemma ApolloOfAnalysis()
    ensures OfApi(AnalyzeComplexity(), ApolloApi) == ApolloRecords
  {
    RetrofitHalf();
    ApolloHalf();
    FilterAppend(RetrofitRecords, ApolloRecords, IsApi(ApolloApi));
    assert [] + ApolloRecords == ApolloRecords;
  }

  lemma RetrofitHalf()
    ensures Filter(RetrofitRecords, IsApi(RetrofitApi)) == RetrofitRecords
    ensures Filter(RetrofitRecords, IsApi(ApolloApi)) == []
  {
    forall i | 0 <= i < |RetrofitRecords|
      ensures IsApi(RetrofitApi)(RetrofitRecords[i]) && !IsApi(ApolloApi)(RetrofitRecords[i])
    {
      assert RetrofitRecords[i].apiType == RetrofitApi;
    }
    FilterAll(RetrofitRecords, IsApi(RetrofitApi));
    FilterNone(RetrofitRecords, IsApi(ApolloApi));
  }

  lemma ApolloHalf()
    ensures Filter(ApolloRecords, IsApi(ApolloApi)) == ApolloRecords
    ensures Filter(ApolloRecords, IsApi(RetrofitApi)) == []
  {
    forall i | 0 <= i < |ApolloRecords|
      ensures IsApi(ApolloApi)(ApolloRecords[i]) && !IsApi(RetrofitApi)(ApolloRecords[i])
    {
      assert ApolloRecords[i].apiType == ApolloApi;
    }
    FilterAll(ApolloRecords, IsApi(ApolloApi));
    FilterNone(ApolloRecords, IsApi(RetrofitApi));
  }

  /** The two summaries agree, and their figures are those of the fixed
      table: 245 against 425 lines, mean cyclomatic complexity 7 against 9,
      mean maintainability 7.875 against 6.875. */
  lemma SummaryOfTheAnalysis()
    ensures GetComplexitySummary() == SummaryFromResults(AnalyzeComplexity())
    ensures var s := GetComplexitySummary();
      s.retrofitAvgComplexity == Some(7.0) && s.apolloAvgComplexity == Some(9.0) &&
      s.retrofitMaintainability == Some(7.875) && s.apolloMaintainability == Some(6.875) &&
      s.retrofitReadability == Some(8.25) && s.apolloReadability == Some(6.75) &&
      s.retrofitTotalScore == Some(8.0625) && s.apolloTotalScore == Some(6.8125)
  {
    SelectByApi();
    RetrofitMeans();
    ApolloMeans();
  }

  lemma RetrofitMeans()
    ensures Average(Cyclomatic(RetrofitRecords)) == Some(7.0)
    ensures Average(Maintainability(RetrofitRecords)) == Some(7.875)
    ensures Average(Readability(RetrofitRecords)) == Some(8.25)
    ensures Average(Totals(RetrofitRecords)) == Some(8.0625)
  {
    assert Cyclomatic(RetrofitRecords) == [8.0, 3.0, 15.0, 2.0];
    AverageOf4(8.0, 3.0, 15.0, 2.0);
    assert Maintainability(RetrofitRecords) == [8.5, 8.0, 7.0, 8.0];
    AverageOf4(8.5, 8.0, 7.0, 8.0);
    assert Readability(RetrofitRecords) == [9.0, 8.5, 7.5, 8.0];
    AverageOf4(9.0, 8.5, 7.5, 8.0);
    assert Totals(RetrofitRecords) == [8.75, 8.25, 7.25, 8.0];
    AverageOf4(8.75, 8.25, 7.25, 8.0);
  }

  lemma ApolloMeans()
    ensures Average(Cyclomatic(ApolloRecords)) == Some(9.0)
    ensures Average(Maintainability(ApolloRecords)) == Some(6.875)
    ensures Average(Readability(ApolloRecords)) == Some(6.75)
    ensures Average(Totals(ApolloRecords)) == Some(6.8125)
  {
    assert Cyclomatic(ApolloRecords) == [2.0, 6.0, 18.0, 10.0];
    AverageOf4(2.0, 6.0, 18.0, 10.0);
    assert Maintainability(ApolloRecords) == [8.5, 7.5, 6.5, 5.0];
    AverageOf4(8.5, 7.5, 6.5, 5.0);
    assert Readability(ApolloRecords) == [9.0, 8.0, 6.0, 4.0];
    AverageOf4(9.0, 8.0, 6.0, 4.0);
    assert Totals(ApolloRecords) == [8.75, 7.75, 6.25, 4.5];
    AverageOf4(8.75, 7.75, 6.25, 4.5);
  }

  lemma Sum4(a: int, b: int, c: int, d: int)
    ensures Sum([a, b, c, d]) == a + b + c + d
  {
    assert [a, b, c, d][..3] == [a, b, c];
    assert [a, b, c][..2] == [a, b];
    assert [a, b][..1] == [a];
    assert [a][..0] == [];
    assert Sum([a]) == a;
    assert Sum([a, b]) == a + b;
    assert Sum([a, b, c]) == a + b + c;
  }

  lemma AverageOf4(a: real, b: real, c: real, d: real)
    ensures Average([a, b, c, d]) == Some((a + b + c + d) / 4.0)
  {
    assert [a, b, c, d][..3] == [a, b, c];
    assert [a, b, c][..2] == [a, b];
    assert [a, b][..1] == [a];
    assert [a][..0] == [];
    assert SumReal([a]) == a;
    assert SumReal([a, b]) == a + b;
    assert SumReal([a, b, c]) == a + b + c;
  }

  // ---------------------------------------------------------------------
  // The saved file

  const ComplexityColumns: seq<string> := [
    "API_TYPE", "COMPONENT", "LINES_OF_CODE", "CYCLOMATIC_COMPLEXITY", "COGNITIVE_COMPLEXITY",
    "ERROR_HANDLING_LINES", "DOCUMENTATION_LINES", "IMPLEMENTATION_DIFFICULTY",
    "MAINTAINABILITY_SCORE", "READABILITY_SCORE"]

  const SummaryColumns: seq<string> := [
    "RETROFIT_TOTAL_LINES", "APOLLO_TOTAL_LINES", "RETROFIT_AVG_COMPLEXITY", "APOLLO_AVG_COMPLEXITY",
    "RETROFIT_MAINTAINABILITY", "APOLLO_MAINTAINABILITY", "RETROFIT_READABILITY", "APOLLO_READABILITY"]

  /** The fields of a record's line; a `Double` is whatever `fmt` renders. */
  function ComplexityFields(r: ComplexityResult, fmt: real -> string): (fields: seq<string>)
    ensures |fields| == |ComplexityColumns|
  {
    [r.apiType, r.component, IntToString(r.linesOfCode), IntToString(r.cyclomaticComplexity),
     IntToString(r.cognitiveComplexity), IntToString(r.errorHandlingLines), IntToString(r.documentationLines),
     DifficultyName(r.implementationDifficulty), fmt(r.maintainabilityScore), fmt(r.readabilityScore)]
  }

  /** A mean as the file shows it: NaN when there was nothing to average. */
  function MeanText(m: Option<real>, fmt: real -> string): string {
    match m
    case None => "NaN"
    case Some(x) => fmt(x)
  }

  function SummaryFields(s: ComplexitySummary, fmt: real -> string): (fields: seq<string>)
    ensures |fields| == |SummaryColumns|
  {
    [IntToString(s.retrofitTotalLines), IntToString(s.apolloTotalLines),
     MeanText(s.retrofitAvgComplexity, fmt), MeanText(s.apolloAvgComplexity, fmt),
     MeanText(s.retrofitMaintainability, fmt), MeanText(s.apolloMaintainability, fmt),
     MeanText(s.retrofitReadability, fmt), MeanText(s.apolloReadability, fmt)]
  }

  function Rows(results: seq<ComplexityResult>, fmt: real -> string): string
    decreases |results|
  {
    if |results| == 0 then ""
    else Rows(results[..|results| - 1], fmt) + ResultFiles.Line(ComplexityFields(results[|results| - 1], fmt))
  }

  /** The saved text: the header, a line per record, a blank line, the word
      SUMMARY, and the summary's header and line. */
  function ComplexityFile(results: seq<ComplexityResult>, fmt: real -> string): string {
    ResultFiles.Line(ComplexityColumns) + Rows(results, fmt) + "\nSUMMARY\n" +
    ResultFiles.Line(SummaryColumns) + ResultFiles.Line(SummaryFields(SummaryFromResults(results), fmt))
  }

  /** A record line holds one field per column and reads back as exactly
      those fields when its texts hold no comma; the total score is not
      among them, so records that differ only in it give the same line. */
  lemma ComplexityRowReadsBack(r: ComplexityResult, fmt: real -> string, otherTotal: real)
    requires ResultFiles.CommaFree(fmt) && ',' !in r.apiType && ',' !in r.component
    ensures var line := ResultFiles.Line(ComplexityFields(r, fmt));
      var fields := Split(line[..|line| - 1], ',');
      fields == ComplexityFields(r, fmt) && |fields| == 10 &&
      fields[1] == r.component && fields[7] == DifficultyName(r.implementationDifficulty) &&
      (IntMin <= r.linesOfCode <= IntMax ==> ParseInt32(fields[2]) == Some(r.linesOfCode))
    ensures ComplexityFields(r.(totalScore := otherTotal), fmt) == ComplexityFields(r, fmt)
  {
    var fields := ComplexityFields(r, fmt);
    var line := ResultFiles.Line(fields);
    assert line[..|line| - 1] == Join(fields, ',');
    var m, rd := fmt(r.maintainabilityScore), fmt(r.readabilityScore);
    assert ',' !in m && ',' !in rd;
    forall i | 0 <= i < |fields|
      ensures ',' !in fields[i]
    {
    }
    SplitJoin(fields, ',');
    if IntMin <= r.linesOfCode <= IntMax {
      ParseRendered(r.linesOfCode);
    }
  }
}

=== FILE: cpu_tracker.dfy ===
/** The CPU tracker: a small state record with guarded start/stop, a
    sampling step that keeps a peak, a running total and a count, and the
    arithmetic of the system-wide CPU summary. The process CPU time and the
    wall clock are parameters: a reading is a `Call<int>` (the `/proc` read
    may throw) and the clock is a plain millisecond value. */
module CpuTracker {
  import opened Common

  datatype CpuTracker = CpuTracker(
    initialCpuTime: int,
    initialSystemTime: int,
    isTracking: bool,
    peakCpuUsage: real,
    totalCpuUsage: real,
    measurementCount: int)

  /** The state of a new tracker, and the state `reset` returns to. */
  const Idle: CpuTracker := CpuTracker(0, 0, false, 0.0, 0.0, 0)

  /** A state change together with what the call returned or threw. */
  datatype Stepped<+S> = Stepped(state: S, thrown: Option<Option<string>>)

  /** `startTracking`: a no-op while tracking; otherwise the baseline becomes
      the current readings and peak, total and count restart from zero. The
      tracking flag is raised before the CPU time is read, so a read that
      throws leaves the flag set and the rest of the state as it was. */
  function StartTracking(t: CpuTracker, cpuTime: Call<int>, now: int): (r: Stepped<CpuTracker>)
    ensures t.isTracking ==> r == Stepped(t, None)
    ensures !t.isTracking && cpuTime.Returned? ==>
      r.thrown.None? && r.state.isTracking &&
      r.state.initialCpuTime == cpuTime.value && r.state.initialSystemTime == now &&
      r.state.peakCpuUsage == 0.0 && r.state.totalCpuUsage == 0.0 && r.state.measurementCount == 0
    ensures !t.isTracking && cpuTime.Threw? ==>
      r.thrown == Some(cpuTime.message) && r.state == t.(isTracking := true)
  {
    if t.isTracking then Stepped(t, None)
    else
      match cpuTime
      case Threw(m) => Stepped(t.(isTracking := true), Some(m))
      case Returned(c) => Stepped(CpuTracker(c, now, true, 0.0, 0.0, 0), None)
  }

  /** `stopTracking`: a no-op when idle; otherwise only the flag is cleared. */
  function StopTracking(t: CpuTracker): (r: CpuTracker)
    ensures !r.isTracking
    ensures !t.isTracking ==> r == t
    ensures r == t.(isTracking := false)
  {
    if !t.isTracking then t else t.(isTracking := false)
  }

  /** `reset`: back to the idle state. */
  function Reset(t: CpuTracker): (r: CpuTracker)
    ensures !r.isTracking && GetPeakCpuUsage(r) == 0.0 && GetAverageCpuUsage(r) == 0.0
  {
    Idle
  }

  /** What a sample returns, and the tracker afterwards. */
  datatype Sample = Sample(usage: real, tracker: CpuTracker)

  /** The usage over an interval: CPU time per wall time, in percent, or 0
      when no wall time has passed. */
  function IntervalUsage(cpuDelta: int, timeDelta: int): (u: real)
    ensures timeDelta <= 0 ==> u == 0.0
    ensures timeDelta > 0 && cpuDelta >= 0 ==> u >= 0.0
  {
    if timeDelta > 0 then (cpuDelta as real / timeDelta as real) * 100.0 else 0.0
  }

  /** `getCurrentCpuUsage`: whether or not tracking is on, a successful read
      yields the usage since the baseline, moves the baseline to the new
      readings, raises the peak, adds to the total and counts the sample. A
      read that throws yields 0 and changes nothing. */
  function GetCurrentCpuUsage(t: CpuTracker, cpuTime: Call<int>, now: int): (r: Sample)
    ensures cpuTime.Threw? ==> r == Sample(0.0, t)
    ensures cpuTime.Returned? ==>
      r.usage == IntervalUsage(cpuTime.value - t.initialCpuTime, now - t.initialSystemTime) &&
      r.tracker.initialCpuTime == cpuTime.value && r.tracker.initialSystemTime == now &&
      r.tracker.isTracking == t.isTracking &&
      r.tracker.peakCpuUsage == MaxReal(t.peakCpuUsage, r.usage) &&
      r.tracker.totalCpuUsage == t.totalCpuUsage + r.usage &&
      r.tracker.measurementCount == t.measurementCount + 1
  {
    match cpuTime
    case Threw(_) => Sample(0.0, t)
    case Returned(c) =>
      var u := IntervalUsage(c - t.initialCpuTime, now - t.initialSystemTime);
      Sample(u, CpuTracker(c, now, t.isTracking, MaxReal(t.peakCpuUsage, u), t.totalCpuUsage + u, t.measurementCount + 1))
  }

  function GetPeakCpuUsage(t: CpuTracker): real {
    t.peakCpuUsage
  }

  /** `getAverageCpuUsage`: the running mean, or 0 before any sample. */
  function GetAverageCpuUsage(t: CpuTracker): (a: real)
    ensures t.measurementCount <= 0 ==> a == 0.0
    ensures t.measurementCount > 0 ==> a * t.measurementCount as real == t.totalCpuUsage
  {
    if t.measurementCount > 0 then t.totalCpuUsage / t.measurementCount as real else 0.0
  }

  // ---------------------------------------------------------------------
  // A run of samples

  /** One sampling attempt: the CPU-time read and the clock at that moment. */
  datatype Reading = Reading(cpuTime: Call<int>, now: int)

  /** The usages of the successful samples in a run, in order. */
  function CountedUsages(t: CpuTracker, rs: seq<Reading>): seq<real>
    decreases |rs|
  {
    if |rs| == 0 then []
    else
      var before := SampleAll(t, rs[..|rs| - 1]);
      var s := GetCurrentCpuUsage(before, rs[|rs| - 1].cpuTime, rs[|rs| - 1].now);
      CountedUsages(t, rs[..|rs| - 1]) + (if rs[|rs| - 1].cpuTime.Returned? then [s.usage] else [])
  }

  /** The tracker after taking every sample of a run in turn. */
  function SampleAll(t: CpuTracker, rs: seq<Reading>): CpuTracker
    decreases |rs|
  {
    if |rs| == 0 then t
    else
      var before := SampleAll(t, rs[..|rs| - 1]);
      GetCurrentCpuUsage(before, rs[|rs| - 1].cpuTime, rs[|rs| - 1].now).tracker
  }

  /** The largest of zero and the given values. */
  function PeakOf(xs: seq<real>): (m: real)
    ensures m >= 0.0
    ensures forall i :: 0 <= i < |xs| ==> xs[i] <= m
    ensures m == 0.0 || exists i :: 0 <= i < |xs| && xs[i] == m
  {
    if |xs| == 0 then 0.0 else MaxReal(PeakOf(xs[..|xs| - 1]), xs[|xs| - 1])
  }

  /** After a successful start, a run of samples leaves the tracker holding
      exactly the summary of the counted usages: their number, their sum, and
      the largest of them and zero. The flag is never touched by sampling. */
  lemma {:induction false} RunSummary(t: CpuTracker, rs: seq<Reading>)
    requires t.peakCpuUsage == 0.0 && t.totalCpuUsage == 0.0 && t.measurementCount == 0
    ensures var u := SampleAll(t, rs);
      var counted := CountedUsages(t, rs);
      u.isTracking == t.isTracking &&
      u.measurementCount == |counted| &&
      u.totalCpuUsage == SumReal(counted) &&
      u.peakCpuUsage == PeakOf(counted)
    decreases |rs|
  {
    if |rs| > 0 {
      var prefix := rs[..|rs| - 1];
      RunSummary(t, prefix);
      var before := SampleAll(t, prefix);
      var last := rs[|rs| - 1];
      var c0 := CountedUsages(t, prefix);
      if last.cpuTime.Returned? {
        var s := GetCurrentCpuUsage(before, last.cpuTime, last.now);
        var c := c0 + [s.usage];
        assert CountedUsages(t, rs) == c;
        assert c[..|c| - 1] == c0;
      } else {
        assert CountedUsages(t, rs) == c0 + [];
        assert c0 + [] == c0;
      }
    }
  }

  /** Hence the peak bounds every counted sample and the average: the mean
      never exceeds the peak. */
  lemma {:induction false} AverageBelowPeak(t: CpuTracker, rs: seq<Reading>)
    requires t.peakCpuUsage == 0.0 && t.totalCpuUsage == 0.0 && t.measurementCount == 0
    ensures var u := SampleAll(t, rs);
      GetPeakCpuUsage(u) >= 0.0 &&
      (forall i :: 0 <= i < |CountedUsages(t, rs)| ==> CountedUsages(t, rs)[i] <= GetPeakCpuUsage(u)) &&
      GetAverageCpuUsage(u) <= GetPeakCpuUsage(u)
  {
    RunSummary(t, rs);
    var u := SampleAll(t, rs);
    var counted := CountedUsages(t, rs);
    var m := PeakOf(counted);
    assert u.peakCpuUsage == m;
    SumBelowCountTimesMax(counted, m);
    if u.measurementCount > 0 {
      DivAtMost(u.totalCpuUsage, u.measurementCount as real, m);
    }
  }

  lemma {:induction false} SumBelowCountTimesMax(xs: seq<real>, m: real)
    requires forall i :: 0 <= i < |xs| ==> xs[i] <= m
    ensures SumReal(xs) <= |xs| as real * m
    decreases |xs|
  {
    if |xs| > 0 {
      SumBelowCountTimesMax(xs[..|xs| - 1], m);
    }
  }

  // ---------------------------------------------------------------------
  // System-wide CPU summary

  /** The eight counters of the first `cpu ` line of the kernel statistics. */
  datatype CpuTimes = CpuTimes(
    user: int, nice: int, system: int, idle: int,
    iowait: int, irq: int, softirq: int, steal: int)

  datatype SystemCpuInfo = SystemCpuInfo(total: int, idle: int, nonIdle: int, usagePercentage: real)

  /** `getSystemCpuInfo` once the counters are read (`None` when the read
      failed or the line was not the aggregate `cpu ` line). */
  function GetSystemCpuInfo(times: Option<CpuTimes>): (r: SystemCpuInfo)
    ensures times.None? ==> r == SystemCpuInfo(0, 0, 0, 0.0)
    ensures times.Some? ==>
      var c := times.value;
      r.total == c.user + c.nice + c.system + c.idle + c.iowait + c.irq + c.softirq + c.steal &&
      r.idle == c.idle &&
      r.nonIdle == r.total - c.idle - c.iowait &&
      (r.total <= 0 ==> r.usagePercentage == 0.0)
    // a positive total: the usage is the non-idle share of it, in percent
    ensures times.Some? && r.total > 0 ==> r.usagePercentage * (r.total as real) == (r.nonIdle as real) * 100.0
  {
    match times
    case None => SystemCpuInfo(0, 0, 0, 0.0)
    case Some(c) =>
      var total := c.user + c.nice + c.system + c.idle + c.iowait + c.irq + c.softirq + c.steal;
      var nonIdle := c.user + c.nice + c.system + c.irq + c.softirq + c.steal;
      var usage := if total > 0 then (nonIdle as real / total as real) * 100.0 else 0.0;
      ShareTimesWhole(nonIdle as real, total as real);
      SystemCpuInfo(total, c.idle, nonIdle, usage)
  }

  lemma ShareTimesWhole(part: real, whole: real)
    ensures whole > 0.0 ==> ((part / whole) * 100.0) * whole == part * 100.0
  {
    if whole > 0.0 {
      var q := part / whole;
      assert q * whole == part;
      assert (q * 100.0) * whole == (q * whole) * 100.0;
    }
  }

  /** With non-negative counters the usage is a percentage: busy time is
      part of total time. */
  lemma SystemUsageIsPercentage(c: CpuTimes)
    requires c.user >= 0 && c.nice >= 0 && c.system >= 0 && c.idle >= 0
    requires c.iowait >= 0 && c.irq >= 0 && c.softirq >= 0 && c.steal >= 0
    ensures 0.0 <= GetSystemCpuInfo(Some(c)).usagePercentage <= 100.0
  {
    var r := GetSystemCpuInfo(Some(c));
    if r.total > 0 {
      assert r.nonIdle <= r.total;
      DivAtMost(r.nonIdle as real, r.total as real, 1.0);
    }
  }
}

=== FILE: memory_tracker.dfy ===
/** The memory tracker: guarded start/stop around a baseline and a peak that
    is only raised when tracking stops, the max-of-readings rule for the
    current usage, and the arithmetic of the system memory summary. The
    `Runtime`/`Debug` readings are parameters. */
module MemoryTracker {
  import opened Common

  datatype MemoryTracker = MemoryTracker(initialMemory: int, peakMemory: int, isTracking: bool)

  /** The state of a new tracker, and the state `reset` returns to. */
  const Idle: MemoryTracker := MemoryTracker(0, 0, false)

  /** One reading of the heap: it failed (any exception), or it gave the
      runtime's used bytes and, when a debugger is attached, the global
      allocation size. */
  datatype MemoryReading = ReadFailed | Reading(runtimeUsed: int, globalAllocSize: Option<int>)

  /** `getCurrentMemoryUsage`: the larger of the runtime figure and the
      debugger figure (which is the runtime figure again without a
      debugger); 0 when the reading failed. */
  function CurrentUsage(m: MemoryReading): (u: int)
    ensures m.ReadFailed? ==> u == 0
    ensures m.Reading? ==> u >= m.runtimeUsed
    ensures m.Reading? && m.globalAllocSize.Some? ==> u >= m.globalAllocSize.value
    ensures m.Reading? ==> u == m.runtimeUsed || (m.globalAllocSize.Some? && u == m.globalAllocSize.value)
  {
    match m
    case ReadFailed => 0
    case Reading(used, alloc) =>
      var debug := alloc.GetOr(used);
      if used > debug then used else debug
  }

  /** `startTracking`: a no-op while tracking; otherwise baseline and peak
      both become the current reading. */
  function StartTracking(t: MemoryTracker, m: MemoryReading): (r: MemoryTracker)
    ensures t.isTracking ==> r == t
    ensures !t.isTracking ==> r.isTracking && r.initialMemory == CurrentUsage(m) && r.peakMemory == CurrentUsage(m)
  {
    if t.isTracking then t
    else
      var initial := CurrentUsage(m);
      MemoryTracker(initial, initial, true)
  }

  /** `stopTracking`: a no-op when idle; otherwise the flag is cleared and the
      peak is raised to the final reading if that is larger. */
  function StopTracking(t: MemoryTracker, m: MemoryReading): (r: MemoryTracker)
    ensures !r.isTracking
    ensures !t.isTracking ==> r == t
    ensures t.isTracking ==>
      r.initialMemory == t.initialMemory &&
      r.peakMemory >= t.peakMemory && r.peakMemory >= CurrentUsage(m) &&
      (r.peakMemory == t.peakMemory || r.peakMemory == CurrentUsage(m))
  {
    if !t.isTracking then t
    else
      var final := CurrentUsage(m);
      MemoryTracker(t.initialMemory, if t.peakMemory > final then t.peakMemory else final, false)
  }

  function GetPeakMemoryUsage(t: MemoryTracker): int {
    t.peakMemory
  }

  /** `getMemoryDelta`: how far the peak rose above the baseline. */
  function GetMemoryDelta(t: MemoryTracker): (d: int)
    ensures t.peakMemory == t.initialMemory + d
  {
    t.peakMemory - t.initialMemory
  }

  /** `reset`: back to the idle state. */
  function Reset(t: MemoryTracker): (r: MemoryTracker)
    ensures !r.isTracking && GetPeakMemoryUsage(r) == 0 && GetMemoryDelta(r) == 0
  {
    Idle
  }

  /** While tracking, the peak is the start reading: only `stopTracking`
      raises it, so a peak read mid-trial says nothing about the trial. */
  lemma PeakWhileTrackingIsStartReading(t: MemoryTracker, m: MemoryReading)
    requires !t.isTracking
    ensures var s := StartTracking(t, m);
      s.isTracking && GetPeakMemoryUsage(s) == CurrentUsage(m) && GetMemoryDelta(s) == 0
  {
  }

  /** After start then stop, the delta is the rise of the final reading over
      the start reading, and never negative. */
  lemma DeltaAfterTrial(t: MemoryTracker, start: MemoryReading, stop: MemoryReading)
    requires !t.isTracking
    ensures var s := StopTracking(StartTracking(t, start), stop);
      var rise := CurrentUsage(stop) - CurrentUsage(start);
      !s.isTracking && GetMemoryDelta(s) >= 0 &&
      GetMemoryDelta(s) == (if rise > 0 then rise else 0)
  {
  }

  /** Starting twice is starting once; stopping twice is stopping once,
      whatever the second reading says. */
  lemma GuardsAreIdempotent(t: MemoryTracker, m1: MemoryReading, m2: MemoryReading)
    ensures StartTracking(StartTracking(t, m1), m2) == StartTracking(t, m1)
    ensures StopTracking(StopTracking(t, m1), m2) == StopTracking(t, m1)
  {
  }

  // ---------------------------------------------------------------------
  // System memory summary

  /** The kilobyte figures of the `MemTotal:`, `MemAvailable:` and `MemFree:`
      lines, each `None` when its line is absent. */
  datatype MemInfo = MemInfo(totalKb: Option<int>, availableKb: Option<int>, freeKb: Option<int>)

  datatype SystemMemoryInfo = SystemMemoryInfo(totalMemory: int, availableMemory: int, freeMemory: int, usedMemory: int)

  /** `getSystemMemoryInfo` once the lines are read (`None` when the read
      failed): each figure in bytes, absent lines counting as 0, and used
      memory the part of the total that is not available. */
  function GetSystemMemoryInfo(info: Option<MemInfo>): (r: SystemMemoryInfo)
    ensures info.None? ==> r == SystemMemoryInfo(0, 0, 0, 0)
    ensures info.Some? ==>
      r.totalMemory == info.value.totalKb.GetOr(0) * 1024 &&
      r.availableMemory == info.value.availableKb.GetOr(0) * 1024 &&
      r.freeMemory == info.value.freeKb.GetOr(0) * 1024
    ensures r.usedMemory + r.availableMemory == r.totalMemory
  {
    match info
    case None => SystemMemoryInfo(0, 0, 0, 0)
    case Some(i) =>
      var total := i.totalKb.GetOr(0) * 1024;
      var available := i.availableKb.GetOr(0) * 1024;
      SystemMemoryInfo(total, available, i.freeKb.GetOr(0) * 1024, total - available)
  }

  /** `getUsagePercentage`: used memory as a percentage of the total, or 0
      when the total is not positive. */
  function UsagePercentage(s: SystemMemoryInfo): (p: real)
    ensures s.totalMemory <= 0 ==> p == 0.0
    ensures s.totalMemory > 0 ==> p * s.totalMemory as real == s.usedMemory as real * 100.0
  {
    if s.totalMemory > 0 then (s.usedMemory as real / s.totalMemory as real) * 100.0 else 0.0
  }

  /** When the available memory is within the total, the usage is a
      percentage. */
  lemma UsageIsPercentage(info: MemInfo)
    requires 0 <= info.availableKb.GetOr(0) <= info.totalKb.GetOr(0)
    ensures 0.0 <= UsagePercentage(GetSystemMemoryInfo(Some(info))) <= 100.0
  {
    var s := GetSystemMemoryInfo(Some(info));
    if s.totalMemory > 0 {
      var q := s.usedMemory as real / s.totalMemory as real;
      assert (1.0 - q) * s.totalMemory as real == s.availableMemory as real;
    }
  }
}

=== FILE: package_slots.dfy ===
/** The package card's three item slots: the drop-down options each slot
    offers, what a click on an option does, and the selection the cart
    button hands on. The slot texts the card shows are the slot selections
    (every update resets the texts and restores the non-empty selections),
    so the model keeps the selections only. */
module PackageSlots {
  import opened Common
  import opened Catalogue

  /** The number of slots on a package card. */
  const SlotCount: nat := 3

  /** The first option of every slot; choosing it clears the slot. */
  const Placeholder: string := "Select an item"

  /** A bound card: the package's item names and one selection per slot,
      the empty string for "nothing chosen". */
  datatype SlotState = SlotState(allItems: seq<string>, selected: seq<string>)

  predicate WellFormed(st: SlotState) {
    |st.selected| == SlotCount
  }

  /** No item is chosen in two slots. */
  predicate Distinct(st: SlotState) {
    forall a, b :: 0 <= a < b < |st.selected| && st.selected[a] != "" ==> st.selected[a] != st.selected[b]
  }

  /** Every chosen item is one of the package's items. */
  predicate FromItems(st: SlotState) {
    forall j :: 0 <= j < |st.selected| && st.selected[j] != "" ==> st.selected[j] in st.allItems
  }

  /** What every reachable card satisfies. */
  predicate Consistent(st: SlotState) {
    WellFormed(st) && Distinct(st) && FromItems(st)
  }

  /** Binding a package: its item names, split and trimmed, and three empty
      slots. */
  function Bind(pkg: PackageProduct): (st: SlotState)
    ensures Consistent(st)
    ensures forall j :: 0 <= j < SlotCount ==> st.selected[j] == ""
    ensures |st.allItems| >= |pkg.items|
  {
    var none: seq<string> := ["", "", ""];
    assert forall j :: 0 <= j < |none| ==> none[j] == "";
    SlotState(ItemNames(pkg.items), none)
  }

  /** The items slot `i` may still take: those chosen nowhere, and the one
      it holds itself. */
  function KeepForSlot(st: SlotState, i: nat): string -> bool
    requires i < |st.selected|
  {
    (x: string) => x !in st.selected || x == st.selected[i]
  }

  /** `getOptionsForSpinner(i)`: the placeholder, then the available items
      in the package's order. */
  function Options(st: SlotState, i: nat): (o: seq<string>)
    requires WellFormed(st) && i < SlotCount
    ensures |o| >= 1 && o[0] == Placeholder
    ensures forall x :: x in o[1..] <==> x in st.allItems && (x !in st.selected || x == st.selected[i])
    ensures forall j :: 0 <= j < SlotCount && j != i && st.selected[j] in o[1..] ==> st.selected[j] == st.selected[i]
    ensures o[1..] == Filter(st.allItems, KeepForSlot(st, i))
  {
    var available := Filter(st.allItems, KeepForSlot(st, i));
    assert ([Placeholder] + available)[1..] == available;
    [Placeholder] + available
  }

  /** A freshly bound card offers every item in every slot, in order. */
  lemma FreshOptionsOfferEverything(pkg: PackageProduct, i: nat)
    requires i < SlotCount
    ensures Options(Bind(pkg), i) == [Placeholder] + ItemNames(pkg.items)
  {
    var st := Bind(pkg);
    var keep := KeepForSlot(st, i);
    forall k | 0 <= k < |st.allItems|
      ensures keep(st.allItems[k])
    {
      if st.allItems[k] in st.selected {
        assert st.allItems[k] == "";
      }
    }
    FilterAll(st.allItems, keep);
  }

  /** Clicking option `position` of slot `i`: position 0 (the placeholder)
      clears the slot, any other position chooses that option. Only slot
      `i` changes. */
  function Click(st: SlotState, i: nat, position: nat): (next: SlotState)
    requires WellFormed(st) && i < SlotCount && position < |Options(st, i)|
    ensures WellFormed(next) && next.allItems == st.allItems
    ensures forall j :: 0 <= j < SlotCount && j != i ==> next.selected[j] == st.selected[j]
    ensures position == 0 ==> next.selected[i] == ""
    ensures position > 0 ==>
      next.selected[i] in st.allItems && (next.selected[i] !in st.selected || next.selected[i] == st.selected[i])
    ensures position > 0 ==> next.selected[i] == Options(st, i)[position]
  {
    var options := Options(st, i);
    var item := if position > 0 then options[position] else "";
    assert position > 0 ==> item in options[1..];
    SlotState(st.allItems, st.selected[i := item])
  }

  /** Clicking keeps the card consistent: an item never ends up in two
      slots, and a slot only ever holds one of the package's items. */
  lemma ClickKeepsConsistent(st: SlotState, i: nat, position: nat)
    requires Consistent(st) && i < SlotCount && position < |Options(st, i)|
    ensures Consistent(Click(st, i, position))
  {
    var next := Click(st, i, position);
    forall a, b | 0 <= a < b < SlotCount && next.selected[a] != ""
      ensures next.selected[a] != next.selected[b]
    {
      if a == i {
        assert next.selected[b] == st.selected[b];
      } else if b == i {
        assert next.selected[a] == st.selected[a];
      }
    }
  }

  /** `getCurrentSelectedItems`: the non-empty slot texts in slot order. */
  function CurrentSelectedItems(st: SlotState): (r: seq<string>)
    ensures |r| <= |st.selected|
    ensures forall k :: 0 <= k < |r| ==> r[k] != ""
    ensures forall x :: x in r <==> x in st.selected && x != ""
  {
    Filter(st.selected, (s: string) => s != "")
  }

  /** A freshly bound card hands on no selection. */
  lemma FreshCardSelectsNothing(pkg: PackageProduct)
    ensures CurrentSelectedItems(Bind(pkg)) == []
  {
    var st := Bind(pkg);
    FilterNone(st.selected, (s: string) => s != "");
  }

  /** The selection a consistent card hands on names each item once and
      takes them from the package, at most one per slot. */
  lemma SelectionIsFromPackage(st: SlotState)
    requires Consistent(st)
    ensures |CurrentSelectedItems(st)| <= SlotCount
    ensures forall k :: 0 <= k < |CurrentSelectedItems(st)| ==> CurrentSelectedItems(st)[k] in st.allItems
    ensures forall a, b :: 0 <= a < b < |CurrentSelectedItems(st)| ==>
      CurrentSelectedItems(st)[a] != CurrentSelectedItems(st)[b]
  {
    var r := CurrentSelectedItems(st);
    forall k | 0 <= k < |r|
      ensures r[k] in st.allItems
    {
      assert r[k] in r;
    }
    FilterKeepsDistinct(st.selected, (s: string) => s != "");
  }

  /** Filtering a list whose kept elements occur once keeps them once. */
  lemma {:induction false} FilterKeepsDistinct(xs: seq<string>, keep: string -> bool)
    requires forall a, b :: 0 <= a < b < |xs| && keep(xs[a]) ==> xs[a] != xs[b]
    ensures forall a, b :: 0 <= a < b < |Filter(xs, keep)| ==> Filter(xs, keep)[a] != Filter(xs, keep)[b]
    decreases |xs|
  {
    if |xs| > 0 {
      var rest := xs[1..];
      forall a, b | 0 <= a < b < |rest| && keep(rest[a])
        ensures rest[a] != rest[b]
      {
        assert rest[a] == xs[a + 1] && rest[b] == xs[b + 1];
      }
      FilterKeepsDistinct(rest, keep);
      if keep(xs[0]) {
        var r := Filter(xs, keep);
        var tail := Filter(rest, keep);
        assert r == [xs[0]] + tail;
        assert xs[0] !in rest by {
          forall k | 0 <= k < |rest|
            ensures rest[k] != xs[0]
          {
            assert rest[k] == xs[k + 1];
          }
        }
        assert xs[0] !in tail;
        forall a, b | 0 <= a < b < |r|
          ensures r[a] != r[b]
        {
          if a == 0 {
            assert r[b] == tail[b - 1];
            assert r[b] in tail;
          } else {
            assert r[a] == tail[a - 1] && r[b] == tail[b - 1];
          }
        }
      }
    }
  }

  /** The diff callback's identity: the same package id. */
  predicate SamePackage(a: PackageProduct, b: PackageProduct) {
    a.id == b.id
  }

  /** Equal contents (data-class equality) imply the same identity, as the
      list differ requires. */
  lemma SameContentsIsSamePackage(a: PackageProduct, b: PackageProduct)
    requires a == b
    ensures SamePackage(a, b)
  {
  }
}

=== FILE: product_repository.dfy ===
/** How the repository turns what a transport client returned into the
    emitted `ApiResponse` values. The REST and GraphQL clients themselves are
    outside the model: each call is an oracle outcome (`Call`). */
module ProductRepository {
  import opened Common
  import opened Catalogue

  /** A Retrofit `Response`: the HTTP status code and the decoded body, which
      is null when the server sent none. */
  datatype RestReply<+B> = RestReply(code: int, body: Option<B>)

  /** Retrofit's `isSuccessful`: a 2xx status code. */
  predicate IsSuccessful(code: int) { 200 <= code < 300 }

  /** An Apollo response: the optional list of error messages and the
      optional data object. */
  datatype GraphQLReply<+D> = GraphQLReply(errors: Option<seq<string>>, data: Option<D>)

  /** Apollo's `hasErrors()`: a non-empty error list. */
  predicate HasErrors<D>(r: GraphQLReply<D>) {
    r.errors.Some? && |r.errors.value| > 0
  }

  /** A product as the GraphQL schema delivers it: the id is a string. */
  datatype GqlProduct = GqlProduct(
    id: string,
    productName: string,
    description: string,
    price: real,
    imageData: Option<string>)

  /** A package as the GraphQL schema delivers it: string id, nullable items. */
  datatype GqlPackage = GqlPackage(
    id: string,
    packageName: string,
    items: Option<seq<string>>,
    price: real,
    image: Option<string>)

  /** The `productImage`/`packageImage` object of an image query. */
  datatype GqlImage = GqlImage(imageData: Option<string>)

  const UnknownError: string := "Unknown error occurred"
  const EmptyBody: string := "Empty response body"
  const EmptyImage: string := "Empty image data"
  const ImageNotFound: string := "Image not found"

  /** The terminal value for an exception caught by the repository. */
  function Caught<T>(message: Option<string>): ApiResponse<T> {
    Error(message.GetOr(UnknownError))
  }

  /** The message of the NumberFormatException thrown by `toInt()`. */
  function NumberFormatMessage(s: string): string {
    "For input string: \"" + s + "\""
  }

  /** The exactly-one-terminal contract every repository operation keeps:
      `Loading`, then one `Success` or `Error`. */
  predicate LoadingThenTerminal<T>(emitted: seq<ApiResponse<T>>) {
    |emitted| == 2 && emitted[0].Loading? && !emitted[1].Loading?
  }

  /** The value a collector that keeps the last emission ends up holding
      (`null` when nothing was emitted). */
  function LastEmitted<T>(emitted: seq<ApiResponse<T>>): (r: Option<ApiResponse<T>>)
    ensures r.None? <==> |emitted| == 0
  {
    if |emitted| == 0 then None else Some(emitted[|emitted| - 1])
  }

  /** Emit `Loading`, then the one terminal value. */
  function Emit<T>(terminal: ApiResponse<T>): (emitted: seq<ApiResponse<T>>)
    requires !terminal.Loading?
    ensures LoadingThenTerminal(emitted)
    ensures LastEmitted(emitted) == Some(terminal)
  {
    [Loading, terminal]
  }

  /** The REST branch shared by the list operations. */
  function RestList<T>(reply: RestReply<T>): (terminal: ApiResponse<T>)
    ensures !terminal.Loading?
  {
    if !IsSuccessful(reply.code) then Error("Error: " + IntToString(reply.code))
    else if reply.body.None? then Error(EmptyBody)
    else Success(reply.body.value)
  }

  /** `GraphQL id.toInt()` followed by the field-for-field copy. */
  function ProductOf(g: GqlProduct, id: int): Product {
    Product(id, g.productName, g.description, g.price, g.imageData)
  }

  function PackageOf(g: GqlPackage, id: int): PackageProduct {
    PackageProduct(id, g.packageName, g.items.GetOr([]), g.price, g.image)
  }

  /** A `map` whose conversion may throw: the first element that does not
      convert aborts the mapping with that element's message. */
  function MapConverted<G, P>(gs: seq<G>, convert: G -> Option<P>, message: G -> string): (r: Call<seq<P>>)
    ensures r.Returned? <==> forall i :: 0 <= i < |gs| ==> convert(gs[i]).Some?
    ensures r.Returned? ==> |r.value| == |gs| && forall i :: 0 <= i < |gs| ==> r.value[i] == convert(gs[i]).value
    ensures r.Threw? ==> exists i :: 0 <= i < |gs| && convert(gs[i]).None? && r.message == Some(message(gs[i]))
  {
    if |gs| == 0 then Returned([])
    else
      match convert(gs[0])
      case None => Threw(Some(message(gs[0])))
      case Some(p) =>
        match MapConverted(gs[1..], convert, message)
        case Threw(m) => Threw(m)
        case Returned(rest) => Returned([p] + rest)
  }

  function ConvertProduct(g: GqlProduct): Option<Product> {
    match ParseInt32(g.id)
    case None => None
    case Some(id) => Some(ProductOf(g, id))
  }

  function ConvertPackage(g: GqlPackage): Option<PackageProduct> {
    match ParseInt32(g.id)
    case None => None
    case Some(id) => Some(PackageOf(g, id))
  }

  /** `map { ... id.toInt() ... }`: the first id that is not a 32-bit decimal
      integer aborts the mapping with its NumberFormatException message. */
  function MapProducts(gs: seq<GqlProduct>): (r: Call<seq<Product>>)
    ensures r.Returned? <==> forall i :: 0 <= i < |gs| ==> ParseInt32(gs[i].id).Some?
    ensures r.Returned? ==> |r.value| == |gs| && forall i :: 0 <= i < |gs| ==>
      r.value[i] == ProductOf(gs[i], ParseInt32(gs[i].id).value)
    ensures r.Threw? ==>
      exists i :: 0 <= i < |gs| && ParseInt32(gs[i].id).None? && r.message == Some(NumberFormatMessage(gs[i].id))
  {
    MapConverted(gs, ConvertProduct, (g: GqlProduct) => NumberFormatMessage(g.id))
  }

  function MapPackages(gs: seq<GqlPackage>): (r: Call<seq<PackageProduct>>)
    ensures r.Returned? <==> forall i :: 0 <= i < |gs| ==> ParseInt32(gs[i].id).Some?
    ensures r.Returned? ==> |r.value| == |gs| && forall i :: 0 <= i < |gs| ==>
      r.value[i] == PackageOf(gs[i], ParseInt32(gs[i].id).value)
    ensures r.Threw? ==>
      exists i :: 0 <= i < |gs| && ParseInt32(gs[i].id).None? && r.message == Some(NumberFormatMessage(gs[i].id))
  {
    MapConverted(gs, ConvertPackage, (g: GqlPackage) => NumberFormatMessage(g.id))
  }

  /** `getProducts`: REST status and body checks, or the GraphQL error list,
      null-data default and id conversion; any exception becomes `Error`. */
  function GetProducts(
    api: ApiType,
    rest: Call<RestReply<seq<Product>>>,
    gql: Call<GraphQLReply<Option<seq<GqlProduct>>>>): (emitted: seq<ApiResponse<seq<Product>>>)
    ensures LoadingThenTerminal(emitted)
    ensures api.Retrofit? && rest.Threw? ==> emitted[1] == Error(rest.message.GetOr(UnknownError))
    ensures api.Retrofit? && rest.Returned? && !IsSuccessful(rest.value.code) ==>
      emitted[1] == Error("Error: " + IntToString(rest.value.code))
    ensures api.Retrofit? && rest.Returned? && IsSuccessful(rest.value.code) ==>
      emitted[1] == (if rest.value.body.None? then Error(EmptyBody) else Success(rest.value.body.value))
    ensures api.GraphQL? && gql.Threw? ==> emitted[1] == Error(gql.message.GetOr(UnknownError))
    ensures api.GraphQL? && gql.Returned? && HasErrors(gql.value) ==>
      emitted[1] == Error(gql.value.errors.value[0])
    ensures (api.GraphQL? && gql.Returned? && !HasErrors(gql.value) &&
             (gql.value.data.None? || gql.value.data.value.None?)) ==> emitted[1] == Success([])
    ensures (api.GraphQL? && gql.Returned? && !HasErrors(gql.value) &&
             gql.value.data.Some? && gql.value.data.value.Some?) ==>
        var gs := gql.value.data.value.value;
        emitted[1].Success? <==> forall i :: 0 <= i < |gs| ==> ParseInt32(gs[i].id).Some?
  {
    match api
    case Retrofit =>
      (match rest
       case Threw(m) => Emit(Caught(m))
       case Returned(reply) => Emit(RestList(reply)))
    case GraphQL =>
      (match gql
       case Threw(m) => Emit(Caught(m))
       case Returned(reply) =>
         if HasErrors(reply) then Emit(Error(reply.errors.value[0]))
         else if reply.data.None? || reply.data.value.None? then Emit(Success([]))
         else
           match MapProducts(reply.data.value.value)
           case Threw(m) => Emit(Caught(m))
           case Returned(ps) => Emit(Success(ps)))
  }

  /** `getPackages`: as `getProducts`, with a null `items` list becoming empty. */
  function GetPackages(
    api: ApiType,
    rest: Call<RestReply<seq<PackageProduct>>>,
    gql: Call<GraphQLReply<Option<seq<GqlPackage>>>>): (emitted: seq<ApiResponse<seq<PackageProduct>>>)
    ensures LoadingThenTerminal(emitted)
    ensures api.Retrofit? && rest.Threw? ==> emitted[1] == Error(rest.message.GetOr(UnknownError))
    ensures api.Retrofit? && rest.Returned? && !IsSuccessful(rest.value.code) ==>
      emitted[1] == Error("Error: " + IntToString(rest.value.code))
    ensures api.Retrofit? && rest.Returned? && IsSuccessful(rest.value.code) ==>
      emitted[1] == (if rest.value.body.None? then Error(EmptyBody) else Success(rest.value.body.value))
    ensures api.GraphQL? && gql.Threw? ==> emitted[1] == Error(gql.message.GetOr(UnknownError))
    ensures api.GraphQL? && gql.Returned? && HasErrors(gql.value) ==>
      emitted[1] == Error(gql.value.errors.value[0])
    ensures (api.GraphQL? && gql.Returned? && !HasErrors(gql.value) &&
             (gql.value.data.None? || gql.value.data.value.None?)) ==> emitted[1] == Success([])
    ensures (api.GraphQL? && gql.Returned? && !HasErrors(gql.value) &&
             gql.value.data.Some? && gql.value.data.value.Some?) ==>
        var gs := gql.value.data.value.value;
        emitted[1].Success? <==> forall i :: 0 <= i < |gs| ==> ParseInt32(gs[i].id).Some?
  {
    match api
    case Retrofit =>
      (match rest
       case Threw(m) => Emit(Caught(m))
       case Returned(reply) => Emit(RestList(reply)))
    case GraphQL =>
      (match gql
       case Threw(m) => Emit(Caught(m))
       case Returned(reply) =>
         if HasErrors(reply) then Emit(Error(reply.errors.value[0]))
         else if reply.data.None? || reply.data.value.None? then Emit(Success([]))
         else
           match MapPackages(reply.data.value.value)
           case Threw(m) => Emit(Caught(m))
           case Returned(ps) => Emit(Success(ps)))
  }

  /** `getProductImage` and `getPackageImage`, which differ only in the
      endpoint: REST as the lists but with "Empty image data"; a
      GraphQL reply without an image is an error, not an empty success. */
  function GetImage(
    api: ApiType,
    rest: Call<RestReply<string>>,
    gql: Call<GraphQLReply<Option<GqlImage>>>): (emitted: seq<ApiResponse<string>>)
    ensures LoadingThenTerminal(emitted)
    ensures api.Retrofit? && rest.Threw? ==> emitted[1] == Error(rest.message.GetOr(UnknownError))
    ensures api.Retrofit? && rest.Returned? && !IsSuccessful(rest.value.code) ==>
      emitted[1] == Error("Error: " + IntToString(rest.value.code))
    ensures api.Retrofit? && rest.Returned? && IsSuccessful(rest.value.code) ==>
      emitted[1] == (if rest.value.body.None? then Error(EmptyImage) else Success(rest.value.body.value))
    ensures api.GraphQL? && gql.Threw? ==> emitted[1] == Error(gql.message.GetOr(UnknownError))
    ensures api.GraphQL? && gql.Returned? && HasErrors(gql.value) ==>
      emitted[1] == Error(gql.value.errors.value[0])
    ensures api.GraphQL? && gql.Returned? && !HasErrors(gql.value) ==>
      var reply := gql.value;
      if reply.data.Some? && reply.data.value.Some? && reply.data.value.value.imageData.Some?
      then emitted[1] == Success(reply.data.value.value.imageData.value)
      else emitted[1] == Error(ImageNotFound)
  {
    match api
    case Retrofit =>
      (match rest
       case Threw(m) => Emit(Caught(m))
       case Returned(reply) =>
         if !IsSuccessful(reply.code) then Emit(Error("Error: " + IntToString(reply.code)))
         else if reply.body.None? then Emit(Error(EmptyImage))
         else Emit(Success(reply.body.value)))
    case GraphQL =>
      (match gql
       case Threw(m) => Emit(Caught(m))
       case Returned(reply) =>
         if HasErrors(reply) then Emit(Error(reply.errors.value[0]))
         else if reply.data.Some? && reply.data.value.Some? && reply.data.value.value.imageData.Some?
         then Emit(Success(reply.data.value.value.imageData.value))
         else Emit(Error(ImageNotFound)))
  }

  /** What the GraphQL resolver sends for a product row: the id as a string. */
  function ServedProduct(p: Product): GqlProduct {
    GqlProduct(IntToString(p.id), p.productName, p.description, p.price, p.imageData)
  }

  /** Both transports deliver the same products: a list the GraphQL resolver
      serves is mapped back to exactly the list REST returns, whenever the
      ids fit Kotlin's 32-bit `Int`. */
  lemma GraphQLMatchesRest(ps: seq<Product>, rest: Call<RestReply<seq<Product>>>)
    requires forall i :: 0 <= i < |ps| ==> IntMin <= ps[i].id <= IntMax
    ensures
      var served := seq(|ps|, i requires 0 <= i < |ps| => ServedProduct(ps[i]));
      GetProducts(GraphQL, rest, Returned(GraphQLReply(None, Some(Some(served))))) ==
      GetProducts(Retrofit, Returned(RestReply(200, Some(ps))), Threw(None))
  {
    var served := seq(|ps|, i requires 0 <= i < |ps| => ServedProduct(ps[i]));
    forall i | 0 <= i < |ps|
      ensures ParseInt32(served[i].id) == Some(ps[i].id)
    {
      ParseRendered(ps[i].id);
    }
    var mapped := MapProducts(served);
    assert mapped.Returned?;
    assert mapped.value == ps;
  }
}

=== FILE: quick_test.dfy ===
/** The screen's quick comparison: three discarded warm-up calls per API,
    four measured quick tests in the order RETROFIT, GRAPHQL, GRAPHQL,
    RETROFIT, and one averaged record per API; plus the truncation of long
    result text for display. */
module QuickTest {
  import opened Common
  import opened Catalogue
  import opened Statistics

  // ---------------------------------------------------------------------
  // Averaging two rounds

  /** Kotlin's `Long / 2`: the quotient truncated toward zero. */
  function TruncDiv2(x: int): (q: int)
    ensures x >= 0 ==> 0 <= x - 2 * q <= 1
    ensures x < 0 ==> -1 <= x - 2 * q <= 0
  {
    if x >= 0 then x / 2 else -((-x) / 2)
  }

  /** Truncation is symmetric about zero, unlike Euclidean division: -3
      halves to -1, not -2. */
  lemma TruncDiv2Odd(x: int)
    ensures TruncDiv2(-x) == -TruncDiv2(x)
    ensures TruncDiv2(-3) == -1 && (-3) / 2 == -2
  {
  }

  const QuickAverageType: string := "QUICK_TEST_AVERAGE"
  const RoundsFailed: string := "One or both rounds failed"

  /** The averaged record of one API's two rounds, stamped with `now`. */
  function Average(api: ApiType, a: TestResult, b: TestResult, now: int): (r: TestResult)
    ensures r.apiType == api && r.testType == QuickAverageType && r.testScenario == "INDIVIDUAL_PRODUCTS_ONLY"
    ensures r.dataSize == 50 && r.loadLevel == 100 && r.timestamp == now
    ensures r.networkTime == 0 && r.parsingTime == 0 && r.timeToFirstRender == 0
    ensures r.dataTransferSize == 0 && r.queryComplexity == 0
    // integer figures: half the sum, truncated toward zero
    ensures r.totalResponseTime == TruncDiv2(a.totalResponseTime + b.totalResponseTime)
    ensures r.memoryUsage == TruncDiv2(a.memoryUsage + b.memoryUsage)
    ensures r.peakMemoryUsage == TruncDiv2(a.peakMemoryUsage + b.peakMemoryUsage)
    // CPU figures: the exact mean
    ensures 2.0 * r.cpuUsage == a.cpuUsage + b.cpuUsage
    ensures 2.0 * r.peakCpuUsage == a.peakCpuUsage + b.peakCpuUsage
    // verdict: both rounds must succeed, and a message exactly when not
    ensures r.success <==> a.success && b.success
    ensures r.errorMessage == if r.success then None else Some(RoundsFailed)
  {
    var both := a.success && b.success;
    TestResult(api, QuickAverageType, "INDIVIDUAL_PRODUCTS_ONLY", 50, 100,
      0, 0, TruncDiv2(a.totalResponseTime + b.totalResponseTime), 0,
      TruncDiv2(a.memoryUsage + b.memoryUsage), TruncDiv2(a.peakMemoryUsage + b.peakMemoryUsage),
      (a.cpuUsage + b.cpuUsage) / 2.0, (a.peakCpuUsage + b.peakCpuUsage) / 2.0,
      now, both, if both then None else Some(RoundsFailed), 0, 0)
  }

  /** The order of the two rounds does not matter, and an average of
      non-negative times lies between the two rounds. */
  lemma AverageIsSymmetricAndBetween(api: ApiType, a: TestResult, b: TestResult, now: int)
    ensures Average(api, a, b, now) == Average(api, b, a, now)
    ensures 0 <= a.totalResponseTime <= b.totalResponseTime ==>
      a.totalResponseTime <= Average(api, a, b, now).totalResponseTime <= b.totalResponseTime
  {
  }

  // ---------------------------------------------------------------------
  // The protocol

  /** The measured runs, in order: round one RETROFIT then GRAPHQL, round
      two the other way round. */
  const QuickOrder: seq<ApiType> := [Retrofit, GraphQL, GraphQL, Retrofit]

  /** The warm-up calls: three per API, RETROFIT first. Their results and
      failures are discarded. */
  const WarmUps: seq<ApiType> := [Retrofit, Retrofit, Retrofit, GraphQL, GraphQL, GraphQL]

  /** Both averaged records. */
  datatype Averages = Averages(retrofit: TestResult, graphql: TestResult)

  /** The APIs called, in call order, and the averages unless a measured run
      threw. */
  datatype Comparison = Comparison(calls: seq<ApiType>, averages: Option<Averages>)

  /** What the four measured runs return or throw, in run order. */
  datatype Runs<+R> = Runs(retrofit1: R, graphql1: R, graphql2: R, retrofit2: R) {
    function At(i: nat): R
      requires i < 4
    {
      if i == 0 then retrofit1 else if i == 1 then graphql1 else if i == 2 then graphql2 else retrofit2
    }
  }

  /** The position of the first measured run that threw, or 4. */
  function FirstThrow(runs: Runs<Call<TestResult>>): (k: nat)
    ensures k <= 4
    ensures forall i :: 0 <= i < k ==> runs.At(i).Returned?
    ensures k < 4 ==> runs.At(k).Threw?
  {
    if runs.retrofit1.Threw? then 0
    else if runs.graphql1.Threw? then 1
    else if runs.graphql2.Threw? then 2
    else if runs.retrofit2.Threw? then 3
    else 4
  }

  /** `runQuickTest` of the screen, over what each measured run (the
      manager's `Trials.RunQuickTest` of that run's API) returns or throws,
      with `nowRetrofit` and `nowGraphQL` the two clock readings that stamp
      the averaged records, read one after the other. A throw ends the
      protocol: the later runs are not made and no averages are shown. */
  function RunQuickComparison(runs: Runs<Call<TestResult>>, nowRetrofit: int, nowGraphQL: int): (c: Comparison)
    ensures var k := FirstThrow(runs);
      c.calls == WarmUps + QuickOrder[..if k < 4 then k + 1 else 4]
    ensures c.averages.Some? <==> forall i :: 0 <= i < 4 ==> runs.At(i).Returned?
    ensures c.averages.Some? ==>
      c.averages.value.retrofit == Average(Retrofit, runs.retrofit1.value, runs.retrofit2.value, nowRetrofit) &&
      c.averages.value.graphql == Average(GraphQL, runs.graphql1.value, runs.graphql2.value, nowGraphQL)
    ensures c.averages.Some? ==>
      c.averages.value.retrofit.timestamp == nowRetrofit && c.averages.value.graphql.timestamp == nowGraphQL
  {
    var k := FirstThrow(runs);
    if k < 4 then
      Comparison(WarmUps + QuickOrder[..k + 1], None)
    else
      Comparison(WarmUps + QuickOrder,
        Some(Averages(Average(Retrofit, runs.retrofit1.value, runs.retrofit2.value, nowRetrofit),
                      Average(GraphQL, runs.graphql1.value, runs.graphql2.value, nowGraphQL))))
  }

  /** Both APIs are measured twice, each once in first position within a
      round, and every warm-up precedes every measured run. */
  lemma FairOrder()
    ensures QuickOrder[0] == Retrofit && QuickOrder[2] == GraphQL
    ensures multiset(QuickOrder)[Retrofit] == 2 && multiset(QuickOrder)[GraphQL] == 2
    ensures multiset(WarmUps)[Retrofit] == 3 && multiset(WarmUps)[GraphQL] == 3
  {
    QuickOrderCounts();
    WarmUpCounts();
  }

  lemma QuickOrderCounts()
    ensures multiset(QuickOrder)[Retrofit] == 2 && multiset(QuickOrder)[GraphQL] == 2
  {
    var first: seq<ApiType> := [Retrofit, GraphQL];
    var second: seq<ApiType> := [GraphQL, Retrofit];
    assert QuickOrder == first + second;
    assert multiset(QuickOrder) == multiset(first) + multiset(second);
  }

  lemma WarmUpCounts()
    ensures multiset(WarmUps)[Retrofit] == 3 && multiset(WarmUps)[GraphQL] == 3
  {
    var retrofit: seq<ApiType> := [Retrofit, Retrofit, Retrofit];
    var graphQL: seq<ApiType> := [GraphQL, GraphQL, GraphQL];
    ThreeOf(retrofit, Retrofit);
    ThreeOf(graphQL, GraphQL);
    assert WarmUps == retrofit + graphQL;
    assert multiset(WarmUps) == multiset(retrofit) + multiset(graphQL);
  }

  lemma ThreeOf(xs: seq<ApiType>, x: ApiType)
    requires xs == [x, x, x]
    ensures forall y :: multiset(xs)[y] == if y == x then 3 else 0
  {
    assert xs == [x] + [x] + [x];
  }

  // ---------------------------------------------------------------------
  // Long results

  /** The limits count UTF-16 code units, as Kotlin's `length`, `take` and
      `takeLast` do. */
  const DisplayLimit: nat := 100000
  const KeptUnits: nat := 50000
  const TruncationMarker: string := "\n\n... [RESULTS TRUNCATED - CHECK EXPORTED FILES FOR COMPLETE DATA] ...\n\n"

  /** The cut on the code units of the text: the first and the last 50000
      units around the marker's units. A cut may fall inside a surrogate
      pair, so the result is a unit sequence rather than a string. */
  function Cut(u: seq<int>, marker: seq<int>): (shown: seq<int>)
    ensures |u| <= DisplayLimit ==> shown == u
    ensures |u| > DisplayLimit ==> |shown| == DisplayLimit + |marker|
  {
    if |u| > DisplayLimit then u[..KeptUnits] + marker + u[|u| - KeptUnits..]
    else u
  }

  /** `shown` is the first 50000 units of `u`, the marker, and the last
      50000 units of `u`. */
  predicate KeepsEnds(u: seq<int>, marker: seq<int>, shown: seq<int>) {
    |u| >= KeptUnits && |shown| == 2 * KeptUnits + |marker| &&
    shown[..KeptUnits] == u[..KeptUnits] &&
    shown[KeptUnits..KeptUnits + |marker|] == marker &&
    shown[|shown| - KeptUnits..] == u[|u| - KeptUnits..]
  }

  /** A cut keeps both ends around the marker, and cutting again changes
      nothing. */
  lemma CutKeepsEnds(u: seq<int>, marker: seq<int>)
    requires |u| > DisplayLimit
    ensures KeepsEnds(u, marker, Cut(u, marker))
    ensures Cut(Cut(u, marker), marker) == Cut(u, marker)
  {
    var shown := Cut(u, marker);
    var head, tail := u[..KeptUnits], u[|u| - KeptUnits..];
    assert shown == head + marker + tail;
    assert shown[..KeptUnits] == head;
    assert shown[KeptUnits..KeptUnits + |marker|] == marker;
    assert shown[|shown| - KeptUnits..] == tail;
  }

  /** `handleLongResults`: the code units shown for a result text. */
  function HandleLongResults(text: string): (shown: seq<int>)
    ensures Utf16Length(text) <= DisplayLimit ==> DecodeUtf16(shown) == Some(text)
    ensures Utf16Length(text) > DisplayLimit ==> |shown| == DisplayLimit + Utf16Length(TruncationMarker)
  {
    CutOfText(text, TruncationMarker);
    Cut(Utf16(text), Utf16(TruncationMarker))
  }

  /** Cutting the units of a text around the units of a marker. */
  lemma CutOfText(text: string, marker: string)
    ensures Utf16Length(text) <= DisplayLimit ==> DecodeUtf16(Cut(Utf16(text), Utf16(marker))) == Some(text)
    ensures Utf16Length(text) > DisplayLimit ==>
      |Cut(Utf16(text), Utf16(marker))| == DisplayLimit + Utf16Length(marker)
  {
    Utf16LengthIsUnits(text);
    Utf16LengthIsUnits(marker);
    DecodeUtf16OfUtf16(text);
  }

  /** Truncated text keeps the first and the last 50000 code units with the
      marker between them, and cutting the shown units again changes
      nothing. */
  lemma TruncationKeepsEnds(text: string)
    requires Utf16Length(text) > DisplayLimit
    ensures KeepsEnds(Utf16(text), Utf16(TruncationMarker), HandleLongResults(text))
    ensures Cut(HandleLongResults(text), Utf16(TruncationMarker)) == HandleLongResults(text)
  {
    Utf16LengthIsUnits(text);
    CutKeepsEnds(Utf16(text), Utf16(TruncationMarker));
  }

  /** Text with an astral character, such as the summary's emoji, is longer
      in code units than in characters: text of exactly 100000 characters
      holding one is already cut. */
  lemma AstralTextIsCut(text: string, i: nat)
    requires |text| == DisplayLimit && i < |text| && IsAstral(text[i])
    ensures Utf16Length(text) > DisplayLimit
    ensures |HandleLongResults(text)| == DisplayLimit + Utf16Length(TruncationMarker)
  {
  }
}

=== FILE: reseller_grid.dfy ===
/** The backend's choice of map markers: when there are more resellers than
    the limit, the resellers are grouped into grid cells, up to an even
    share is drawn at random from every cell, and the rest of the limit is
    filled at random from those not yet drawn.

    Resellers are referred to by their position in the input, so "the same
    reseller" means the same object, as JavaScript's `includes` does. The
    grid cell of a reseller is an abstract key function (the latitude and
    longitude division is left out), and every random shuffle is an
    arbitrary permutation supplied by the caller. */
module ResellerGrid {

  // ---------------------------------------------------------------------
  // Positions and multiplicities

  /** No value occurs twice. */
  ghost predicate NoDuplicates<T(!new)>(xs: seq<T>) {
    forall x :: multiset(xs)[x] <= 1
  }

  /** The occurrences of x in xs, counted from the back. */
  function Count(xs: seq<nat>, x: nat): nat
    decreases |xs|
  {
    if |xs| == 0 then 0
    else Count(xs[..|xs| - 1], x) + if xs[|xs| - 1] == x then 1 else 0
  }

  lemma {:induction false} CountIsMultiplicity(xs: seq<nat>, x: nat)
    ensures Count(xs, x) == multiset(xs)[x]
    decreases |xs|
  {
    if |xs| > 0 {
      var prev := xs[..|xs| - 1];
      var last: seq<nat> := [xs[|xs| - 1]];
      CountIsMultiplicity(prev, x);
      assert xs == prev + last;
      assert multiset(xs) == multiset(prev) + multiset(last);
    }
  }

  /** Appending `v` adds one occurrence of `v` and of nothing else. */
  lemma CountAppended(prev: seq<nat>, v: nat, x: nat)
    ensures Count(prev + [v], x) == Count(prev, x) + if x == v then 1 else 0
  {
    assert (prev + [v])[..|prev|] == prev;
  }

  /** The positions 0, 1, ..., n - 1. */
  function Range(n: nat): (r: seq<nat>)
    ensures |r| == n
    ensures forall i :: 0 <= i < n ==> r[i] == i
  {
    seq(n, i => i)
  }

  lemma {:induction false} RangeCount(n: nat, x: nat)
    ensures multiset(Range(n))[x] == if x < n then 1 else 0
    decreases n
  {
    if n > 0 {
      assert Range(n) == Range(n - 1) + [n - 1];
      RangeCount(n - 1, x);
    }
  }

  lemma RangeHasNoDuplicates(n: nat)
    ensures NoDuplicates(Range(n))
  {
    forall x: nat | true
      ensures multiset(Range(n))[x] <= 1
    {
      RangeCount(n, x);
    }
  }

  /** `xs.slice(0, m)`: the first m elements, or all of them. */
  function Take<T>(xs: seq<T>, m: nat): (r: seq<T>)
    ensures |r| == if m < |xs| then m else |xs|
    ensures r == xs[..|r|]
  {
    if m < |xs| then xs[..m] else xs
  }

  lemma TakeCount<T>(xs: seq<T>, m: nat, x: T)
    ensures multiset(Take(xs, m))[x] <= multiset(xs)[x]
  {
    var r := Take(xs, m);
    assert xs == r + xs[|r|..];
    assert multiset(xs) == multiset(r) + multiset(xs[|r|..]);
  }

  lemma PrefixNoDuplicates<T(!new)>(xs: seq<T>, m: nat)
    requires NoDuplicates(xs) && m <= |xs|
    ensures NoDuplicates(xs[..m])
  {
    forall x
      ensures multiset(xs[..m])[x] <= 1
    {
      TakeCount(xs, m, x);
    }
  }

  /** A shuffler returns, for every call number and input, a reordering of
      that input. */
  ghost predicate IsShuffler(shuffle: (nat, seq<nat>) -> seq<nat>) {
    forall c: nat, xs: seq<nat> :: multiset(shuffle(c, xs)) == multiset(xs)
  }

  lemma ShuffleLength(shuffle: (nat, seq<nat>) -> seq<nat>, c: nat, xs: seq<nat>)
    requires IsShuffler(shuffle)
    ensures |shuffle(c, xs)| == |xs|
  {
    assert multiset(shuffle(c, xs)) == multiset(xs);
    assert |multiset(shuffle(c, xs))| == |shuffle(c, xs)|;
  }

  // ---------------------------------------------------------------------
  // The grid

  /** The occupied cells, each once, in the order of their first reseller
      (the key order of a JavaScript object whose keys are not numerals). */
  function CellKeys<R, K(==)>(rs: seq<R>, cell: R -> K): (keys: seq<K>)
    ensures forall i, j :: 0 <= i < j < |keys| ==> keys[i] != keys[j]
    ensures forall i :: 0 <= i < |rs| ==> cell(rs[i]) in keys
    ensures forall k :: k in keys ==> exists i :: 0 <= i < |rs| && cell(rs[i]) == k
    ensures |keys| <= |rs|
    decreases |rs|
  {
    if |rs| == 0 then []
    else
      var prefix := rs[..|rs| - 1];
      var before := CellKeys(prefix, cell);
      var k := cell(rs[|rs| - 1]);
      assert forall i :: 0 <= i < |prefix| ==> prefix[i] == rs[i];
      if k in before then before else before + [k]
  }

  /** The positions of one cell's resellers among the first n, in order. */
  function Members<R, K(==)>(rs: seq<R>, cell: R -> K, k: K, n: nat): (ps: seq<nat>)
    requires n <= |rs|
    decreases n
  {
    if n == 0 then []
    else Members(rs, cell, k, n - 1) + (if cell(rs[n - 1]) == k then [n - 1] else [])
  }

  lemma MembersCount<R, K>(rs: seq<R>, cell: R -> K, k: K, n: nat, x: nat)
    requires n <= |rs|
    ensures multiset(Members(rs, cell, k, n))[x] == if x < n && cell(rs[x]) == k then 1 else 0
  {
    MembersCounted(rs, cell, k, n, x);
    CountIsMultiplicity(Members(rs, cell, k, n), x);
  }

  lemma {:induction false} MembersCounted<R, K>(rs: seq<R>, cell: R -> K, k: K, n: nat, x: nat)
    requires n <= |rs|
    ensures Count(Members(rs, cell, k, n), x) == if x < n && cell(rs[x]) == k then 1 else 0
    decreases n
  {
    if n > 0 {
      MembersCounted(rs, cell, k, n - 1, x);
      MembersStep(rs, cell, k, n, x);
    }
  }

  lemma MembersStep<R, K>(rs: seq<R>, cell: R -> K, k: K, n: nat, x: nat)
    requires 0 < n <= |rs|
    ensures Count(Members(rs, cell, k, n), x) ==
      Count(Members(rs, cell, k, n - 1), x) + if x == n - 1 && cell(rs[n - 1]) == k then 1 else 0
  {
    var prev := Members(rs, cell, k, n - 1);
    if cell(rs[n - 1]) == k {
      var last: seq<nat> := [n - 1];
      assert Members(rs, cell, k, n) == prev + last;
      CountAppended(prev, n - 1, x);
    } else {
      assert Members(rs, cell, k, n) == prev;
    }
  }

  /** A non-empty cell: the cell of any of its resellers has a member. */
  lemma MembersOfOccupied<R, K>(rs: seq<R>, cell: R -> K, k: K)
    requires exists i :: 0 <= i < |rs| && cell(rs[i]) == k
    ensures |Members(rs, cell, k, |rs|)| > 0
  {
    var i :| 0 <= i < |rs| && cell(rs[i]) == k;
    MembersCount(rs, cell, k, |rs|, i);
  }

  /** `resellersPerCell`: an even share of the limit, but at least one. */
  function PerCell(limit: nat, cells: nat): (per: nat)
    requires cells > 0
    ensures per >= 1
    ensures cells <= limit ==> per * cells <= limit
  {
    if limit / cells > 1 then limit / cells else 1
  }

  /** The draw from every cell, cell by cell: the first `per` resellers (or
      all of them) of that cell after its shuffle. */
  function Picks<R, K(==)>(rs: seq<R>, cell: R -> K, keys: seq<K>, per: nat,
                          shuffle: (nat, seq<nat>) -> seq<nat>): (ps: seq<nat>)
    ensures |ps| <= per * |keys|
    decreases |keys|
  {
    if |keys| == 0 then []
    else
      var c := |keys| - 1;
      var before := Picks(rs, cell, keys[..c], per, shuffle);
      assert per * |keys| == per * c + per;
      before + Take(shuffle(c, Members(rs, cell, keys[c], |rs|)), per)
  }

  /** A reseller is drawn at most once, and only from a cell it belongs to. */
  lemma {:induction false} PicksCount<R, K>(rs: seq<R>, cell: R -> K, keys: seq<K>, per: nat,
                                                shuffle: (nat, seq<nat>) -> seq<nat>, x: nat)
    requires IsShuffler(shuffle)
    requires forall i, j :: 0 <= i < j < |keys| ==> keys[i] != keys[j]
    ensures multiset(Picks(rs, cell, keys, per, shuffle))[x] <= if x < |rs| && cell(rs[x]) in keys then 1 else 0
    decreases |keys|
  {
    if |keys| > 0 {
      var c := |keys| - 1;
      var members := Members(rs, cell, keys[c], |rs|);
      var drawn := Take(shuffle(c, members), per);
      PicksCount(rs, cell, keys[..c], per, shuffle, x);
      TakeCount(shuffle(c, members), per, x);
      MembersCount(rs, cell, keys[c], |rs|, x);
      assert multiset(shuffle(c, members)) == multiset(members);
      assert x < |rs| && cell(rs[x]) == keys[c] ==> cell(rs[x]) !in keys[..c];
      assert multiset(Picks(rs, cell, keys, per, shuffle)) ==
        multiset(Picks(rs, cell, keys[..c], per, shuffle)) + multiset(drawn);
    }
  }

  /** With a share of at least one, every cell has a reseller drawn. */
  lemma {:induction false} PicksCoverCells<R, K>(rs: seq<R>, cell: R -> K, keys: seq<K>, per: nat,
                                                shuffle: (nat, seq<nat>) -> seq<nat>)
    requires IsShuffler(shuffle) && per >= 1
    requires forall k :: k in keys ==> exists i :: 0 <= i < |rs| && cell(rs[i]) == k
    ensures forall k :: k in keys ==>
      exists p :: p in Picks(rs, cell, keys, per, shuffle) && p < |rs| && cell(rs[p]) == k
    decreases |keys|
  {
    if |keys| > 0 {
      var c := |keys| - 1;
      var before := Picks(rs, cell, keys[..c], per, shuffle);
      var ps := Picks(rs, cell, keys, per, shuffle);
      assert keys == keys[..c] + [keys[c]];
      assert forall k :: k in keys[..c] ==> k in keys;
      PicksCoverCells(rs, cell, keys[..c], per, shuffle);
      assert keys[c] in keys;
      var first := LastCellDrawn(rs, cell, keys, per, shuffle);
      assert forall p :: p in before ==> p in ps;
      forall k | k in keys
        ensures exists p :: p in ps && p < |rs| && cell(rs[p]) == k
      {
        if k in keys[..c] {
          var p :| p in before && p < |rs| && cell(rs[p]) == k;
        } else {
          assert k == keys[c];
        }
      }
    }
  }

  /** The last cell's draw holds one of its resellers. */
  lemma LastCellDrawn<R, K>(rs: seq<R>, cell: R -> K, keys: seq<K>, per: nat,
                            shuffle: (nat, seq<nat>) -> seq<nat>) returns (first: nat)
    requires IsShuffler(shuffle) && per >= 1 && |keys| > 0
    requires exists i :: 0 <= i < |rs| && cell(rs[i]) == keys[|keys| - 1]
    ensures first in Picks(rs, cell, keys, per, shuffle)
    ensures first < |rs| && cell(rs[first]) == keys[|keys| - 1]
  {
    var c := |keys| - 1;
    var members := Members(rs, cell, keys[c], |rs|);
    MembersOfOccupied(rs, cell, keys[c]);
    ShuffleLength(shuffle, c, members);
    assert multiset(shuffle(c, members)) == multiset(members);
    first := shuffle(c, members)[0];
    assert first in multiset(shuffle(c, members));
    assert first in multiset(members);
    MembersCount(rs, cell, keys[c], |rs|, first);
    assert first in Take(shuffle(c, members), per);
  }

  /** The draw holds no reseller twice, and only real ones. */
  lemma DrawIsSound<R, K>(rs: seq<R>, cell: R -> K, keys: seq<K>, per: nat,
                              shuffle: (nat, seq<nat>) -> seq<nat>)
    requires IsShuffler(shuffle)
    requires forall i, j :: 0 <= i < j < |keys| ==> keys[i] != keys[j]
    ensures var drawn := Picks(rs, cell, keys, per, shuffle);
      NoDuplicates(drawn) && forall q :: 0 <= q < |drawn| ==> drawn[q] < |rs|
  {
    var drawn := Picks(rs, cell, keys, per, shuffle);
    forall x: nat | true
      ensures multiset(drawn)[x] <= 1
    {
      PicksCount(rs, cell, keys, per, shuffle, x);
    }
    forall q | 0 <= q < |drawn|
      ensures drawn[q] < |rs|
    {
      PicksCount(rs, cell, keys, per, shuffle, drawn[q]);
    }
  }

  // ---------------------------------------------------------------------
  // The fill

  /** The positions below n that are not in `drawn`, in order. */
  function Unselected(drawn: seq<nat>, n: nat): (ps: seq<nat>)
    decreases n
  {
    if n == 0 then []
    else Unselected(drawn, n - 1) + (if n - 1 in drawn then [] else [n - 1])
  }

  lemma UnselectedCount(drawn: seq<nat>, n: nat, x: nat)
    ensures multiset(Unselected(drawn, n))[x] == if x < n && x !in drawn then 1 else 0
  {
    UnselectedCounted(drawn, n, x);
    CountIsMultiplicity(Unselected(drawn, n), x);
  }

  lemma {:induction false} UnselectedCounted(drawn: seq<nat>, n: nat, x: nat)
    ensures Count(Unselected(drawn, n), x) == if x < n && x !in drawn then 1 else 0
    decreases n
  {
    if n > 0 {
      UnselectedCounted(drawn, n - 1, x);
      UnselectedStep(drawn, n, x);
    }
  }

  lemma UnselectedStep(drawn: seq<nat>, n: nat, x: nat)
    requires n > 0
    ensures Count(Unselected(drawn, n), x) ==
      Count(Unselected(drawn, n - 1), x) + if x == n - 1 && n - 1 !in drawn then 1 else 0
  {
    var prev := Unselected(drawn, n - 1);
    if n - 1 in drawn {
      assert Unselected(drawn, n) == prev;
    } else {
      var last: seq<nat> := [n - 1];
      assert Unselected(drawn, n) == prev + last;
      CountAppended(prev, n - 1, x);
    }
  }

  /** The positions not drawn are the ones the draw leaves out of n. */
  lemma UnselectedSize(drawn: seq<nat>, n: nat)
    requires NoDuplicates(drawn)
    requires forall j :: 0 <= j < |drawn| ==> drawn[j] < n
    ensures |Unselected(drawn, n)| + |drawn| == n
  {
    var rest: seq<nat> := Unselected(drawn, n);
    forall x: nat | true
      ensures multiset(rest)[x] + multiset(drawn)[x] == multiset(Range(n))[x]
    {
      UnselectedCount(drawn, n, x);
      RangeCount(n, x);
      assert multiset(drawn)[x] <= 1;
    }
    assert multiset(rest) + multiset(drawn) == multiset(Range(n));
    assert |multiset(rest + drawn)| == |rest + drawn|;
    assert multiset(rest + drawn) == multiset(rest) + multiset(drawn);
  }

  // ---------------------------------------------------------------------
  // The selection

  /** `distributeResellersEvenly` on positions: all of them when they fit
      the limit; otherwise the cell draw, topped up from the rest when it
      falls short, cut to the limit. The cells' shuffles are calls 0 to
      k - 1 of `shuffle` and the top-up's is call k, for k occupied cells. */
  function Distribute<R, K(==)>(rs: seq<R>, limit: nat, cell: R -> K,
                               shuffle: (nat, seq<nat>) -> seq<nat>): (out: seq<nat>)
    requires IsShuffler(shuffle)
    ensures |rs| <= limit ==> out == Range(|rs|)
    ensures |rs| > limit ==> |out| == limit
    ensures forall j :: 0 <= j < |out| ==> out[j] < |rs|
    ensures NoDuplicates(out)
  {
    if |rs| <= limit then
      RangeHasNoDuplicates(|rs|);
      Range(|rs|)
    else
      var all := Selection(rs, limit, cell, shuffle);
      PrefixNoDuplicates(all, limit);
      all[..limit]
  }

  /** The cell draw: an even share of the limit from every occupied cell. */
  function Draw<R, K(==)>(rs: seq<R>, limit: nat, cell: R -> K,
                         shuffle: (nat, seq<nat>) -> seq<nat>): seq<nat>
    requires |rs| > 0
  {
    var keys := CellKeys(rs, cell);
    assert cell(rs[0]) in keys;
    Picks(rs, cell, keys, PerCell(limit, |keys|), shuffle)
  }

  /** The draw topped up to at least the limit, before the cut. */
  function Selection<R, K(==)>(rs: seq<R>, limit: nat, cell: R -> K,
                              shuffle: (nat, seq<nat>) -> seq<nat>): (all: seq<nat>)
    requires IsShuffler(shuffle) && |rs| > limit
    ensures limit <= |all| && NoDuplicates(all)
    ensures forall j :: 0 <= j < |all| ==> all[j] < |rs|
    ensures var drawn := Draw(rs, limit, cell, shuffle);
      |drawn| <= |all| && all[..|drawn|] == drawn
  {
    var keys := CellKeys(rs, cell);
    assert cell(rs[0]) in keys;
    DrawIsSound(rs, cell, keys, PerCell(limit, |keys|), shuffle);
    Fill(rs, cell, limit, Draw(rs, limit, cell, shuffle), shuffle, |keys|)
  }

  /** The draw followed, if it is short of the limit, by that many of the
      shuffled undrawn positions. */
  function Fill<R, K(==)>(rs: seq<R>, cell: R -> K, limit: nat, drawn: seq<nat>,
                         shuffle: (nat, seq<nat>) -> seq<nat>, call: nat): (all: seq<nat>)
    requires IsShuffler(shuffle) && |rs| > limit
    requires NoDuplicates(drawn) && forall j :: 0 <= j < |drawn| ==> drawn[j] < |rs|
    ensures |drawn| <= |all| && limit <= |all| && all[..|drawn|] == drawn
    ensures forall j :: 0 <= j < |all| ==> all[j] < |rs|
    ensures NoDuplicates(all)
  {
    if |drawn| < limit then
      var rest := Unselected(drawn, |rs|);
      var extra := Take(shuffle(call, rest), limit - |drawn|);
      UnselectedSize(drawn, |rs|);
      ShuffleLength(shuffle, call, rest);
      FillIsNew(drawn, rest, extra, shuffle, call, limit - |drawn|, |rs|);
      drawn + extra
    else
      drawn
  }

  lemma FillIsNew(drawn: seq<nat>, rest: seq<nat>, extra: seq<nat>,
                  shuffle: (nat, seq<nat>) -> seq<nat>, call: nat, m: nat, n: nat)
    requires IsShuffler(shuffle) && NoDuplicates(drawn)
    requires forall j :: 0 <= j < |drawn| ==> drawn[j] < n
    requires rest == Unselected(drawn, n) && extra == Take(shuffle(call, rest), m)
    ensures forall j :: 0 <= j < |extra| ==> extra[j] < n
    ensures NoDuplicates(drawn + extra)
  {
    assert multiset(shuffle(call, rest)) == multiset(rest);
    forall x: nat | true
      ensures multiset(drawn + extra)[x] <= 1 && (x in extra ==> x < n)
    {
      UnselectedCount(drawn, n, x);
      TakeCount(shuffle(call, rest), m, x);
      assert multiset(drawn + extra) == multiset(drawn) + multiset(extra);
      assert multiset(drawn)[x] <= 1;
    }
    forall j | 0 <= j < |extra|
      ensures extra[j] < n
    {
      assert extra[j] in extra;
    }
  }

  /** The markers served: the resellers at the selected positions. */
  function DistributeResellersEvenly<R, K(==)>(rs: seq<R>, limit: nat, cell: R -> K,
                                              shuffle: (nat, seq<nat>) -> seq<nat>): (markers: seq<R>)
    requires IsShuffler(shuffle)
    ensures |rs| <= limit ==> markers == rs
    ensures |rs| > limit ==> |markers| == limit
    ensures forall j :: 0 <= j < |markers| ==> markers[j] in rs
  {
    var out := Distribute(rs, limit, cell, shuffle);
    seq(|out|, j requires 0 <= j < |out| => rs[out[j]])
  }

  /** The draw never exceeds the limit when the cells are no more than the
      limit, so every occupied cell keeps at least one marker. */
  lemma EveryCellIsShown<R, K>(rs: seq<R>, limit: nat, cell: R -> K,
                                   shuffle: (nat, seq<nat>) -> seq<nat>, k: K)
    requires IsShuffler(shuffle)
    requires |CellKeys(rs, cell)| <= limit
    requires exists i :: 0 <= i < |rs| && cell(rs[i]) == k
    ensures var out := Distribute(rs, limit, cell, shuffle);
      exists j :: 0 <= j < |out| && cell(rs[out[j]]) == k
  {
    var out := Distribute(rs, limit, cell, shuffle);
    var i :| 0 <= i < |rs| && cell(rs[i]) == k;
    if |rs| <= limit {
      assert out[i] == i;
    } else {
      var j := ShownWhenCut(rs, limit, cell, shuffle, k);
    }
  }

  lemma ShownWhenCut<R, K>(rs: seq<R>, limit: nat, cell: R -> K,
                           shuffle: (nat, seq<nat>) -> seq<nat>, k: K) returns (j: nat)
    requires IsShuffler(shuffle) && |rs| > limit
    requires |CellKeys(rs, cell)| <= limit
    requires k in CellKeys(rs, cell)
    ensures var out := Distribute(rs, limit, cell, shuffle);
      j < |out| && cell(rs[out[j]]) == k
  {
    var q := DrawnFromCell(rs, limit, cell, shuffle, k);
    var drawn := Draw(rs, limit, cell, shuffle);
    DrawIsKept(rs, limit, cell, shuffle);
    var out := Distribute(rs, limit, cell, shuffle);
    assert out[q] == out[..|drawn|][q];
    j := q;
  }

  /** Every occupied cell has a reseller in the draw. */
  lemma DrawnFromCell<R, K>(rs: seq<R>, limit: nat, cell: R -> K,
                            shuffle: (nat, seq<nat>) -> seq<nat>, k: K) returns (q: nat)
    requires IsShuffler(shuffle) && |rs| > limit
    requires k in CellKeys(rs, cell)
    ensures var drawn := Draw(rs, limit, cell, shuffle);
      q < |drawn| && drawn[q] < |rs| && cell(rs[drawn[q]]) == k
  {
    var keys := CellKeys(rs, cell);
    var per := PerCell(limit, |keys|);
    var drawn := Picks(rs, cell, keys, per, shuffle);
    assert drawn == Draw(rs, limit, cell, shuffle);
    PicksCoverCells(rs, cell, keys, per, shuffle);
    var p :| p in drawn && p < |rs| && cell(rs[p]) == k;
    q :| 0 <= q < |drawn| && drawn[q] == p;
  }

  /** When the cells are no more than the limit, the whole draw is a prefix
      of the markers. */
  lemma DrawIsKept<R, K>(rs: seq<R>, limit: nat, cell: R -> K, shuffle: (nat, seq<nat>) -> seq<nat>)
    requires IsShuffler(shuffle) && |rs| > limit && |CellKeys(rs, cell)| <= limit
    ensures var drawn := Draw(rs, limit, cell, shuffle);
      |drawn| <= limit && Distribute(rs, limit, cell, shuffle)[..|drawn|] == drawn
  {
    var drawn := Draw(rs, limit, cell, shuffle);
    DrawFits(rs, limit, cell, shuffle);
    var all := Selection(rs, limit, cell, shuffle);
    assert Distribute(rs, limit, cell, shuffle) == all[..limit];
    assert all[..limit][..|drawn|] == all[..|drawn|];
  }

  /** With no more cells than the limit, the draw fits the limit. */
  lemma DrawFits<R, K>(rs: seq<R>, limit: nat, cell: R -> K, shuffle: (nat, seq<nat>) -> seq<nat>)
    requires |rs| > 0 && |CellKeys(rs, cell)| <= limit
    ensures |Draw(rs, limit, cell, shuffle)| <= limit
  {
    var keys := CellKeys(rs, cell);
    assert cell(rs[0]) in keys;
    var per := PerCell(limit, |keys|);
    assert Draw(rs, limit, cell, shuffle) == Picks(rs, cell, keys, per, shuffle);
    var bound := per * |keys|;
    assert |Draw(rs, limit, cell, shuffle)| <= bound <= limit;
  }

  /** Each cell gives at most its share, and never more than it holds. */
  lemma ShareIsBounded<R, K>(rs: seq<R>, limit: nat, cell: R -> K,
                                 shuffle: (nat, seq<nat>) -> seq<nat>, c: nat)
    requires IsShuffler(shuffle) && |rs| > limit
    requires c < |CellKeys(rs, cell)|
    ensures var keys := CellKeys(rs, cell);
      var per := PerCell(limit, |keys|);
      var drawn := Take(shuffle(c, Members(rs, cell, keys[c], |rs|)), per);
      per >= 1 && |drawn| <= per && |drawn| <= |Members(rs, cell, keys[c], |rs|)|
  {
    var keys := CellKeys(rs, cell);
    var members := Members(rs, cell, keys[c], |rs|);
    assert |shuffle(c, members)| == |multiset(shuffle(c, members))| == |multiset(members)|;
  }
}

=== FILE: result_files.dfy ===
/** The shapes of the two CSV files the sweep saves: the raw records and the
    statistics, one header line and one line per entry. How a `Double` is
    rendered is a parameter; the file system is not modelled. */
module ResultFiles {
  import opened Common
  import opened Catalogue
  import opened Statistics

  const RawColumns: seq<string> := [
    "API_TYPE", "TEST_TYPE", "TEST_SCENARIO", "DATA_SIZE", "LOAD_LEVEL",
    "NETWORK_TIME", "PARSING_TIME", "TOTAL_RESPONSE_TIME", "TIME_TO_FIRST_RENDER",
    "MEMORY_USAGE", "PEAK_MEMORY_USAGE", "CPU_USAGE", "PEAK_CPU_USAGE",
    "TIMESTAMP", "SUCCESS", "ERROR_MESSAGE", "DATA_TRANSFER_SIZE", "QUERY_COMPLEXITY"]

  const StatisticsColumns: seq<string> := [
    "API_TYPE", "TEST_TYPE", "DATA_SIZE", "LOAD_LEVEL",
    "AVG_RESPONSE_TIME", "MIN_RESPONSE_TIME", "MAX_RESPONSE_TIME",
    "AVG_MEMORY_USAGE", "AVG_CPU_USAGE", "SUCCESS_RATE", "STANDARD_DEVIATION"]

  /** A line of the file: its fields joined by commas, then a newline. */
  function Line(fields: seq<string>): (line: string)
    ensures |line| > 0 && line[|line| - 1] == '\n'
  {
    Join(fields, ',') + "\n"
  }

  const RawHeader: string := Line(RawColumns)
  const StatisticsHeader: string := Line(StatisticsColumns)

  function BoolText(b: bool): string {
    if b then "true" else "false"
  }

  /** The fields of a raw record's line, in column order: a missing error
      message is an empty field, a `Double` is whatever `fmt` renders. The
      columns come in four groups: what was run, the timings, the resources
      and the outcome. */
  function RawFields(r: TestResult, fmt: real -> string): (fields: seq<string>)
    ensures |fields| == |RawColumns|
  {
    RunFields(r) + TimingFields(r) + ResourceFields(r, fmt) + OutcomeFields(r)
  }

  function RunFields(r: TestResult): seq<string> {
    [ApiTypeName(r.apiType), r.testType, r.testScenario, IntToString(r.dataSize), IntToString(r.loadLevel)]
  }

  function TimingFields(r: TestResult): seq<string> {
    [IntToString(r.networkTime), IntToString(r.parsingTime), IntToString(r.totalResponseTime), IntToString(r.timeToFirstRender)]
  }

  function ResourceFields(r: TestResult, fmt: real -> string): seq<string> {
    [IntToString(r.memoryUsage), IntToString(r.peakMemoryUsage), fmt(r.cpuUsage), fmt(r.peakCpuUsage)]
  }

  function OutcomeFields(r: TestResult): seq<string> {
    [IntToString(r.timestamp), BoolText(r.success), r.errorMessage.GetOr(""),
     IntToString(r.dataTransferSize), IntToString(r.queryComplexity)]
  }

  function RawRow(r: TestResult, fmt: real -> string): string {
    Line(RawFields(r, fmt))
  }

  /** The fields of a statistics line; the deviation column holds `stdDev`
      of the variance. */
  function StatisticsFields(s: TestStatistics, fmt: real -> string, stdDev: real -> real): (fields: seq<string>)
    ensures |fields| == |StatisticsColumns|
  {
    [ApiTypeName(s.apiType), s.testType, IntToString(s.dataSize), IntToString(s.loadLevel),
     fmt(s.averageResponseTime), IntToString(s.minResponseTime), IntToString(s.maxResponseTime),
     fmt(s.averageMemoryUsage), fmt(s.averageCpuUsage), fmt(s.successRate), fmt(stdDev(s.variance))]
  }

  function StatisticsRow(s: TestStatistics, fmt: real -> string, stdDev: real -> real): string {
    Line(StatisticsFields(s, fmt, stdDev))
  }

  /** A renderer whose output never contains a comma. */
  ghost predicate CommaFree(fmt: real -> string) {
    forall x :: ',' !in fmt(x)
  }

  /** A raw record whose free-text fields hold no comma reads back, split on
      commas, as exactly its 18 fields: in particular the whole error message
      is one field, and the sizes parse back to the record's values. */
  lemma RawRowReadsBack(r: TestResult, fmt: real -> string)
    requires CommaFree(fmt)
    requires ',' !in r.testType && ',' !in r.testScenario && ',' !in r.errorMessage.GetOr("")
    ensures var line := RawRow(r, fmt);
      var fields := Split(line[..|line| - 1], ',');
      fields == RawFields(r, fmt) && |fields| == 18 &&
      fields[15] == r.errorMessage.GetOr("") &&
      (fields[14] == "true" <==> r.success) &&
      (IntMin <= r.dataSize <= IntMax ==> ParseInt32(fields[3]) == Some(r.dataSize)) &&
      (IntMin <= r.loadLevel <= IntMax ==> ParseInt32(fields[4]) == Some(r.loadLevel))
  {
    var fields := RawFields(r, fmt);
    var line := RawRow(r, fmt);
    assert line[..|line| - 1] == Join(fields, ',');
    RawFieldsAvoid(r, fmt, ',');
    SplitJoin(fields, ',');
    if IntMin <= r.dataSize <= IntMax {
      ParseRendered(r.dataSize);
      assert fields[3] == IntToString(r.dataSize);
    }
    if IntMin <= r.loadLevel <= IntMax {
      ParseRendered(r.loadLevel);
      assert fields[4] == IntToString(r.loadLevel);
    }
  }

  /** No field of a raw record's line holds `c` when neither the free-text
      fields nor the renderer produce it; digits, signs and the words
      `true`/`false` hold neither a comma nor a line break. */
  lemma RawFieldsAvoid(r: TestResult, fmt: real -> string, c: char)
    requires c == ',' || c == '\n'
    requires forall x :: c !in fmt(x)
    requires c !in r.testType && c !in r.testScenario && c !in r.errorMessage.GetOr("")
    ensures Avoids(RawFields(r, fmt), c)
  {
    assert c !in fmt(r.cpuUsage) && c !in fmt(r.peakCpuUsage);
    assert Avoids(RunFields(r), c);
    assert Avoids(TimingFields(r), c);
    assert Avoids(ResourceFields(r, fmt), c);
    assert Avoids(OutcomeFields(r), c);
    AvoidsAppend(RunFields(r), TimingFields(r), c);
    AvoidsAppend(RunFields(r) + TimingFields(r), ResourceFields(r, fmt), c);
    AvoidsAppend(RunFields(r) + TimingFields(r) + ResourceFields(r, fmt), OutcomeFields(r), c);
  }

  /** No field holds `c`. */
  predicate Avoids(fields: seq<string>, c: char) {
    forall i :: 0 <= i < |fields| ==> c !in fields[i]
  }

  lemma AvoidsAppend(a: seq<string>, b: seq<string>, c: char)
    requires Avoids(a, c) && Avoids(b, c)
    ensures Avoids(a + b, c)
  {
    assert forall i :: |a| <= i < |a + b| ==> (a + b)[i] == b[i - |a|];
  }

  /** A statistics record whose test type holds no comma reads back as
      exactly its 11 fields. */
  lemma StatisticsRowReadsBack(s: TestStatistics, fmt: real -> string, stdDev: real -> real)
    requires CommaFree(fmt) && ',' !in s.testType
    ensures var line := StatisticsRow(s, fmt, stdDev);
      var fields := Split(line[..|line| - 1], ',');
      fields == StatisticsFields(s, fmt, stdDev) && |fields| == 11 &&
      fields[1] == s.testType && fields[9] == fmt(s.successRate)
  {
    var fields := StatisticsFields(s, fmt, stdDev);
    var line := StatisticsRow(s, fmt, stdDev);
    assert line[..|line| - 1] == Join(fields, ',');
    var deviation := stdDev(s.variance);
    assert ',' !in fmt(deviation);
    forall i | 0 <= i < |fields|
      ensures ',' !in fields[i]
    {
    }
    SplitJoin(fields, ',');
  }

  /** The file contents: the header, then one line per entry. */
  function RawFile(results: seq<TestResult>, fmt: real -> string): (text: string)
    decreases |results|
  {
    if |results| == 0 then RawHeader
    else RawFile(results[..|results| - 1], fmt) + RawRow(results[|results| - 1], fmt)
  }

  function StatisticsFile(stats: seq<TestStatistics>, fmt: real -> string, stdDev: real -> real): string
    decreases |stats|
  {
    if |stats| == 0 then StatisticsHeader
    else StatisticsFile(stats[..|stats| - 1], fmt, stdDev) + StatisticsRow(stats[|stats| - 1], fmt, stdDev)
  }

  /** One line per entry after the header: the file has one line break
      more per entry, provided no free-text field holds a line break. */
  lemma {:induction false} RawFileLines(results: seq<TestResult>, fmt: real -> string)
    requires forall x :: '\n' !in fmt(x)
    requires forall i :: 0 <= i < |results| ==> NoBreaks(results[i])
    ensures multiset(RawFile(results, fmt))['\n'] == multiset(RawHeader)['\n'] + |results|
    decreases |results|
  {
    if |results| > 0 {
      var prefix := results[..|results| - 1];
      var last := results[|results| - 1];
      RawFileLines(prefix, fmt);
      RowLine(last, fmt);
      assert RawFile(results, fmt) == RawFile(prefix, fmt) + RawRow(last, fmt);
      assert multiset(RawFile(results, fmt)) == multiset(RawFile(prefix, fmt)) + multiset(RawRow(last, fmt));
    }
  }

  predicate NoBreaks(r: TestResult) {
    '\n' !in r.testType && '\n' !in r.testScenario && '\n' !in r.errorMessage.GetOr("")
  }

  /** A raw row is one line: its only break is the final one. */
  lemma RowLine(r: TestResult, fmt: real -> string)
    requires forall x :: '\n' !in fmt(x)
    requires NoBreaks(r)
    ensures multiset(RawRow(r, fmt))['\n'] == 1
  {
    var fields := RawFields(r, fmt);
    RawFieldsAvoid(r, fmt, '\n');
    JoinFree(fields);
    OneBreak(Join(fields, ','));
  }

  lemma OneBreak(text: string)
    requires '\n' !in text
    ensures multiset(text + "\n")['\n'] == 1
  {
    assert multiset(text + "\n") == multiset(text) + multiset("\n");
    assert multiset(text)['\n'] == 0;
  }

  lemma {:induction false} JoinFree(fields: seq<string>)
    requires forall i :: 0 <= i < |fields| ==> '\n' !in fields[i]
    ensures '\n' !in Join(fields, ',')
    decreases |fields|
  {
    if |fields| > 1 {
      JoinFree(fields[1..]);
    }
  }
}

=== FILE: statistics.dfy ===
/** The benchmark's result records and the statistics fold over one
    configuration's results. Times and memory are whole numbers (Kotlin
    `Long`), CPU figures and the derived averages are reals. The standard
    deviation is kept as the variance it is the square root of. */
module Statistics {
  import opened Common
  import opened Catalogue

  /** One measured (or failed) call. A failed trial carries the sentinel
      `-1` in its time fields. */
  datatype TestResult = TestResult(
    apiType: ApiType,
    testType: string,
    testScenario: string,
    dataSize: int,
    loadLevel: int,
    networkTime: int,
    parsingTime: int,
    totalResponseTime: int,
    timeToFirstRender: int,
    memoryUsage: int,
    peakMemoryUsage: int,
    cpuUsage: real,
    peakCpuUsage: real,
    timestamp: int,
    success: bool,
    errorMessage: Option<string>,
    dataTransferSize: int,
    queryComplexity: int)

  /** The summary of one configuration; `variance` is the square of the
      source's `standardDeviation`. */
  datatype TestStatistics = TestStatistics(
    apiType: ApiType,
    testType: string,
    dataSize: int,
    loadLevel: int,
    averageResponseTime: real,
    minResponseTime: int,
    maxResponseTime: int,
    averageMemoryUsage: real,
    averageCpuUsage: real,
    successRate: real,
    variance: real)

  /** A result enters the timing figures only if it succeeded with a
      positive time; the `-1` sentinel never does. */
  predicate Counts(r: TestResult) {
    r.success && r.totalResponseTime > 0
  }

  function Kept(results: seq<TestResult>): (kept: seq<TestResult>)
    ensures |kept| <= |results|
    ensures forall i :: 0 <= i < |kept| ==> Counts(kept[i])
  {
    Filter(results, Counts)
  }

  function Times(rs: seq<TestResult>): (ts: seq<int>)
    ensures |ts| == |rs|
    ensures forall i :: 0 <= i < |rs| ==> ts[i] == rs[i].totalResponseTime
  {
    seq(|rs|, i requires 0 <= i < |rs| => rs[i].totalResponseTime)
  }

  function Memories(rs: seq<TestResult>): (ms: seq<int>)
    ensures |ms| == |rs|
    ensures forall i :: 0 <= i < |rs| ==> ms[i] == rs[i].memoryUsage
  {
    seq(|rs|, i requires 0 <= i < |rs| => rs[i].memoryUsage)
  }

  function Cpus(rs: seq<TestResult>): (cs: seq<real>)
    ensures |cs| == |rs|
    ensures forall i :: 0 <= i < |rs| ==> cs[i] == rs[i].cpuUsage
  {
    seq(|rs|, i requires 0 <= i < |rs| => rs[i].cpuUsage)
  }

  /** `avg` is the arithmetic mean of `xs`: it times their number is their sum. */
  predicate IsMeanOf(avg: real, xs: seq<int>) {
    avg * |xs| as real == Sum(xs) as real
  }

  /** The same for real values. */
  predicate IsRealMeanOf(avg: real, xs: seq<real>) {
    avg * |xs| as real == SumReal(xs)
  }

  /** `rate` is the percentage that `k` is of `n`. */
  predicate IsPercentage(rate: real, k: int, n: int) {
    rate * n as real == 100.0 * k as real
  }

  /** Kotlin's `average()` of a non-empty list of whole numbers. */
  function Mean(xs: seq<int>): real
    requires |xs| > 0
  {
    Sum(xs) as real / |xs| as real
  }

  function MinOf(xs: seq<int>): (m: int)
    requires |xs| > 0
    ensures m in xs && forall i :: 0 <= i < |xs| ==> m <= xs[i]
  {
    if |xs| == 1 then xs[0]
    else
      var m := MinOf(xs[..|xs| - 1]);
      if xs[|xs| - 1] < m then xs[|xs| - 1] else m
  }

  function MaxOf(xs: seq<int>): (m: int)
    requires |xs| > 0
    ensures m in xs && forall i :: 0 <= i < |xs| ==> xs[i] <= m
  {
    if |xs| == 1 then xs[0]
    else
      var m := MaxOf(xs[..|xs| - 1]);
      if xs[|xs| - 1] > m then xs[|xs| - 1] else m
  }

  /** The sum of squared deviations from `mu`. */
  function SquaredDeviations(xs: seq<int>, mu: real): (s: real)
    ensures s >= 0.0
  {
    if |xs| == 0 then 0.0
    else
      var d := xs[|xs| - 1] as real - mu;
      SquaredDeviations(xs[..|xs| - 1], mu) + d * d
  }

  /** The mean squared deviation from the mean. */
  function Variance(xs: seq<int>): real
    requires |xs| > 0
  {
    SquaredDeviations(xs, Mean(xs)) / |xs| as real
  }

  /** A sum lies between the count times the least and the count times the
      greatest element. */
  lemma {:induction false} SumBounds(xs: seq<int>, lo: int, hi: int)
    requires forall i :: 0 <= i < |xs| ==> lo <= xs[i] <= hi
    ensures |xs| * lo <= Sum(xs) <= |xs| * hi
    decreases |xs|
  {
    if |xs| > 0 {
      SumBounds(xs[..|xs| - 1], lo, hi);
    }
  }

  lemma {:induction false} MeanBetween(xs: seq<int>)
    requires |xs| > 0
    ensures MinOf(xs) as real <= Mean(xs) <= MaxOf(xs) as real
  {
    SumBounds(xs, MinOf(xs), MaxOf(xs));
    QuotientBetween(Sum(xs), |xs|, MinOf(xs), MaxOf(xs));
  }

  lemma QuotientBetween(sum: int, n: int, lo: int, hi: int)
    requires n > 0 && n * lo <= sum <= n * hi
    ensures lo as real <= sum as real / n as real <= hi as real
  {
    CastMul(n, lo);
    CastMul(n, hi);
    DivAtLeast(sum as real, n as real, lo as real);
    DivAtMost(sum as real, n as real, hi as real);
  }

  /** What the fold promises about the counted times. */
  lemma TimingFigures(ts: seq<int>)
    requires |ts| > 0
    requires forall i :: 0 <= i < |ts| ==> ts[i] > 0
    ensures 0 < MinOf(ts)
    ensures MinOf(ts) as real <= Mean(ts) <= MaxOf(ts) as real
    ensures IsMeanOf(Mean(ts), ts)
    ensures Variance(ts) >= 0.0
  {
    MeanBetween(ts);
    MeanTimesCount(ts);
    VarianceNonNegative(ts);
  }

  lemma MeanTimesCount(ts: seq<int>)
    requires |ts| > 0
    ensures IsMeanOf(Mean(ts), ts)
  {
    var n := |ts| as real;
    var sum := Sum(ts) as real;
    assert Mean(ts) == sum / n;
    assert (sum / n) * n == sum;
  }

  lemma VarianceNonNegative(ts: seq<int>)
    requires |ts| > 0
    ensures Variance(ts) >= 0.0
  {
    var n := |ts| as real;
    var sq := SquaredDeviations(ts, Mean(ts));
    assert n * 0.0 == 0.0;
    DivAtLeast(sq, n, 0.0);
    assert Variance(ts) == sq / n;
  }

  /** `calculateStatistics`. */
  function CalculateStatistics(results: seq<TestResult>): (s: TestStatistics)
    // identity: from the first result, with fixed fallbacks for no results
    ensures |results| == 0 ==> s.apiType == Retrofit && s.testType == "" && s.dataSize == 0 && s.loadLevel == 0
    ensures |results| > 0 ==>
      s.apiType == results[0].apiType && s.testType == results[0].testType &&
      s.dataSize == results[0].dataSize && s.loadLevel == results[0].loadLevel
    // nothing counted: every figure is zero, the rate included
    ensures |Kept(results)| == 0 ==>
      s.averageResponseTime == 0.0 && s.minResponseTime == 0 && s.maxResponseTime == 0 &&
      s.averageMemoryUsage == 0.0 && s.averageCpuUsage == 0.0 && s.successRate == 0.0 && s.variance == 0.0
  {
    var kept := Kept(results);
    if |kept| == 0 then
      TestStatistics(
        if |results| > 0 then results[0].apiType else Retrofit,
        if |results| > 0 then results[0].testType else "",
        if |results| > 0 then results[0].dataSize else 0,
        if |results| > 0 then results[0].loadLevel else 0,
        0.0, 0, 0, 0.0, 0.0, 0.0, 0.0)
    else
      var ts := Times(kept);
      var n := |kept| as real;
      TestStatistics(
        results[0].apiType, results[0].testType, results[0].dataSize, results[0].loadLevel,
        Mean(ts), MinOf(ts), MaxOf(ts),
        Sum(Memories(kept)) as real / n, SumReal(Cpus(kept)) / n,
        (|kept| as real / |results| as real) * 100.0,
        Variance(ts))
  }

  /** When something counted, the timing figures are positive and ordered,
      the minimum and maximum are counted times bounding all the others, the
      average is their mean and the spread is not negative. */
  lemma CountedFigures(results: seq<TestResult>)
    requires |Kept(results)| > 0
    ensures var s, ts := CalculateStatistics(results), Times(Kept(results));
      0 < s.minResponseTime &&
      s.minResponseTime as real <= s.averageResponseTime <= s.maxResponseTime as real &&
      s.minResponseTime in ts && s.maxResponseTime in ts &&
      (forall i :: 0 <= i < |ts| ==> s.minResponseTime <= ts[i] <= s.maxResponseTime) &&
      IsMeanOf(s.averageResponseTime, ts) &&
      s.variance >= 0.0
    // the memory and CPU averages are the means over the counted results
    ensures IsMeanOf(CalculateStatistics(results).averageMemoryUsage, Memories(Kept(results)))
    ensures IsRealMeanOf(CalculateStatistics(results).averageCpuUsage, Cpus(Kept(results)))
  {
    TimingFigures(Times(Kept(results)));
    CountedAverages(results);
  }

  lemma CountedAverages(results: seq<TestResult>)
    requires |Kept(results)| > 0
    ensures IsMeanOf(CalculateStatistics(results).averageMemoryUsage, Memories(Kept(results)))
    ensures IsRealMeanOf(CalculateStatistics(results).averageCpuUsage, Cpus(Kept(results)))
  {
    var kept := Kept(results);
    var s := CalculateStatistics(results);
    QuotientIsMean(Memories(kept), s.averageMemoryUsage);
    RealQuotientIsMean(Cpus(kept), s.averageCpuUsage);
  }

  lemma QuotientIsMean(xs: seq<int>, q: real)
    requires |xs| > 0 && q == Sum(xs) as real / |xs| as real
    ensures IsMeanOf(q, xs)
  {
  }

  lemma RealQuotientIsMean(xs: seq<real>, q: real)
    requires |xs| > 0 && q == SumReal(xs) / |xs| as real
    ensures IsRealMeanOf(q, xs)
  {
  }

  /** The rate is taken over all results, not only the counted ones. */
  lemma SuccessRateOverAll(results: seq<TestResult>)
    requires |Kept(results)| > 0
    ensures var s := CalculateStatistics(results);
      IsPercentage(s.successRate, |Kept(results)|, |results|) && 0.0 < s.successRate <= 100.0
  {
    RateBounds(|Kept(results)|, |results|);
  }

  lemma RateBounds(k: nat, n: nat)
    requires 0 < k <= n
    ensures var rate := (k as real / n as real) * 100.0;
      IsPercentage(rate, k, n) && 0.0 < rate <= 100.0
  {
    var q := k as real / n as real;
    assert q * n as real == k as real;
    DivAtMost(k as real, n as real, 1.0);
    DivAtLeast(k as real, n as real, 1.0 / n as real);
  }

  /** The same number of counted results over more results is a lower rate. */
  lemma RateFalls(k: nat, n: nat, m: nat)
    requires 0 < k <= n <= m
    ensures (k as real / m as real) * 100.0 <= (k as real / n as real) * 100.0
  {
    var q := k as real / n as real;
    assert q * n as real == k as real;
    DivAtLeast(k as real, n as real, 0.0);
    if m > n {
      MulPositive(q, (m - n) as real);
    }
    DivAtMost(k as real, m as real, q);
  }

  // ---------------------------------------------------------------------
  // Properties of the fold

  /** Adding results that do not count (failures, the `-1` sentinel, zero
      times) leaves every timing figure as it was and never raises the
      success rate. */
  lemma {:induction false} UncountedResultsOnlyLowerTheRate(results: seq<TestResult>, extra: seq<TestResult>)
    requires |results| > 0
    requires forall i :: 0 <= i < |extra| ==> !Counts(extra[i])
    ensures var before, after := CalculateStatistics(results), CalculateStatistics(results + extra);
      after.averageResponseTime == before.averageResponseTime &&
      after.minResponseTime == before.minResponseTime &&
      after.maxResponseTime == before.maxResponseTime &&
      after.averageMemoryUsage == before.averageMemoryUsage &&
      after.averageCpuUsage == before.averageCpuUsage &&
      after.variance == before.variance &&
      after.successRate <= before.successRate
  {
    FilterAppend(results, extra, Counts);
    FilterNone(extra, Counts);
    assert Kept(results + extra) == Kept(results);
    assert (results + extra)[0] == results[0];
    var k := |Kept(results)|;
    if k > 0 {
      RateFalls(k, |results|, |results + extra|);
    }
  }

  lemma {:induction false} SquaredDeviationsAtValue(xs: seq<int>, x: int)
    requires forall i :: 0 <= i < |xs| ==> xs[i] == x
    ensures SquaredDeviations(xs, x as real) == 0.0
    ensures Sum(xs) == |xs| * x
    decreases |xs|
  {
    if |xs| > 0 {
      SquaredDeviationsAtValue(xs[..|xs| - 1], x);
    }
  }

  /** When every counted time is the same, the mean is that time and the
      spread is zero. */
  lemma {:induction false} EqualTimesHaveNoSpread(results: seq<TestResult>, t: int)
    requires |Kept(results)| > 0
    requires forall i :: 0 <= i < |Kept(results)| ==> Kept(results)[i].totalResponseTime == t
    ensures var s := CalculateStatistics(results);
      s.averageResponseTime == t as real && s.minResponseTime == t && s.maxResponseTime == t && s.variance == 0.0
  {
    var ts := Times(Kept(results));
    SquaredDeviationsAtValue(ts, t);
    QuotientBetween(Sum(ts), |ts|, t, t);
    assert Mean(ts) == t as real;
    assert Variance(ts) == 0.0 / |ts| as real;
  }

  /** A result with every field fixed except the ones the fold reads. */
  function Sample(time: int, success: bool): TestResult {
    TestResult(Retrofit, "PRODUCTS", "INDIVIDUAL_PRODUCTS_ONLY", 50, 100,
      time, 0, time, time, 1000, 1000, 5.0, 5.0, 0, success, None, 0, 1)
  }

  /** Two counted results of 100 ms and 150 ms and one `-1` failure: the
      failure is left out of the mean but counted in the rate. */
  lemma SentinelExample()
    ensures var s := CalculateStatistics([Sample(100, true), Sample(150, true), Sample(-1, false)]);
      s.averageResponseTime == 125.0 && s.minResponseTime == 100 && s.maxResponseTime == 150 &&
      s.successRate == 200.0 / 3.0 && s.variance == 625.0
  {
    var results := [Sample(100, true), Sample(150, true), Sample(-1, false)];
    SentinelIsDropped();
    var ts := Times(Kept(results));
    assert ts == [100, 150];
    PairFigures(ts);
  }

  lemma SentinelIsDropped()
    ensures Kept([Sample(100, true), Sample(150, true), Sample(-1, false)]) == [Sample(100, true), Sample(150, true)]
  {
    var results := [Sample(100, true), Sample(150, true), Sample(-1, false)];
    assert results[1..] == [Sample(150, true), Sample(-1, false)];
    assert results[1..][1..] == [Sample(-1, false)];
  }

  lemma PairFigures(ts: seq<int>)
    requires ts == [100, 150]
    ensures Mean(ts) == 125.0 && MinOf(ts) == 100 && MaxOf(ts) == 150 && Variance(ts) == 625.0
  {
    assert ts[..|ts| - 1] == [100];
    assert [100][..0] == [];
    assert Sum([100]) == 100;
    assert Sum(ts) == 250;
    assert Mean(ts) == 125.0;
    assert SquaredDeviations([100], 125.0) == 625.0;
    assert SquaredDeviations(ts, 125.0) == 1250.0;
  }
}

=== FILE: sweep.dfy ===
/** The complete benchmark sweep: two rounds over both transports, the
    second in the reverse order, each visit running the same 26
    configurations and appending one statistics record per configuration.
    The connectivity checks and warm-up calls record nothing; what each
    configuration's runner observes is a parameter. */
module Sweep {
  import opened Common
  import opened Catalogue
  import opened Statistics
  import opened Trials

  const TestDataSizes: seq<int> := [50, 100, 121, 184]
  const TestLoadLevels: seq<int> := [100, 500, 1000]

  // ---------------------------------------------------------------------
  // Nested loops

  /** The iterations of `for (a in outer) for (b in inner)`, in order. */
  function NestedLoop<A, B>(outer: seq<A>, inner: seq<B>): (r: seq<(A, B)>)
    ensures |r| == |outer| * |inner|
    decreases |outer|
  {
    if |outer| == 0 then []
    else
      var prefix := NestedLoop(outer[..|outer| - 1], inner);
      prefix + seq(|inner|, j requires 0 <= j < |inner| => (outer[|outer| - 1], inner[j]))
  }

  lemma MulStep(i: int, n: int, l: int)
    requires 0 <= i < n - 1 && l >= 0
    ensures i * l + l <= (n - 1) * l
  {
    var d := n - 1 - i;
    assert (n - 1) * l == i * l + d * l;
    assert d * l == (d - 1) * l + l;
    assert (d - 1) * l >= 0;
  }

  /** Iteration (i, j) of the nested loop is at position i * |inner| + j. */
  lemma {:induction false} NestedLoopAt<A, B>(outer: seq<A>, inner: seq<B>, i: int, j: int)
    requires 0 <= i < |outer| && 0 <= j < |inner|
    ensures i * |inner| + j < |NestedLoop(outer, inner)|
    ensures NestedLoop(outer, inner)[i * |inner| + j] == (outer[i], inner[j])
    decreases |outer|
  {
    var n := |outer|;
    var l := |inner|;
    var prefix := NestedLoop(outer[..n - 1], inner);
    assert |prefix| == (n - 1) * l;
    assert n * l == (n - 1) * l + l;
    if i < n - 1 {
      NestedLoopAt(outer[..n - 1], inner, i, j);
      MulStep(i, n, l);
    } else {
      assert i * l == |prefix|;
    }
  }

  // ---------------------------------------------------------------------
  // The schedule

  /** One configuration of a visit. */
  datatype Step = Products(dataSize: int, loadLevel: int) | Packages(dataSize: int, loadLevel: int) | Search | RealWorld

  /** What one visit runs: every (size, load) pair for products, then for
      packages, then the search and the real-world scenario. */
  function VisitPlan(): (plan: seq<Step>)
    ensures |plan| == 26
  {
    var grid := NestedLoop(TestDataSizes, TestLoadLevels);
    seq(|grid|, k requires 0 <= k < |grid| => Products(grid[k].0, grid[k].1)) +
    seq(|grid|, k requires 0 <= k < |grid| => Packages(grid[k].0, grid[k].1)) +
    [Search, RealWorld]
  }

  /** The API order of one round. */
  function ApiOrder(reversed: bool): seq<ApiType> {
    if reversed then [GraphQL, Retrofit] else [Retrofit, GraphQL]
  }

  /** `rounds` rounds, the order flipping after each. */
  function Rounds(rounds: nat, reversed: bool): (order: seq<ApiType>)
    ensures |order| == 2 * rounds
  {
    if rounds == 0 then [] else ApiOrder(reversed) + Rounds(rounds - 1, !reversed)
  }

  /** The visits of the two rounds: each API once per round, first-mover
      the other way round in the second. */
  function VisitOrder(): (order: seq<ApiType>)
    ensures order == [Retrofit, GraphQL, GraphQL, Retrofit]
  {
    Rounds(2, false)
  }

  datatype Job = Job(api: ApiType, step: Step)

  /** Every configuration run, in the order the sweep runs them. */
  function Schedule(): (jobs: seq<Job>)
    ensures |jobs| == 104
  {
    var visits := NestedLoop(VisitOrder(), VisitPlan());
    seq(|visits|, k requires 0 <= k < |visits| => Job(visits[k].0, visits[k].1))
  }

  /** Visit v runs step k of the plan as the job at 26 * v + k. */
  lemma ScheduleAt(v: int, k: int)
    requires 0 <= v < 4 && 0 <= k < 26
    ensures Schedule()[26 * v + k] == Job(VisitOrder()[v], VisitPlan()[k])
  {
    NestedLoopAt(VisitOrder(), VisitPlan(), v, k);
  }

  /** Products step (i, j) is the size-i, load-j pair, size outermost; the
      packages run the same grid after them. */
  lemma VisitPlanAt(i: int, j: int)
    requires 0 <= i < 4 && 0 <= j < 3
    ensures VisitPlan()[3 * i + j] == Products(TestDataSizes[i], TestLoadLevels[j])
    ensures VisitPlan()[12 + 3 * i + j] == Packages(TestDataSizes[i], TestLoadLevels[j])
    ensures VisitPlan()[24] == Search && VisitPlan()[25] == RealWorld
  {
    NestedLoopAt(TestDataSizes, TestLoadLevels, i, j);
    assert i * |TestLoadLevels| == 3 * i;
  }

  // ---------------------------------------------------------------------
  // Running the schedule

  /** What the transports deliver to one configuration's runner; only the
      field for the configuration's kind is used. */
  datatype Observation = Observation(
    products: seq<Repetition<Response<seq<Product>>>>,
    packages: seq<Repetition<Response<seq<PackageProduct>>>>,
    searches: seq<Repetition<Response<seq<Reseller>>>>,
    scenarios: seq<Repetition<Scenario>>)

  /** The configuration stamped on a job's records. */
  function JobConfig(j: Job): (c: Config)
    ensures c.apiType == j.api
  {
    match j.step
    case Products(d, l) => ProductConfig(j.api, d, l)
    case Packages(d, l) => PackageConfig(j.api, d, l)
    case Search => SearchConfig(j.api)
    case RealWorld => RealWorldConfig(j.api)
  }

  /** The number of repetitions the job's runner saw, and how many of their
      delays threw. */
  function JobRepetitions(j: Job, o: Observation): nat {
    match j.step
    case Products(_, _) => |o.products|
    case Packages(_, _) => |o.packages|
    case Search => |o.searches|
    case RealWorld => |o.scenarios|
  }

  function JobPauseFaults(j: Job, o: Observation): nat {
    match j.step
    case Products(_, _) => PauseFaults(o.products)
    case Packages(_, _) => PauseFaults(o.packages)
    case Search => PauseFaults(o.searches)
    case RealWorld => PauseFaults(o.scenarios)
  }

  /** The records of one job, from the runner of its kind. */
  function JobResults(j: Job, o: Observation): (rs: seq<TestResult>)
    ensures |rs| == JobRepetitions(j, o) + JobPauseFaults(j, o)
    ensures forall i :: 0 <= i < |rs| ==> Tagged(rs[i], JobConfig(j))
  {
    match j.step
    case Products(d, l) => RunProductTest(j.api, d, l, o.products)
    case Packages(d, l) => RunPackageTest(j.api, d, l, o.packages)
    case Search => RunResellerSearchTest(j.api, o.searches)
    case RealWorld => RunRealWorldScenarioTest(j.api, o.scenarios)
  }

  /** What the sweep collects: every record, and one statistics record per
      job. */
  datatype Collected = Collected(allResults: seq<TestResult>, statistics: seq<TestStatistics>)

  /** Job i's records, from what the transports deliver to it. */
  function Runner(observe: nat -> Observation): (nat, Job) -> seq<TestResult> {
    (i: nat, j: Job) => JobResults(j, observe(i))
  }

  /** The jobs run in order: each one's records are appended to the full
      list and summarised into one statistics record. */
  function RunJobs(jobs: seq<Job>, run: (nat, Job) -> seq<TestResult>, summarize: seq<TestResult> -> TestStatistics): (c: Collected)
    ensures |c.statistics| == |jobs|
    decreases |jobs|
  {
    if |jobs| == 0 then Collected([], [])
    else
      var before := RunJobs(jobs[..|jobs| - 1], run, summarize);
      var rs := run(|jobs| - 1, jobs[|jobs| - 1]);
      Collected(before.allResults + rs, before.statistics + [summarize(rs)])
  }

  /** Statistics record i summarises exactly the records of job i. */
  lemma {:induction false} StatisticsInOrder(jobs: seq<Job>, run: (nat, Job) -> seq<TestResult>, summarize: seq<TestResult> -> TestStatistics)
    ensures forall i :: 0 <= i < |jobs| ==> RunJobs(jobs, run, summarize).statistics[i] == summarize(run(i, jobs[i]))
    decreases |jobs|
  {
    if |jobs| > 0 {
      var n := |jobs| - 1;
      var prefix := jobs[..n];
      StatisticsInOrder(prefix, run, summarize);
      var before := RunJobs(prefix, run, summarize).statistics;
      var last := summarize(run(n, jobs[n]));
      assert RunJobs(jobs, run, summarize).statistics == before + [last];
      forall i | 0 <= i < |jobs|
        ensures RunJobs(jobs, run, summarize).statistics[i] == summarize(run(i, jobs[i]))
      {
        if i < n {
          assert prefix[i] == jobs[i];
          assert (before + [last])[i] == before[i];
        } else {
          assert (before + [last])[i] == last;
        }
      }
    }
  }

  /** The pause faults over the first jobs. */
  function PauseFaultsOf(jobs: seq<Job>, observe: nat -> Observation): nat
    decreases |jobs|
  {
    if |jobs| == 0 then 0
    else PauseFaultsOf(jobs[..|jobs| - 1], observe) + JobPauseFaults(jobs[|jobs| - 1], observe(|jobs| - 1))
  }

  /** Each runner repeats its trial `testIterations` times. */
  predicate FullRuns(jobs: seq<Job>, observe: nat -> Observation) {
    forall i :: 0 <= i < |jobs| ==> JobRepetitions(jobs[i], observe(i)) == TestIterations
  }

  /** With full runs, the jobs contribute 100 records each, plus one for
      every delay that threw after its record. */
  lemma {:induction false} RecordTotal(jobs: seq<Job>, observe: nat -> Observation, summarize: seq<TestResult> -> TestStatistics)
    requires FullRuns(jobs, observe)
    ensures |RunJobs(jobs, Runner(observe), summarize).allResults| == 100 * |jobs| + PauseFaultsOf(jobs, observe)
    decreases |jobs|
  {
    if |jobs| > 0 {
      RecordTotal(jobs[..|jobs| - 1], observe, summarize);
    }
  }

  /** `runCompletePerformanceTest`. The connectivity checks only log: their
      `continue` ends an iteration of the check loop, so the schedule runs
      in full whatever `connected` says. Warm-up results are discarded. */
  function RunCompletePerformanceTest(connected: ApiType -> bool, observe: nat -> Observation): (c: Collected)
    ensures |c.statistics| == |Schedule()| == 104
    ensures forall i :: 0 <= i < 104 ==> c.statistics[i] == CalculateStatistics(JobResults(Schedule()[i], observe(i)))
  {
    StatisticsInOrder(Schedule(), Runner(observe), CalculateStatistics);
    RunJobs(Schedule(), Runner(observe), CalculateStatistics)
  }

  /** With full runs, each statistics record carries its job's
      configuration. */
  lemma StatisticsIdentity(connected: ApiType -> bool, observe: nat -> Observation, i: int)
    requires FullRuns(Schedule(), observe) && 0 <= i < 104
    ensures var s := RunCompletePerformanceTest(connected, observe).statistics[i];
      var c := JobConfig(Schedule()[i]);
      s.apiType == c.apiType && s.testType == c.testType && s.dataSize == c.dataSize && s.loadLevel == c.loadLevel
  {
    var rs := JobResults(Schedule()[i], observe(i));
    assert Tagged(rs[0], JobConfig(Schedule()[i]));
  }

  /** The whole sweep: 10400 records plus one per delay that threw, and the
      visits' APIs in schedule order, 26 statistics records each. */
  lemma SweepTotals(connected: ApiType -> bool, observe: nat -> Observation)
    requires FullRuns(Schedule(), observe)
    ensures var c := RunCompletePerformanceTest(connected, observe);
      |c.allResults| == 10400 + PauseFaultsOf(Schedule(), observe) &&
      forall p :: 0 <= p < 104 ==> c.statistics[p].apiType == VisitOrder()[p / 26]
  {
    RecordTotal(Schedule(), observe, CalculateStatistics);
    forall p | 0 <= p < 104
      ensures RunCompletePerformanceTest(connected, observe).statistics[p].apiType == VisitOrder()[p / 26]
    {
      StatisticsApi(connected, observe, p);
    }
  }

  lemma StatisticsApi(connected: ApiType -> bool, observe: nat -> Observation, p: nat)
    requires FullRuns(Schedule(), observe) && p < 104
    ensures RunCompletePerformanceTest(connected, observe).statistics[p].apiType == VisitOrder()[p / 26]
  {
    var v, k := p / 26, p % 26;
    assert 26 * v + k == p;
    ScheduleAt(v, k);
    StatisticsIdentity(connected, observe, p);
  }
}

=== FILE: trials.dfy ===
/** One benchmark trial and the runners that repeat it: how the trackers,
    the clock and the last emitted response become one `TestResult`, the
    `-1` record written when something throws, and the four runners
    (products, packages, reseller search, the four-step real-world
    scenario) plus the manager's single quick test. Every reading, clock
    value and transport outcome is a parameter of the trial. */
module Trials {
  import opened Common
  import opened Catalogue
  import MemoryTracker
  import CpuTracker
  import opened ProductRepository
  import opened Statistics

  // ---------------------------------------------------------------------
  // Measuring one call

  /** What one trial observes: the tracker readings when tracking starts,
      the outcome of the measured work (a throw aborts the trial), the
      readings taken right after it, and the wall clock for the record. */
  datatype Trial<+O> = Trial(
    memoryAtStart: MemoryTracker.MemoryReading,
    cpuAtStart: Call<int>,
    clockAtStart: int,
    outcome: Call<O>,
    memoryAfter: MemoryTracker.MemoryReading,
    cpuAfter: Call<int>,
    clockAfter: int,
    timestamp: int)

  /** The four resource figures a record carries. */
  datatype Probe = Probe(memoryUsage: int, peakMemoryUsage: int, cpuUsage: real, peakCpuUsage: real)

  /** What, if anything, aborted the trial: starting the CPU tracker (the
      one tracker step that can throw) or the measured work itself. */
  function TrialFault<O>(t: Trial<O>): (f: Option<Option<string>>)
    ensures f.None? <==> t.cpuAtStart.Returned? && t.outcome.Returned?
    ensures t.cpuAtStart.Threw? ==> f == Some(t.cpuAtStart.message)
    ensures t.cpuAtStart.Returned? && t.outcome.Threw? ==> f == Some(t.outcome.message)
    ensures CpuTracker.StartTracking(CpuTracker.Idle, t.cpuAtStart, t.clockAtStart).thrown.Some? ==>
      f == CpuTracker.StartTracking(CpuTracker.Idle, t.cpuAtStart, t.clockAtStart).thrown
  {
    if t.cpuAtStart.Threw? then Some(t.cpuAtStart.message)
    else if t.outcome.Threw? then Some(t.outcome.message)
    else None
  }

  /** The resource figures of a trial: both trackers are reset and started,
      and read once the work is done. Only the figures of a trial that was
      not aborted reach a record. */
  function ProbeOf<O>(t: Trial<O>): (p: Probe)
    // memory: a fresh reading, against a peak that is still the start reading
    ensures p.memoryUsage == MemoryTracker.CurrentUsage(t.memoryAfter)
    ensures p.peakMemoryUsage == MemoryTracker.CurrentUsage(t.memoryAtStart)
    // CPU: the usage since the start, and a peak that started from zero
    ensures t.cpuAtStart.Returned? ==>
      p.cpuUsage == (if t.cpuAfter.Threw? then 0.0
                     else CpuTracker.IntervalUsage(t.cpuAfter.value - t.cpuAtStart.value, t.clockAfter - t.clockAtStart))
    ensures t.cpuAtStart.Returned? ==>
      p.peakCpuUsage == (if t.cpuAfter.Threw? then 0.0 else MaxReal(0.0, p.cpuUsage))
  {
    var memory := MemoryTracker.StartTracking(MemoryTracker.Reset(MemoryTracker.Idle), t.memoryAtStart);
    var cpu := CpuTracker.StartTracking(CpuTracker.Idle, t.cpuAtStart, t.clockAtStart);
    assert t.cpuAtStart.Returned? ==>
      cpu.state == CpuTracker.CpuTracker(t.cpuAtStart.value, t.clockAtStart, true, 0.0, 0.0, 0);
    var sample := CpuTracker.GetCurrentCpuUsage(cpu.state, t.cpuAfter, t.clockAfter);
    Probe(
      MemoryTracker.CurrentUsage(t.memoryAfter),
      MemoryTracker.GetPeakMemoryUsage(memory),
      sample.usage,
      CpuTracker.GetPeakCpuUsage(sample.tracker))
  }

  // ---------------------------------------------------------------------
  // Records

  /** What a configuration stamps on each of its records. */
  datatype Config = Config(apiType: ApiType, testType: string, testScenario: string, dataSize: int, loadLevel: int)

  predicate Tagged(r: TestResult, c: Config) {
    r.apiType == c.apiType && r.testType == c.testType && r.testScenario == c.testScenario &&
    r.dataSize == c.dataSize && r.loadLevel == c.loadLevel
  }

  /** One collected call: every value the flow emitted, and the elapsed
      time around the collection. */
  datatype Response<+T> = Response(emitted: seq<ApiResponse<T>>, elapsed: int)

  /** The flow's last value was a `Success` carrying `data`. */
  predicate EndedWithSuccess<T>(emitted: seq<ApiResponse<T>>) {
    var last := LastEmitted(emitted);
    last.Some? && last.value.Success?
  }

  /** The message of the flow's last value when that is an `Error`. */
  function EndingError<T>(emitted: seq<ApiResponse<T>>): (m: Option<string>)
    ensures m.Some? <==> LastEmitted(emitted).Some? && LastEmitted(emitted).value.Error?
    ensures m.Some? ==> !EndedWithSuccess(emitted) && LastEmitted(emitted) == Some(Error(m.value))
  {
    var last := LastEmitted(emitted);
    if last.Some? && last.value.Error? then Some(last.value.message) else None
  }

  /** The record of a completed single-call trial. Network, parsing and
      first-render times are placeholders (0); the transfer size is that of
      the successful payload, else 0; one call has complexity 1. */
  function CallRecord<T>(c: Config, r: Response<T>, p: Probe, timestamp: int, transfer: T -> int): (rec: TestResult)
    ensures Tagged(rec, c)
    ensures rec.success <==> EndedWithSuccess(r.emitted)
    ensures rec.errorMessage == EndingError(r.emitted)
    ensures rec.success ==> rec.errorMessage.None?
    ensures rec.totalResponseTime == r.elapsed
    ensures rec.networkTime == 0 && rec.parsingTime == 0 && rec.timeToFirstRender == 0
    ensures rec.memoryUsage == p.memoryUsage && rec.peakMemoryUsage == p.peakMemoryUsage
    ensures rec.cpuUsage == p.cpuUsage && rec.peakCpuUsage == p.peakCpuUsage
    ensures rec.timestamp == timestamp && rec.queryComplexity == 1
    ensures !rec.success ==> rec.dataTransferSize == 0
    ensures rec.success ==> rec.dataTransferSize == transfer(LastEmitted(r.emitted).value.data)
  {
    var last := LastEmitted(r.emitted);
    var success := last.Some? && last.value.Success?;
    TestResult(c.apiType, c.testType, c.testScenario, c.dataSize, c.loadLevel,
      0, 0, r.elapsed, 0,
      p.memoryUsage, p.peakMemoryUsage, p.cpuUsage, p.peakCpuUsage,
      timestamp, success, EndingError(r.emitted),
      if success then transfer(last.value.data) else 0,
      1)
  }

  /** The record written when something in a single-call trial threw: the
      `-1` time sentinel, zero resources, and the exception's message. */
  function FailureRecord(c: Config, message: Option<string>, timestamp: int): (rec: TestResult)
    ensures Tagged(rec, c) && !Counts(rec)
    ensures !rec.success && rec.totalResponseTime == -1 && rec.errorMessage == message
    ensures rec.memoryUsage == 0 && rec.peakMemoryUsage == 0 && rec.cpuUsage == 0.0 && rec.peakCpuUsage == 0.0
    ensures rec.networkTime == 0 && rec.parsingTime == 0 && rec.timeToFirstRender == 0
    ensures rec.dataTransferSize == 0 && rec.queryComplexity == 0 && rec.timestamp == timestamp
  {
    TestResult(c.apiType, c.testType, c.testScenario, c.dataSize, c.loadLevel,
      0, 0, -1, 0, 0, 0, 0.0, 0.0, timestamp, false, message, 0, 0)
  }

  // ---------------------------------------------------------------------
  // Transfer sizes: two bytes per UTF-16 code unit of the counted text
  // fields (Kotlin's `length`)

  function ProductChars(ps: seq<Product>): (n: int)
    ensures n >= 0
  {
    if |ps| == 0 then 0
    else ProductChars(ps[..|ps| - 1]) + Utf16Length(ps[|ps| - 1].productName) + Utf16Length(ps[|ps| - 1].description)
  }

  function ItemChars(items: seq<string>): (n: int)
    ensures n >= 0
  {
    if |items| == 0 then 0 else ItemChars(items[..|items| - 1]) + Utf16Length(items[|items| - 1])
  }

  function PackageChars(ps: seq<PackageProduct>): (n: int)
    ensures n >= 0
  {
    if |ps| == 0 then 0
    else PackageChars(ps[..|ps| - 1]) + Utf16Length(ps[|ps| - 1].packageName) + ItemChars(ps[|ps| - 1].items)
  }

  /** A missing city counts 0. */
  function CityChars(city: Option<string>): nat {
    if city.Some? then Utf16Length(city.value) else 0
  }

  function ResellerChars(rs: seq<Reseller>): (n: int)
    ensures n >= 0
  {
    if |rs| == 0 then 0
    else
      var r := rs[|rs| - 1];
      ResellerChars(rs[..|rs| - 1]) + Utf16Length(r.shopName) + Utf16Length(r.resellerName) + CityChars(r.city)
  }

  /** The counts are sums over the list: a split list counts its parts, and
      one product counts the code units of its name and description. */
  lemma {:induction false} ProductCharsAppend(a: seq<Product>, b: seq<Product>)
    ensures ProductChars(a + b) == ProductChars(a) + ProductChars(b)
    ensures |b| == 1 ==> ProductChars(b) == Utf16Length(b[0].productName) + Utf16Length(b[0].description)
    decreases |b|
  {
    if |b| > 0 {
      assert (a + b)[..|a + b| - 1] == a + b[..|b| - 1];
      ProductCharsAppend(a, b[..|b| - 1]);
    } else {
      assert a + b == a;
    }
  }

  lemma {:induction false} ItemCharsAppend(a: seq<string>, b: seq<string>)
    ensures ItemChars(a + b) == ItemChars(a) + ItemChars(b)
    ensures |b| == 1 ==> ItemChars(b) == Utf16Length(b[0])
    decreases |b|
  {
    if |b| > 0 {
      assert (a + b)[..|a + b| - 1] == a + b[..|b| - 1];
      ItemCharsAppend(a, b[..|b| - 1]);
    } else {
      assert a + b == a;
    }
  }

  lemma {:induction false} PackageCharsAppend(a: seq<PackageProduct>, b: seq<PackageProduct>)
    ensures PackageChars(a + b) == PackageChars(a) + PackageChars(b)
    ensures |b| == 1 ==> PackageChars(b) == Utf16Length(b[0].packageName) + ItemChars(b[0].items)
    decreases |b|
  {
    if |b| > 0 {
      assert (a + b)[..|a + b| - 1] == a + b[..|b| - 1];
      PackageCharsAppend(a, b[..|b| - 1]);
    } else {
      assert a + b == a;
    }
  }

  lemma {:induction false} ResellerCharsAppend(a: seq<Reseller>, b: seq<Reseller>)
    ensures ResellerChars(a + b) == ResellerChars(a) + ResellerChars(b)
    ensures |b| == 1 ==>
      ResellerChars(b) == Utf16Length(b[0].shopName) + Utf16Length(b[0].resellerName) + CityChars(b[0].city)
    decreases |b|
  {
    if |b| > 0 {
      assert (a + b)[..|a + b| - 1] == a + b[..|b| - 1];
      ResellerCharsAppend(a, b[..|b| - 1]);
    } else {
      assert a + b == a;
    }
  }

  function ProductsTransfer(ps: seq<Product>): int { 2 * ProductChars(ps) }
  function PackagesTransfer(ps: seq<PackageProduct>): int { 2 * PackageChars(ps) }
  function ResellersTransfer(rs: seq<Reseller>): int { 2 * ResellerChars(rs) }

  // ---------------------------------------------------------------------
  // Repeating a trial

  /** One repetition: the trial, what the delay after a recorded trial threw
      (if it threw), and the clock when a failure record is made. */
  datatype Repetition<+O> = Repetition(trial: Trial<O>, pause: Pause, failedAt: int)

  /** The delay after a recorded trial: it elapsed, or it threw. */
  datatype Pause = Slept | Interrupted(message: Option<string>)

  /** The delay threw after the normal record was already added. */
  predicate PauseFaulted<O>(r: Repetition<O>) {
    r.trial.cpuAtStart.Returned? && r.trial.outcome.Returned? && r.pause.Interrupted?
  }

  /** The record a repetition always appends: the normal record of the
      trial, or the failure record when the trial threw. */
  function FirstRecord<O>(r: Repetition<O>, normal: (O, Trial<O>) -> TestResult, failure: (Option<string>, int) -> TestResult): (rec: TestResult)
    ensures TrialFault(r.trial).Some? ==> rec == failure(TrialFault(r.trial).value, r.failedAt)
    ensures TrialFault(r.trial).None? ==> rec == normal(r.trial.outcome.value, r.trial)
  {
    match TrialFault(r.trial)
    case Some(m) => failure(m, r.failedAt)
    case None => normal(r.trial.outcome.value, r.trial)
  }

  /** The failure record appended when the delay after a normal record
      threw, if it did. */
  function PauseRecord<O>(r: Repetition<O>, failure: (Option<string>, int) -> TestResult): (rs: seq<TestResult>)
    ensures |rs| == if PauseFaulted(r) then 1 else 0
    ensures PauseFaulted(r) ==> rs[0] == failure(r.pause.message, r.failedAt)
  {
    if PauseFaulted(r) then [failure(r.pause.message, r.failedAt)] else []
  }

  /** The records one repetition appends: the normal record, or the failure
      record when the trial threw; a throw from the delay after the normal
      record appends a failure record as well. */
  function Iteration<O>(r: Repetition<O>, normal: (O, Trial<O>) -> TestResult, failure: (Option<string>, int) -> TestResult): (rs: seq<TestResult>)
    ensures |rs| == if PauseFaulted(r) then 2 else 1
    ensures rs[0] == FirstRecord(r, normal, failure)
    ensures PauseFaulted(r) ==> rs[1] == failure(r.pause.message, r.failedAt)
  {
    var first := FirstRecord(r, normal, failure);
    if PauseFaulted(r) then [first, failure(r.pause.message, r.failedAt)] else [first]
  }

  /** `repeat(testIterations) { ... }`: the records of every repetition, in
      order. */
  function RunTrials<O>(reps: seq<Repetition<O>>, normal: (O, Trial<O>) -> TestResult, failure: (Option<string>, int) -> TestResult): seq<TestResult>
    decreases |reps|
  {
    if |reps| == 0 then []
    else RunTrials(reps[..|reps| - 1], normal, failure) + Iteration(reps[|reps| - 1], normal, failure)
  }

  /** The number of repetitions whose delay threw after their record. */
  function PauseFaults<O>(reps: seq<Repetition<O>>): (n: nat)
    ensures n <= |reps|
  {
    if |reps| == 0 then 0
    else PauseFaults(reps[..|reps| - 1]) + (if PauseFaulted(reps[|reps| - 1]) then 1 else 0)
  }

  /** Each repetition appends exactly one record, and a second one only when
      its delay threw. */
  lemma {:induction false} RecordCount<O>(reps: seq<Repetition<O>>, normal: (O, Trial<O>) -> TestResult, failure: (Option<string>, int) -> TestResult)
    ensures |RunTrials(reps, normal, failure)| == |reps| + PauseFaults(reps)
    decreases |reps|
  {
    if |reps| > 0 {
      RecordCount(reps[..|reps| - 1], normal, failure);
    }
  }

  /** When both record builders stamp a configuration, every record of the
      run carries it. */
  lemma {:induction false} RunTagged<O>(reps: seq<Repetition<O>>, normal: (O, Trial<O>) -> TestResult, failure: (Option<string>, int) -> TestResult, c: Config)
    requires forall o, t :: Tagged(normal(o, t), c)
    requires forall m, ts :: Tagged(failure(m, ts), c)
    ensures forall i :: 0 <= i < |RunTrials(reps, normal, failure)| ==> Tagged(RunTrials(reps, normal, failure)[i], c)
    decreases |reps|
  {
    if |reps| > 0 {
      var prefix := reps[..|reps| - 1];
      RunTagged(prefix, normal, failure, c);
      var a, b := RunTrials(prefix, normal, failure), Iteration(reps[|reps| - 1], normal, failure);
      assert RunTrials(reps, normal, failure) == a + b;
      forall i | 0 <= i < |a + b|
        ensures Tagged((a + b)[i], c)
      {
        if i < |a| { assert (a + b)[i] == a[i]; } else { assert (a + b)[i] == b[i - |a|]; }
      }
    }
  }

  // ---------------------------------------------------------------------
  // The four runners

  const TestIterations: nat := 100

  function ProductConfig(api: ApiType, dataSize: int, loadLevel: int): Config {
    Config(api, "PRODUCTS", "INDIVIDUAL_PRODUCTS_ONLY", dataSize, loadLevel)
  }

  function PackageConfig(api: ApiType, dataSize: int, loadLevel: int): Config {
    Config(api, "PACKAGES", "PACKAGE_PRODUCTS_ONLY", dataSize, loadLevel)
  }

  /** Searches always report the default search limit and load. */
  function SearchConfig(api: ApiType): Config {
    Config(api, "RESELLER_SEARCH", "SEARCH_OPERATIONS", 50, 100)
  }

  function RealWorldConfig(api: ApiType): Config {
    Config(api, "REAL_WORLD_SCENARIO", "REAL_WORLD_SCENARIO", 184, 100)
  }

  /** `runProductTest`. */
  function RunProductTest(api: ApiType, dataSize: int, loadLevel: int, reps: seq<Repetition<Response<seq<Product>>>>): (rs: seq<TestResult>)
    ensures |rs| == |reps| + PauseFaults(reps)
    ensures forall i :: 0 <= i < |rs| ==> Tagged(rs[i], ProductConfig(api, dataSize, loadLevel))
  {
    var c := ProductConfig(api, dataSize, loadLevel);
    var normal := (o: Response<seq<Product>>, t: Trial<Response<seq<Product>>>) => CallRecord(c, o, ProbeOf(t), t.timestamp, ProductsTransfer);
    var failure := (m: Option<string>, ts: int) => FailureRecord(c, m, ts);
    RecordCount(reps, normal, failure);
    RunTagged(reps, normal, failure, c);
    RunTrials(reps, normal, failure)
  }

  /** `runPackageTest`. */
  function RunPackageTest(api: ApiType, dataSize: int, loadLevel: int, reps: seq<Repetition<Response<seq<PackageProduct>>>>): (rs: seq<TestResult>)
    ensures |rs| == |reps| + PauseFaults(reps)
    ensures forall i :: 0 <= i < |rs| ==> Tagged(rs[i], PackageConfig(api, dataSize, loadLevel))
  {
    var c := PackageConfig(api, dataSize, loadLevel);
    var normal := (o: Response<seq<PackageProduct>>, t: Trial<Response<seq<PackageProduct>>>) => CallRecord(c, o, ProbeOf(t), t.timestamp, PackagesTransfer);
    var failure := (m: Option<string>, ts: int) => FailureRecord(c, m, ts);
    RecordCount(reps, normal, failure);
    RunTagged(reps, normal, failure, c);
    RunTrials(reps, normal, failure)
  }

  /** The search terms, used in turn; the term only selects the transport
      outcome, so the record does not depend on it. */
  const SearchQueries: seq<string> := ["Ayu", "Malang", "Jakarta", "Surabaya", "Bandung"]

  function SearchQuery(iteration: nat): (q: string)
    ensures q in SearchQueries
  {
    SearchQueries[iteration % |SearchQueries|]
  }

  /** The terms repeat every five iterations. */
  lemma SearchQueriesCycle(iteration: nat)
    ensures SearchQuery(iteration + |SearchQueries|) == SearchQuery(iteration)
    ensures SearchQuery(iteration) == SearchQueries[iteration % 5]
  {
  }

  /** `runResellerSearchTest`. */
  function RunResellerSearchTest(api: ApiType, reps: seq<Repetition<Response<seq<Reseller>>>>): (rs: seq<TestResult>)
    ensures |rs| == |reps| + PauseFaults(reps)
    ensures forall i :: 0 <= i < |rs| ==> Tagged(rs[i], SearchConfig(api))
  {
    var c := SearchConfig(api);
    var normal := (o: Response<seq<Reseller>>, t: Trial<Response<seq<Reseller>>>) => CallRecord(c, o, ProbeOf(t), t.timestamp, ResellersTransfer);
    var failure := (m: Option<string>, ts: int) => FailureRecord(c, m, ts);
    RecordCount(reps, normal, failure);
    RunTagged(reps, normal, failure, c);
    RunTrials(reps, normal, failure)
  }

  // ---------------------------------------------------------------------
  // The real-world scenario

  /** The four collected steps of one scenario (products, packages, all
      resellers, one search) with their step times, and the whole time. */
  datatype Scenario = Scenario(
    products: seq<ApiResponse<seq<Product>>>, productTime: int,
    packages: seq<ApiResponse<seq<PackageProduct>>>, packageTime: int,
    resellers: seq<ApiResponse<seq<Reseller>>>, resellerLoadTime: int,
    search: seq<ApiResponse<seq<Reseller>>>, searchTime: int,
    totalTime: int)

  predicate ScenarioSucceeded(s: Scenario) {
    EndedWithSuccess(s.products) && EndedWithSuccess(s.packages) &&
    EndedWithSuccess(s.resellers) && EndedWithSuccess(s.search)
  }

  /** The first step, in scenario order, whose flow ended with an `Error`,
      named after its step. */
  function ScenarioError(s: Scenario): (m: Option<string>)
    ensures EndingError(s.products).Some? ==> m == Some("Product error: " + EndingError(s.products).value)
    ensures EndingError(s.products).None? && EndingError(s.packages).Some? ==>
      m == Some("Package error: " + EndingError(s.packages).value)
    ensures EndingError(s.products).None? && EndingError(s.packages).None? && EndingError(s.resellers).Some? ==>
      m == Some("Reseller load error: " + EndingError(s.resellers).value)
    ensures EndingError(s.products).None? && EndingError(s.packages).None? && EndingError(s.resellers).None? ==>
      m == (if EndingError(s.search).Some? then Some("Search error: " + EndingError(s.search).value) else None)
    ensures ScenarioSucceeded(s) ==> m.None?
  {
    if EndingError(s.products).Some? then Some("Product error: " + EndingError(s.products).value)
    else if EndingError(s.packages).Some? then Some("Package error: " + EndingError(s.packages).value)
    else if EndingError(s.resellers).Some? then Some("Reseller load error: " + EndingError(s.resellers).value)
    else if EndingError(s.search).Some? then Some("Search error: " + EndingError(s.search).value)
    else None
  }

  function SuccessSize<T>(emitted: seq<ApiResponse<T>>, transfer: T -> int): int {
    if EndedWithSuccess(emitted) then transfer(LastEmitted(emitted).value.data) else 0
  }

  /** The record of a completed scenario. */
  function ScenarioRecord(api: ApiType, s: Scenario, p: Probe, timestamp: int): (rec: TestResult)
    ensures Tagged(rec, RealWorldConfig(api))
    ensures rec.success <==> ScenarioSucceeded(s)
    ensures rec.errorMessage == ScenarioError(s)
    ensures rec.networkTime == s.productTime + s.packageTime + s.resellerLoadTime + s.searchTime
    ensures rec.timeToFirstRender == s.productTime && rec.totalResponseTime == s.totalTime
    ensures rec.parsingTime == 0 && rec.queryComplexity == 4
    ensures rec.dataTransferSize ==
      SuccessSize(s.products, ProductsTransfer) + SuccessSize(s.packages, PackagesTransfer) +
      SuccessSize(s.resellers, ResellersTransfer) + SuccessSize(s.search, ResellersTransfer)
  {
    var c := RealWorldConfig(api);
    TestResult(c.apiType, c.testType, c.testScenario, c.dataSize, c.loadLevel,
      s.productTime + s.packageTime + s.resellerLoadTime + s.searchTime,
      0, s.totalTime, s.productTime,
      p.memoryUsage, p.peakMemoryUsage, p.cpuUsage, p.peakCpuUsage,
      timestamp, ScenarioSucceeded(s), ScenarioError(s),
      SuccessSize(s.products, ProductsTransfer) + SuccessSize(s.packages, PackagesTransfer) +
      SuccessSize(s.resellers, ResellersTransfer) + SuccessSize(s.search, ResellersTransfer),
      4)
  }

  /** A failed scenario puts the sentinel in every time field. */
  function ScenarioFailureRecord(api: ApiType, message: Option<string>, timestamp: int): (rec: TestResult)
    ensures Tagged(rec, RealWorldConfig(api)) && !Counts(rec)
    ensures rec.networkTime == -1 && rec.parsingTime == -1 && rec.totalResponseTime == -1 && rec.timeToFirstRender == -1
    ensures !rec.success && rec.errorMessage == message
    ensures rec.memoryUsage == 0 && rec.peakMemoryUsage == 0 && rec.cpuUsage == 0.0 && rec.peakCpuUsage == 0.0
    ensures rec.dataTransferSize == 0 && rec.queryComplexity == 0 && rec.timestamp == timestamp
  {
    FailureRecord(RealWorldConfig(api), message, timestamp).(networkTime := -1, parsingTime := -1, timeToFirstRender := -1)
  }

  /** `runRealWorldScenarioTest`. A throw anywhere in the four steps or the
      delays between them is the scenario outcome's throw. */
  function RunRealWorldScenarioTest(api: ApiType, reps: seq<Repetition<Scenario>>): (rs: seq<TestResult>)
    ensures |rs| == |reps| + PauseFaults(reps)
    ensures forall i :: 0 <= i < |rs| ==> Tagged(rs[i], RealWorldConfig(api))
  {
    var normal := (o: Scenario, t: Trial<Scenario>) => ScenarioRecord(api, o, ProbeOf(t), t.timestamp);
    var failure := (m: Option<string>, ts: int) => ScenarioFailureRecord(api, m, ts);
    RecordCount(reps, normal, failure);
    RunTagged(reps, normal, failure, RealWorldConfig(api));
    RunTrials(reps, normal, failure)
  }

  /** A scenario whose four steps each ended in `Success` is a success with
      no message; one whose product step failed is reported under the
      product step even when later steps failed as well. */
  lemma ScenarioVerdicts(s: Scenario, m: string)
    ensures ScenarioSucceeded(s) ==> ScenarioError(s).None?
    ensures LastEmitted(s.products) == Some(Error(m)) ==>
      ScenarioError(s) == Some("Product error: " + m) && !ScenarioSucceeded(s)
  {
  }

  // ---------------------------------------------------------------------
  // The manager's quick test

  /** `runQuickTest` of the manager: one measured product call of size 50,
      recorded as "QUICK_TEST" with no transfer size or complexity; a throw
      is passed on to the caller instead of being recorded. */
  function RunQuickTest(api: ApiType, t: Trial<Response<seq<Product>>>): (r: Call<TestResult>)
    ensures r.Threw? <==> TrialFault(t).Some?
    ensures r.Threw? ==> r.message == TrialFault(t).value
    ensures r.Returned? ==>
      var rec := r.value;
      Tagged(rec, Config(api, "QUICK_TEST", "INDIVIDUAL_PRODUCTS_ONLY", 50, 100)) &&
      (rec.success <==> EndedWithSuccess(t.outcome.value.emitted)) &&
      rec.errorMessage == EndingError(t.outcome.value.emitted) &&
      rec.totalResponseTime == t.outcome.value.elapsed &&
      rec.dataTransferSize == 0 && rec.queryComplexity == 0
  {
    match TrialFault(t)
    case Some(m) => Threw(m)
    case None =>
      var c := Config(api, "QUICK_TEST", "INDIVIDUAL_PRODUCTS_ONLY", 50, 100);
      Returned(CallRecord(c, t.outcome.value, ProbeOf(t), t.timestamp, ProductsTransfer).(dataTransferSize := 0, queryComplexity := 0))
  }

  // ---------------------------------------------------------------------
  // The connectivity check

  /** `testApiConnectivity`: true only when the collected flow delivered at
      least one value and the last non-`Loading` value was a `Success`; a
      throw or a timeout is false. */
  function Connectivity<T>(collected: Call<seq<ApiResponse<T>>>): bool {
    match collected
    case Threw(_) => false
    case Returned(rs) => |rs| > 0 && LastVerdict(rs)
  }

  function LastVerdict<T>(rs: seq<ApiResponse<T>>): bool
    decreases |rs|
  {
    if |rs| == 0 then false
    else match rs[|rs| - 1]
      case Success(_) => true
      case Error(_) => false
      case Loading => LastVerdict(rs[..|rs| - 1])
  }

  /** Against the repository's `Loading`-then-terminal flow the check is
      exactly "the call succeeded". */
  lemma ConnectivityOfRepositoryFlow<T>(emitted: seq<ApiResponse<T>>)
    requires LoadingThenTerminal(emitted)
    ensures Connectivity(Returned(emitted)) <==> emitted[1].Success?
  {
    assert emitted[..1] == [Loading];
  }
}
